=== FILE: README.md ===
# Tombs of Amascut helper: a Dafny model of its decision logic

This project models the decision logic of the "ToA Extended" RuneLite plugin, a
helper for the Tombs of Amascut raid. The plugin is a set of single-threaded,
event-driven components. Each one keeps a small record of what it has seen and
updates it on game events: game ticks, NPC spawns and changes, projectiles,
graphics objects, chat messages and menu entries. The model gives each component
an immutable datatype and one pure function per event handler. Lemmas then relate
several events: traces of ticks, round trips and invariants.

The model covers:

- **The attack-prediction queue.** This covers `AttackProjectile` (prayer, ticks,
  priority; tick decay; the (ticks, priority) order) and the tick step "decrement
  every hazard, drop the expired ones". It also covers the cycle-to-tick
  conversion and each boss's enqueue rules:
  - Zebak: rocks and blood magic.
  - Wardens phase 2: a start-cycle stamp shared by all attacks, distance
    compensation, and fixed five-tick specials.
  - Wardens phase 3: phantom-Zebak rocks, the phantom Akkha's prayer, the slam
    cycle, and the siphon, boulder and red-lightning countdowns.
- **The prayer widget overlay.** This covers the per-tick priority map and its
  tie-break, the filled-versus-outlined choice for descending boxes, the widget
  countdown, the prayer-to-widget mapping, and the phase-3 widget's next prayer.
- **The component lifecycle manager.** Each component has a started flag that is
  revalidated against an activation predicate. Start, replay and shutdown may
  each fail; the host decides which, and the model takes that choice as a
  parameter. `activation.dfy` collects the components' `isEnabled` tests into the
  one predicate the manager revalidates against, and follows the manager and the
  tracker together over a trace of ticks.
- **The raid-state tracker.** It has a three-tick leave hysteresis and publishes a
  change only when the state actually changes.
- **The encounters.**
  - Akkha's style and countdown, and its memory-blast tile queue.
  - Kephri's attack counter and egg timers.
  - Ba-Ba's boulders, shockwave slot and tracked objects.
  - The points estimate.
  - The four Scabaras puzzles: the light puzzle's XOR solver, the matching
    tiles, the five-tile sequence and the obelisk order.
  - Apmeken's sense machine and baboon lists.
  - Het's beam timer and pickaxe menu rule.
  - The quick-proceed menu swaps.
- **The integer geometry of three scene overlays.** These are Akkha's
  unstable-orb rays, the phase-2 lightning pattern and Ba-Ba's shockwave pattern.
  The model also covers the threshold colours and the health counters.

Host objects (NPCs, projectiles, graphics and game objects) are opaque handles
(`Handle = nat`). Equal handles mean the same host object. The host's id
constants are not visible, so each module names the id classes it
distinguishes as an enumeration, and the event carries that class. Ids written as
literals in the source stay integers.

Host queries become event parameters, usually as total functions over handles:

- remaining cycles and "finished" flags;
- the tick count;
- the 2-D tile distance;
- the region id and `RaidRoom.fromRegionId`;
- the path level;
- widget visibility;
- world-area sizes.

Java's `/` truncates toward zero, and it is modelled by `Common.JavaDiv`.
`PriorityQueue` is a sequence in iteration order. That order is left
unspecified, so properties are stated on membership and multisets, and `peek`
returns some minimal element. The host constants `CYCLES_PER_GAME_TICK` and
`LOCAL_TILE_SIZE` are 30 and 128.

One module per source file, in one `.dfy` file each. `common.dfy` holds the shared
helpers (option type, prayers, points, string prefixes, truncating division,
first-occurrence removal). `countdown.dfy` and `hazard_queue.dfy` hold the
countdown maps and the hazard queue that several bosses share, and
`overlay_geometry.dfy` the offset arithmetic the overlays share.

## Model

| member | source | states |
|---|---|---|
| Common.Filter | src/main/java/ca/plugins/toaextended/boss/zebak/Zebak.java:196-204 | `removeIf` on a list: a value survives exactly when it was there and is not dropped, and the list never grows |
| Common.FilterAppend | src/main/java/ca/plugins/toaextended/boss/zebak/Zebak.java:196-204 | filtering a concatenation is the concatenation of the filtered parts, so survivors keep their relative order |
| Common.FilterSingle | src/main/java/ca/plugins/toaextended/boss/zebak/Zebak.java:196-204 | a single element survives exactly when it is not dropped |
| Common.FilterCounts | src/main/java/ca/plugins/toaextended/boss/zebak/Zebak.java:196-204 | every surviving value keeps all its copies and every dropped value loses all of them |
| AttackProjectiles.WithDefaultPriority | src/main/java/ca/plugins/toaextended/boss/AttackProjectile.java:57-60 | the two-argument constructor keeps the given prayer and ticks and gives priority 0 |
| AttackProjectiles.DecrementTicks | src/main/java/ca/plugins/toaextended/boss/AttackProjectile.java:62-68 | positive ticks fall by exactly one, zero or negative ticks stay, prayer and priority never change; decay from a non-negative count never goes negative |
| AttackProjectiles.ExpiresAfterExactly | src/main/java/ca/plugins/toaextended/boss/AttackProjectile.java:62-73 | a hazard created with n >= 1 ticks reads n - k after k <= n decays, is expired exactly when k >= n (never earlier), and keeps its prayer and priority throughout |
| AttackProjectiles.NegativeNeverExpires | src/main/java/ca/plugins/toaextended/boss/AttackProjectile.java:50-73 | the constructor does not validate: a hazard with negative ticks is unchanged by any number of decays and is never expired |
| AttackProjectiles.Compare | src/main/java/ca/plugins/toaextended/boss/AttackProjectile.java:75-81 | `compareTo` answers -1, 0 or 1 (its meaning is stated by the next lemma) |
| AttackProjectiles.CompareIsLexicographic | src/main/java/ca/plugins/toaextended/boss/AttackProjectile.java:75-81 | `compareTo` is negative iff fewer ticks, or equal ticks and lower priority; zero iff ticks and priority both agree; antisymmetric |
| AttackProjectiles.PrecedesIsStrictOrder | src/main/java/ca/plugins/toaextended/boss/AttackProjectile.java:75-81 | the queue order is irreflexive, asymmetric, transitive, and its incomparability is transitive (a strict weak order) |
| AttackProjectiles.DecayPreservesOrder | src/main/java/ca/plugins/toaextended/boss/AttackProjectile.java:62-81 | decaying two live hazards one tick keeps their relative order |
| HazardQueues.Add | src/main/java/ca/plugins/toaextended/boss/zebak/Zebak.java:239-248 | adding a hazard adds exactly that element to the queue's multiset |
| HazardQueues.Tick | src/main/java/ca/plugins/toaextended/boss/zebak/Zebak.java:190-194 | the tick step keeps no expired hazard, keeps every hazard still live after one decrement, and everything kept is a decremented original |
| HazardQueues.TickDropsExactlyTheDue | src/main/java/ca/plugins/toaextended/boss/zebak/Zebak.java:190-194 | the tick removes exactly the hazards at 0 or 1 ticks, no others |
| HazardQueues.TickCounts | src/main/java/ca/plugins/toaextended/boss/zebak/Zebak.java:190-194 | multiplicity: after a tick each live value occurs exactly as often as the one value it decayed from did before, and no expired value occurs |
| HazardQueues.UndecayedIsThePredecessor | src/main/java/ca/plugins/toaextended/boss/AttackProjectile.java:62-68 | a live entry has exactly one predecessor under the decrement, so distinct hazards never merge |
| HazardQueues.TickKeepsDuplicates | src/main/java/ca/plugins/toaextended/boss/zebak/Zebak.java:190-194 | two identical live hazards and a third one stay two and one after a tick |
| HazardQueues.Peek | src/main/java/ca/plugins/toaextended/boss/PrayerWidgetOverlay.java:138-147 | `peek` is empty iff the queue is, and otherwise a queued hazard no other hazard precedes |
| HazardQueues.HeadsAgree | src/main/java/ca/plugins/toaextended/boss/PrayerWidgetOverlay.java:138-147 | any two possible heads agree on ticks and priority, so the displayed countdown does not depend on the queue's internal order |
| HazardQueues.TickKeepsHead | src/main/java/ca/plugins/toaextended/boss/zebak/Zebak.java:190-194 | when the head survives a tick, the new head has one tick fewer and the same priority |
| HazardQueues.PeekExample | src/main/java/ca/plugins/toaextended/boss/PrayerWidgetOverlay.java:138-147 | worked example of `Peek`, not a separate property: hazards due in 3, 1 and 2 ticks have the 1-tick hazard at their head |
| Countdowns.Decrement | src/main/java/ca/plugins/toaextended/boss/warden/phase3/WardenP3.java:250-265 | the siphon step lowers every counter by one and removes none |
| Countdowns.DecrementAndDrop | src/main/java/ca/plugins/toaextended/boss/baba/Baba.java:200-204 | the boulder step keeps exactly the counters above 1, each lowered by one and still positive |
| Countdowns.DroppedAfterExactly | src/main/java/ca/plugins/toaextended/boss/baba/Baba.java:200-204 | a counter set to n >= 1 is present with n - k after k < n ticks and absent from tick n on |
| Countdowns.GoneStaysGone | src/main/java/ca/plugins/toaextended/boss/baba/Baba.java:200-204 | a dropped counter never reappears on later ticks |
| Countdowns.DecrementsForever | src/main/java/ca/plugins/toaextended/boss/warden/phase3/WardenP3.java:250-265 | without the drop, a counter stays and reads its start minus the ticks elapsed, below zero too |
| ToaUtils.CyclesToTicksBracket | src/main/java/ca/plugins/toaextended/util/ToaUtils.java:140-143 | for c >= 0 cycles the tick count t is at least 1 and satisfies (t - 1) * 30 <= c < t * 30 |
| ToaUtils.CyclesToTicksExamples | src/main/java/ca/plugins/toaextended/util/ToaUtils.java:140-143 | worked examples of the conversion, not a separate property: 0 cycles is 1 tick, 30 cycles is 2 ticks, -29 cycles truncates to 1 tick |
| ToaUtils.CyclesToTicksMonotone | src/main/java/ca/plugins/toaextended/util/ToaUtils.java:140-143 | more cycles never give fewer ticks, for non-negative counts |
| ToaUtils.HpUntilNextBreakPoint | src/main/java/ca/plugins/toaextended/util/ToaUtils.java:159-170 | the result is the hit points themselves or their distance to some breakpoint below them, and the hit points when no breakpoint is below |
| ToaUtils.HpUntilFirstBelow | src/main/java/ca/plugins/toaextended/util/ToaUtils.java:159-170 | the distance is to the first breakpoint in array order that lies below the hit points |
| ToaUtils.HpUntilNoneBelow | src/main/java/ca/plugins/toaextended/util/ToaUtils.java:159-170 | with no breakpoint below, the answer is the current hit points |
| ToaUtils.HpUntilInRange | src/main/java/ca/plugins/toaextended/util/ToaUtils.java:159-170 | with non-negative breakpoints and positive hit points the answer is in 1..currentHp |
| ToaUtils.HpUntilLargestBelow | src/main/java/ca/plugins/toaextended/util/ToaUtils.java:159-170 | with descending breakpoints the breakpoint used is the largest one below the hit points |
| ToaUtils.DeriveBreakpoints | src/main/java/ca/plugins/toaextended/boss/zebak/Zebak.java:279-310 | each breakpoint is the truncated percentage of the maximum hit points |
| ToaUtils.DerivedBreakpointsNonIncreasing | src/main/java/ca/plugins/toaextended/boss/zebak/Zebak.java:279-310 | descending percentages of a positive maximum give non-increasing, non-negative breakpoints, the premise of the largest-below lemma |
| ToaUtils.RectangleToPolygon | src/main/java/ca/plugins/toaextended/util/ToaUtils.java:67-73 | four corners starting at (x, y); their x values are x and x + w and their y values y and y + h, every such combination is a corner, and for a non-degenerate rectangle the corners are pairwise distinct and each edge, the closing one included, is horizontal or vertical |
| ToaUtils.OnHpHudUpdate | src/main/java/ca/plugins/toaextended/boss/zebak/Zebak.java:279-310 | breakpoints are derived once from the first usable maximum; a positive current value sets the distance to the next breakpoint; otherwise nothing changes |
| ToaUtils.BreakpointsFrozen | src/main/java/ca/plugins/toaextended/boss/zebak/Zebak.java:279-310 | once breakpoints exist a later maximum has no effect |
| PrayerWidget.PrayerWidgetChild | src/main/java/ca/plugins/toaextended/boss/PrayerWidgetOverlay.java:235-256 | each protection prayer has a widget child in 21..23, every other prayer none |
| PrayerWidget.PrayerWidgetChildInjective | src/main/java/ca/plugins/toaextended/boss/PrayerWidgetOverlay.java:235-256 | different prayers never share a widget |
| PrayerWidget.TickPriorityMapFrom | src/main/java/ca/plugins/toaextended/boss/PrayerWidgetOverlay.java:200-218 | the fold keeps every key it started with and adds the tick of every queued hazard |
| PrayerWidget.TickPriorityMap | src/main/java/ca/plugins/toaextended/boss/PrayerWidgetOverlay.java:200-218 | every queued hazard's tick is a key |
| PrayerWidget.FoldKeys | src/main/java/ca/plugins/toaextended/boss/PrayerWidgetOverlay.java:200-218 | every stored entry sits under its own tick and is the start map's entry or a queued hazard |
| PrayerWidget.FoldMinimal | src/main/java/ca/plugins/toaextended/boss/PrayerWidgetOverlay.java:204-215 | the entry under a tick has a priority no greater than any queued hazard at that tick |
| PrayerWidget.TickPriorityMapSpec | src/main/java/ca/plugins/toaextended/boss/PrayerWidgetOverlay.java:200-218 | the keys are exactly the ticks in the queue; each entry is a queued hazard with that tick and the lowest priority among them |
| PrayerWidget.FirstLowestKept | src/main/java/ca/plugins/toaextended/boss/PrayerWidgetOverlay.java:211-214 | among hazards tied at the lowest priority for a tick, the first in iteration order is the one kept (the comparison is strict) |
| PrayerWidget.KeptUntilBeaten | src/main/java/ca/plugins/toaextended/boss/PrayerWidgetOverlay.java:211-214 | an entry stays under its tick until a later hazard at that tick has a strictly lower priority |
| PrayerWidget.TieBreakExample | src/main/java/ca/plugins/toaextended/boss/PrayerWidgetOverlay.java:211-214 | worked example of `FirstLowestKept`, not a separate property: two different prayers tied at one tick, the first one met is kept |
| PrayerWidget.WidgetCountdown | src/main/java/ca/plugins/toaextended/boss/PrayerWidgetOverlay.java:138-147 | no countdown for a missing or empty queue; otherwise a head hazard's ticks, urgent (red) iff at most 1 |
| PrayerWidget.BoxFor | src/main/java/ca/plugins/toaextended/boss/PrayerWidgetOverlay.java:172-196 | a box hangs from its prayer's widget at its hazard's tick, uses the warning colour iff the tick is 1, is filled iff its prayer is its tick's priority prayer, and otherwise is outlined only when non-priority boxes are on |
| PrayerWidget.Boxes | src/main/java/ca/plugins/toaextended/boss/PrayerWidgetOverlay.java:156-198 | one box per queued hazard with a loaded widget, in order; every box comes from a queued hazard; filled exactly for the tick's priority prayer; every priority hazard with a loaded widget gets its filled box |
| PrayerWidget.Render | src/main/java/ca/plugins/toaextended/boss/PrayerWidgetOverlay.java:92-114 | nothing is drawn when the overlay is off or the prayer tab is closed; the highlight shows the next prayer and the head countdown exactly in the widget modes with a loaded child; with descending boxes on and a queue present the boxes are exactly one per hazard against the tick-priority map, none otherwise |
| PrayerWidget.OnePrayerPerTick | src/main/java/ca/plugins/toaextended/boss/PrayerWidgetOverlay.java:156-198 | all filled boxes at one tick show the same prayer |
| Raid.OnGameTick | src/main/java/ca/plugins/toaextended/util/RaidStateTracker.java:75-96 | the leave counter resets to 3 on a raw in-raid tick and otherwise falls by one; in-raid iff the counter is positive; lobby iff region 13454; the state is replaced and an event published iff it changed |
| Raid.CurrentRoomIsLastRegion | src/main/java/ca/plugins/toaextended/util/RaidStateTracker.java:75-101 | after any non-empty run of ticks the current room is the host room of the last tick's region, regardless of earlier ticks |
| Raid.LeaveCounterFalls | src/main/java/ca/plugins/toaextended/util/RaidStateTracker.java:85-87 | k consecutive raw-false ticks lower the counter by exactly k, with no floor |
| Raid.LeaveAfterExactlyThree | src/main/java/ca/plugins/toaextended/util/RaidStateTracker.java:85-88 | after a raw-true tick, in-raid is still reported for up to two raw-false ticks, and the third reports leaving |
| Raid.StateTracksCounter | src/main/java/ca/plugins/toaextended/util/RaidStateTracker.java:87-88 | after any non-empty run the stored in-raid flag agrees with the counter |
| Raid.InitialGrace | src/main/java/ca/plugins/toaextended/util/RaidStateTracker.java:60-96 | from the initial counter of 3, the first two ticks report in-raid even with no raw signal, the third does not |
| Raid.NoLocalPointIsNotLobby | src/main/java/ca/plugins/toaextended/util/RaidStateTracker.java:78-83 | a missing local point is region -1: never the lobby, room looked up for -1 |
| Raid.NoRepeatedEvent | src/main/java/ca/plugins/toaextended/util/RaidStateTracker.java:90-95 | repeating an identical observation publishes nothing |
| Lifecycle.TryStartUp | src/main/java/ca/plugins/toaextended/module/ComponentManager.java:119-141 | a started component gets no call; otherwise start, then replay unless start failed, and the flag is set iff both succeeded; other flags unchanged |
| Lifecycle.TryShutDown | src/main/java/ca/plugins/toaextended/module/ComponentManager.java:143-167 | only a started component gets a shutdown call, and the flag ends false even when it throws; other flags unchanged |
| Lifecycle.Step | src/main/java/ca/plugins/toaextended/module/ComponentManager.java:95-117 | one component's turn settles its flag and logs its calls, touching no other flag |
| Lifecycle.Revalidate | src/main/java/ca/plugins/toaextended/module/ComponentManager.java:95-117 | every component of the pass ends with its settled flag; components outside the pass keep theirs |
| Lifecycle.StepCallsJustified | src/main/java/ca/plugins/toaextended/module/ComponentManager.java:95-117 | one step only starts a stopped component that should run, or stops a started one that should not |
| Lifecycle.RevalidateCalls | src/main/java/ca/plugins/toaextended/module/ComponentManager.java:95-117 | no start on a started component and no shutdown on a stopped one, across the whole pass |
| Lifecycle.RevalidateIdempotent | src/main/java/ca/plugins/toaextended/module/ComponentManager.java:95-117 | after a pass whose starts all succeeded, a second pass with the same inputs makes no calls and changes nothing |
| Lifecycle.NoCallsWhenSettled | src/main/java/ca/plugins/toaextended/module/ComponentManager.java:101-106 | when every flag already equals its predicate the pass makes no call |
| Lifecycle.FailedStartRetried | src/main/java/ca/plugins/toaextended/module/ComponentManager.java:119-141 | a failed start or replay leaves the flag false, so the next pass calls start again |
| Lifecycle.StartCalledWhenNeeded | src/main/java/ca/plugins/toaextended/module/ComponentManager.java:95-117 | a stopped component that should run always receives a start call |
| Lifecycle.FailuresIsolated | src/main/java/ca/plugins/toaextended/module/ComponentManager.java:95-141 | a component's resulting flag does not depend on other components' failures |
| Lifecycle.OnPluginStart | src/main/java/ca/plugins/toaextended/module/ComponentManager.java:63-68 | all flags start false; afterwards a component runs iff enabled and its start and replay succeeded; only start and replay calls are made |
| Lifecycle.ShutDownStarted | src/main/java/ca/plugins/toaextended/module/ComponentManager.java:70-76 | exactly the started components in the list are shut down, and every flag in it ends false |
| Lifecycle.OnPluginStop | src/main/java/ca/plugins/toaextended/module/ComponentManager.java:70-76 | plugin stop shuts down exactly the started components and leaves every flag false |
| Lifecycle.OnConfigChanged | src/main/java/ca/plugins/toaextended/module/ComponentManager.java:79-87 | another configuration group triggers nothing; the plugin's own group revalidates |
| Lifecycle.OnRaidStateChanged | src/main/java/ca/plugins/toaextended/module/ComponentManager.java:90-93 | a raid-state change always revalidates every component against its predicate |
| AkkhaBoss.IsEnabled | src/main/java/ca/plugins/toaextended/boss/akkha/Akkha.java:101-104 | active exactly in Akkha's room |
| ApmekenChallenge.IsEnabled | src/main/java/ca/plugins/toaextended/challenge/apmeken/Apmeken.java:101-104 | active exactly in Apmeken's room |
| BabaBoss.IsEnabled | src/main/java/ca/plugins/toaextended/boss/baba/Baba.java:133-136 | active exactly in Ba-Ba's room |
| HetChallenge.IsEnabled | src/main/java/ca/plugins/toaextended/challenge/het/Het.java:134-137 | active exactly in Het's room |
| KephriBoss.IsEnabled | src/main/java/ca/plugins/toaextended/boss/kephri/Kephri.java:118-121 | active exactly in Kephri's room |
| PointsTracking.IsEnabled | src/main/java/ca/plugins/toaextended/pointstracker/PointsTracker.java:171-174 | active exactly while the tracker reports being in the raid |
| QuickProceedSwaps.IsEnabled | src/main/java/ca/plugins/toaextended/challenge/QuickProceedSwaps.java:83-86 | active exactly in the raid with the swap mode not off |
| ScabarasLight.IsEnabled | src/main/java/ca/plugins/toaextended/challenge/scabaras/ScabarasLightPuzzle.java:97-100 | active exactly in Scabaras's room with the light-puzzle option on |
| ScabarasMatching.IsEnabled | src/main/java/ca/plugins/toaextended/challenge/scabaras/ScabarasMatchingPuzzle.java:89-92 | active exactly in Scabaras's room with the matching-puzzle option on |
| ScabarasObelisk.IsEnabled | src/main/java/ca/plugins/toaextended/challenge/scabaras/ScabarasObeliskPuzzle.java:88-91 | active exactly in Scabaras's room with the obelisk-puzzle option on |
| ScabarasSequence.IsEnabled | src/main/java/ca/plugins/toaextended/challenge/scabaras/ScabarasSequencePuzzle.java:78-81 | active exactly in Scabaras's room with the sequence-puzzle option on |
| WardenP2Boss.IsEnabled | src/main/java/ca/plugins/toaextended/boss/warden/phase2/WardenP2.java:139-142 | active exactly in the phase-2 room |
| WardenP3Boss.IsEnabled | src/main/java/ca/plugins/toaextended/boss/warden/phase3/WardenP3.java:185-188 | active exactly in the phase-3 room |
| WardenP3Boss.WidgetIsEnabled | src/main/java/ca/plugins/toaextended/boss/warden/phase3/WardenP3PrayerWidgetOverlay.java:63-66 | the prayer widget delegates to phase 3's test |
| ZebakBoss.IsEnabled | src/main/java/ca/plugins/toaextended/boss/zebak/Zebak.java:127-130 | active exactly in Zebak's room |
| Activation.ShouldRun | src/main/java/ca/plugins/toaextended/module/ComponentManager.java:95-117 | the per-component test the manager revalidates against: a room-bound component exactly in its room with its option on, the points tracker exactly in the raid; the menu swaps in the raid with their mode not off |
| Activation.Drive | src/main/java/ca/plugins/toaextended/module/ComponentManager.java:89-93 | ticks drive the tracker as on their own, and each published change revalidates the components once; the manager stays well formed |
| Activation.Started | src/main/java/ca/plugins/toaextended/module/ComponentManager.java:63-68 | after plugin start with no start throwing, every flag equals its test in the initial raid state |
| Activation.DriveKeepsSynced | src/main/java/ca/plugins/toaextended/module/ComponentManager.java:89-117 | with no start throwing, flags that equal their tests stay equal to them after any trace of ticks |
| Activation.SyncedMeans | src/main/java/ca/plugins/toaextended/module/ComponentManager.java:95-117 | flags that equal their tests run each room-bound component only in its room, so running room-bound components share one room; Akkha's memory blast runs exactly with Akkha and the phase-3 widget exactly with phase 3; the points tracker exactly in the raid |
| Activation.RunningFollowsLastRoom | src/main/java/ca/plugins/toaextended/module/ComponentManager.java:89-117 | from plugin start, after any non-empty trace with no start throwing, a room-bound component runs exactly when the last tick's region is its room and its option is on |
| ZebakBoss.ProjectileTickCount | src/main/java/ca/plugins/toaextended/boss/zebak/Zebak.java:403-406 | the extra delay is 2 ticks from path level 4 on, else 3 |
| ZebakBoss.OnProjectileMoved | src/main/java/ca/plugins/toaextended/boss/zebak/Zebak.java:228-258 | landed projectiles change nothing; magic and range rocks enqueue their prayer at the converted ticks plus the path delay; arena projectiles are only tracked; other ids change nothing |
| ZebakBoss.OnGraphicsObjectCreated | src/main/java/ca/plugins/toaextended/boss/zebak/Zebak.java:261-276 | a blood-magic cloud is always tracked, and enqueues one priority-1 magic hazard of 4 ticks only when no cloud was tracked |
| ZebakBoss.OnGameTick | src/main/java/ca/plugins/toaextended/boss/zebak/Zebak.java:186-205 | the queue takes one tick step; finished clouds and landed arena projectiles leave |
| ZebakBoss.OnNpcSpawned | src/main/java/ca/plugins/toaextended/boss/zebak/Zebak.java:208-216 | the boss is recognised by its name |
| ZebakBoss.OnNpcDespawned | src/main/java/ca/plugins/toaextended/boss/zebak/Zebak.java:219-225 | the tracked boss leaving resets the whole component |
| ZebakBoss.OnHpHudUpdate | src/main/java/ca/plugins/toaextended/boss/zebak/Zebak.java:279-310 | breakpoints at 85, 70, 55 and 40 percent; the queue and NPC are untouched |
| ZebakBoss.RockHazardLifetime | src/main/java/ca/plugins/toaextended/boss/zebak/Zebak.java:239-248 | a rock hazard starts with at least 3 ticks and expires after exactly its start count of ticks |
| ZebakBoss.OneBloodHazardPerWave | src/main/java/ca/plugins/toaextended/boss/zebak/Zebak.java:261-276 | while a cloud is tracked, any further clouds add no hazard and are appended to the tracked list |
| WardenP2Boss.ProjectileCycles | src/main/java/ca/plugins/toaextended/boss/warden/phase2/WardenP2.java:414-420 | the remaining flight plus three cycles per tile of distance, never less than the flight |
| WardenP2Boss.AttackFor | src/main/java/ca/plugins/toaextended/boss/warden/phase2/WardenP2.java:228-280 | white skull is missiles and red skull magic, at the converted distance-compensated ticks; scimitar, arrow and spell are melee, missiles and magic at exactly 5 ticks; priority 0 |
| WardenP2Boss.OnProjectileMoved | src/main/java/ca/plugins/toaextended/boss/warden/phase2/WardenP2.java:210-295 | landed projectiles or ones aimed elsewhere are ignored; an attack repeating the last stamp is dropped, otherwise enqueued and stamped; lightning, black skulls and the core are tracked and never enqueued |
| WardenP2Boss.AttackTicksBounds | src/main/java/ca/plugins/toaextended/boss/warden/phase2/WardenP2.java:236-253 | every enqueued attack is due in at least one tick, and distance only delays the skulls |
| WardenP2Boss.StampShared | src/main/java/ca/plugins/toaextended/boss/warden/phase2/WardenP2.java:228-280 | after an accepted attack, any attack type with the same start cycle is dropped |
| WardenP2Boss.OnGameTick | src/main/java/ca/plugins/toaextended/boss/warden/phase2/WardenP2.java:178-207 | the queue takes one tick step, landed lightning and skulls leave, a landed core is cleared, and a running core timer counts up by one |
| WardenP2Boss.OnNpcSpawned | src/main/java/ca/plugins/toaextended/boss/warden/phase2/WardenP2.java:298-308 | a core spawn starts its timer at 0 |
| WardenP2Boss.OnNpcDespawned | src/main/java/ca/plugins/toaextended/boss/warden/phase2/WardenP2.java:311-319 | only the timed core's despawn clears the timer |
| WardenP2Boss.OnNpcChanged | src/main/java/ca/plugins/toaextended/boss/warden/phase2/WardenP2.java:322-330 | a change into a combat warden form tracks that NPC |
| WardenP2Boss.OnHpHudUpdate | src/main/java/ca/plugins/toaextended/boss/warden/phase2/WardenP2.java:333-353 | damage dealt becomes maximum minus current only when the maximum exceeds 1 and the current value is positive |
| WardenP2Boss.TimerAdvances | src/main/java/ca/plugins/toaextended/boss/warden/phase2/WardenP2.java:178-207 | over k ticks a running core timer rises by exactly k and keeps its core |
| WardenP2Boss.CoreTimerCounts | src/main/java/ca/plugins/toaextended/boss/warden/phase2/WardenP2.java:298-308 | k ticks after a core spawns, its timer reads k |
| WardenP3Boss.NextSlamDirection | src/main/java/ca/plugins/toaextended/boss/warden/phase3/WardenP3.java:574-587 | the next slam is always a different direction |
| WardenP3Boss.SlamCycle | src/main/java/ca/plugins/toaextended/boss/warden/phase3/WardenP3.java:574-587 | the successor visits all three directions and returns after three steps |
| WardenP3Boss.ByAnimId | src/main/java/ca/plugins/toaextended/boss/warden/phase3/WardenP3.java:588-616 | 9674/9675 are right, 9676/9677 left, 9678/9679 middle, anything else none |
| WardenP3Boss.SafeTileCoord | src/main/java/ca/plugins/toaextended/boss/warden/phase3/WardenP3.java:467-494 | the safe tile for a right slam is the left point, for a left slam the right point, for a middle slam the middle point, all on row 36 |
| WardenP3Boss.SafeTileLocalPoint | src/main/java/ca/plugins/toaextended/boss/warden/phase3/WardenP3.java:467-494 | a cached point is returned as is; otherwise the safe tile for the next slam is converted and cached when the conversion succeeds |
| WardenP3Boss.SafeTileCached | src/main/java/ca/plugins/toaextended/boss/warden/phase3/WardenP3.java:467-494 | once found, a second query returns the same point without converting again |
| WardenP3Boss.OnGameTick | src/main/java/ca/plugins/toaextended/boss/warden/phase3/WardenP3.java:240-276 | the queue ticks; boulder and red-lightning counters drop at zero, siphon counters only decrement; landed siphon and fireball projectiles leave |
| WardenP3Boss.OnHpHudUpdate | src/main/java/ca/plugins/toaextended/boss/warden/phase3/WardenP3.java:279-310 | breakpoints at 80, 60, 40, 20 and 5 percent |
| WardenP3Boss.OnProjectileMoved | src/main/java/ca/plugins/toaextended/boss/warden/phase3/WardenP3.java:313-351 | landed projectiles change nothing; phantom-Zebak rocks are enqueued; siphon and fireball projectiles are tracked |
| WardenP3Boss.ZebakRocksAsInZebak | src/main/java/ca/plugins/toaextended/boss/warden/phase3/WardenP3.java:330-339 | a phantom-Zebak rock changes phase 3's queue exactly as the same rock changes Zebak's |
| WardenP3Boss.OnNpcSpawned | src/main/java/ca/plugins/toaextended/boss/warden/phase3/WardenP3.java:354-369 | the warden turns the safe-tile hint on; a siphon starts at 7 plus the number of charge phases |
| WardenP3Boss.OnNpcDespawned | src/main/java/ca/plugins/toaextended/boss/warden/phase3/WardenP3.java:372-384 | the warden is forgotten; a dead siphon's counter leaves |
| WardenP3Boss.OnNpcChanged | src/main/java/ca/plugins/toaextended/boss/warden/phase3/WardenP3.java:387-396 | only a non-charging to charging change of the tracked warden counts a new charge phase |
| WardenP3Boss.OnAnimationChanged | src/main/java/ca/plugins/toaextended/boss/warden/phase3/WardenP3.java:399-439 | a warden slam steps the next direction on from the slam and hides the hint; the phantom Akkha's animations set or toggle its prayer; others change nothing |
| WardenP3Boss.StyleSwitchToggles | src/main/java/ca/plugins/toaextended/boss/warden/phase3/WardenP3.java:427-436 | the style switch flips missiles and magic, and from none gives missiles |
| WardenP3Boss.OnGraphicsObjectCreated | src/main/java/ca/plugins/toaextended/boss/warden/phase3/WardenP3.java:442-456 | falling boulders start at 7 ticks, red lightning at 4 |
| WardenP3Boss.CountdownsOverTicks | src/main/java/ca/plugins/toaextended/boss/warden/phase3/WardenP3.java:250-265 | over k ticks boulders and red lightning follow the dropping countdown, siphons the non-dropping one |
| WardenP3Boss.RedLightningLastsFour | src/main/java/ca/plugins/toaextended/boss/warden/phase3/WardenP3.java:442-456 | red lightning is shown for exactly four ticks |
| WardenP3Boss.BoulderLastsSeven | src/main/java/ca/plugins/toaextended/boss/warden/phase3/WardenP3.java:442-456 | a falling boulder is shown for exactly seven ticks |
| WardenP3Boss.SiphonCountsDown | src/main/java/ca/plugins/toaextended/boss/warden/phase3/WardenP3.java:354-369 | a siphon spawned after n charge phases reads 7 + n - k after k ticks, going below zero |
| WardenP3Boss.ChargePhaseAddsATick | src/main/java/ca/plugins/toaextended/boss/warden/phase3/WardenP3.java:387-396 | each charge phase adds one tick to siphons spawned after it |
| WardenP3Boss.SlamMovesSafeTile | src/main/java/ca/plugins/toaextended/boss/warden/phase3/WardenP3.java:399-439 | after a slam in direction d the hint points at the safe tile for d's successor |
| WardenP3Boss.NextPrayer | src/main/java/ca/plugins/toaextended/boss/warden/phase3/WardenP3PrayerWidgetOverlay.java:87-97 | the phantom Akkha's prayer wins whenever set; otherwise a queue head's prayer, or none for an empty queue |
| AkkhaBoss.StylePrayer | src/main/java/ca/plugins/toaextended/boss/akkha/Akkha.java:304-306 | melee, range and mage map one to one onto the melee, missiles and magic protections |
| AkkhaBoss.OnGameTick | src/main/java/ca/plugins/toaextended/boss/akkha/Akkha.java:136-142 | the countdown falls by one until it reaches zero |
| AkkhaBoss.OnNpcSpawned | src/main/java/ca/plugins/toaextended/boss/akkha/Akkha.java:145-153 | the boss is recognised by its name |
| AkkhaBoss.OnNpcDespawned | src/main/java/ca/plugins/toaextended/boss/akkha/Akkha.java:156-162 | only the tracked boss is forgotten |
| AkkhaBoss.OnNpcChanged | src/main/java/ca/plugins/toaextended/boss/akkha/Akkha.java:165-194 | only the three Akkha forms of the tracked boss set the style |
| AkkhaBoss.AnimationStyle | src/main/java/ca/plugins/toaextended/boss/akkha/Akkha.java:197-227 | exactly the melee, missiles and magic attack animations reveal a style |
| AkkhaBoss.OnAnimationChanged | src/main/java/ca/plugins/toaextended/boss/akkha/Akkha.java:197-227 | an attack animation of the tracked boss sets its style and resets the countdown to 6; anything else changes nothing |
| AkkhaBoss.OnChatMessage | src/main/java/ca/plugins/toaextended/boss/akkha/Akkha.java:230-243 | the start message sets melee |
| AkkhaBoss.OnHpHudUpdate | src/main/java/ca/plugins/toaextended/boss/akkha/Akkha.java:246-278 | breakpoints at 80, 60, 40 and 20 percent |
| AkkhaBoss.GetPrayer | src/main/java/ca/plugins/toaextended/boss/akkha/Akkha.java:280-298 | a magic or missiles animation in progress decides the prayer, otherwise the stored style's prayer |
| AkkhaBoss.CountdownAfterAttack | src/main/java/ca/plugins/toaextended/boss/akkha/Akkha.java:136-142 | k ticks after any valid countdown c it reads max(c - k, 0) and stays within 0..6 |
| AkkhaBoss.PrayerMatchesAttack | src/main/java/ca/plugins/toaextended/boss/akkha/Akkha.java:197-298 | after an attack animation, the prayer asked for protects against that attack |
| AkkhaMemoryBlast.IsEnabled | src/main/java/ca/plugins/toaextended/boss/akkha/AkkhaMemoryBlast.java:87-91 | active exactly when Akkha's component is |
| AkkhaMemoryBlast.Reset | src/main/java/ca/plugins/toaextended/boss/akkha/AkkhaMemoryBlast.java:106-110 | reset empties the tile queue and the offset cache |
| AkkhaMemoryBlast.SymbolOffset | src/main/java/ca/plugins/toaextended/boss/akkha/AkkhaMemoryBlast.java:164-182 | death (-1,-1), fire (1,-1), lightning (-1,1), star (1,1): one diagonal per symbol |
| AkkhaMemoryBlast.OnChatMessage | src/main/java/ca/plugins/toaextended/boss/akkha/AkkhaMemoryBlast.java:113-126 | the glow, start and party-failed game messages reset; others change nothing |
| AkkhaMemoryBlast.OnGameObjectSpawned | src/main/java/ca/plugins/toaextended/boss/akkha/AkkhaMemoryBlast.java:129-187 | only a glowing symbol is memorised, appended at the back, using the cached point for its id or caching a new one |
| AkkhaMemoryBlast.OnGraphicsObjectCreated | src/main/java/ca/plugins/toaextended/boss/akkha/AkkhaMemoryBlast.java:190-207 | an element graphic removes the front tile, at most once per tick and never from an empty queue |
| AkkhaMemoryBlast.OncePerTick | src/main/java/ca/plugins/toaextended/boss/akkha/AkkhaMemoryBlast.java:190-207 | graphics in one tick consume at most one tile |
| AkkhaMemoryBlast.FirstInFirstOut | src/main/java/ca/plugins/toaextended/boss/akkha/AkkhaMemoryBlast.java:129-207 | tiles memorised are consumed in the order they were memorised |
| AkkhaMemoryBlast.OffsetCached | src/main/java/ca/plugins/toaextended/boss/akkha/AkkhaMemoryBlast.java:157-184 | the first point computed for a symbol is reused for its later glows |
| AkkhaOverlay.Direction | src/main/java/ca/plugins/toaextended/boss/akkha/AkkhaSceneOverlay.java:338-373 | orientation / 256 (truncating) picks one of eight directions when in 0..7, otherwise none |
| AkkhaOverlay.DirectionsAreUnitSteps | src/main/java/ca/plugins/toaextended/boss/akkha/AkkhaSceneOverlay.java:338-371 | the eight directions are exactly the eight distinct non-zero unit steps |
| AkkhaOverlay.RayMembers | src/main/java/ca/plugins/toaextended/boss/akkha/AkkhaSceneOverlay.java:379-394 | a ray holds exactly the steps 1..distance |
| AkkhaOverlay.RayBound | src/main/java/ca/plugins/toaextended/boss/akkha/AkkhaSceneOverlay.java:379-394 | a ray holds at most `distance` tiles, none for distance 0 or less |
| AkkhaOverlay.RayExact | src/main/java/ca/plugins/toaextended/boss/akkha/AkkhaSceneOverlay.java:379-394 | a ray of pairwise distinct steps holds exactly `distance` tiles |
| AkkhaOverlay.StepsDiffer | src/main/java/ca/plugins/toaextended/boss/akkha/AkkhaSceneOverlay.java:379-394 | for an orb of positive size, different steps along a direction are different tiles |
| AkkhaOverlay.OrbRayExact | src/main/java/ca/plugins/toaextended/boss/akkha/AkkhaSceneOverlay.java:379-394 | an orb of positive size facing a direction marks exactly `distance` tiles |
| AkkhaOverlay.OneByOneSteps | src/main/java/ca/plugins/toaextended/boss/akkha/AkkhaSceneOverlay.java:386-393 | for a 1x1 orb, step d is exactly d tiles along each non-zero axis |
| AkkhaOverlay.OrbPoints | src/main/java/ca/plugins/toaextended/boss/akkha/AkkhaSceneOverlay.java:338-394 | an orb with no direction marks nothing, otherwise its ray |
| AkkhaOverlay.OrbBound | src/main/java/ca/plugins/toaextended/boss/akkha/AkkhaSceneOverlay.java:379-394 | one orb marks at most `distance` tiles |
| AkkhaOverlay.UnstableOrbMembers | src/main/java/ca/plugins/toaextended/boss/akkha/AkkhaSceneOverlay.java:332-398 | a tile is marked iff some orb's ray marks it; the result is a set, so overlapping rays add nothing twice |
| AkkhaOverlay.UnstableOrbBound | src/main/java/ca/plugins/toaextended/boss/akkha/AkkhaSceneOverlay.java:332-398 | at most `distance` tiles per orb in total |
| AkkhaOverlay.UnstableOrbMaxBound | src/main/java/ca/plugins/toaextended/ToaExtendedConfig.java:663-676 | worked instance of `UnstableOrbBound`, not a separate property: at the configured maximum of 7, at most seven tiles per orb |
| KephriBoss.StartUp | src/main/java/ca/plugins/toaextended/boss/kephri/Kephri.java:124-146 | the count starts at 3, or 2 in the medic variant; nothing else changes |
| KephriBoss.MedicSpecial | src/main/java/ca/plugins/toaextended/boss/kephri/Kephri.java:324-346 | after a medic special the count equals the remembered count and is 4 or 5, a low count starts a run of fours, the run length stays within 0..3 |
| KephriBoss.UpdateAttackCount | src/main/java/ca/plugins/toaextended/boss/kephri/Kephri.java:301-354 | a fireball lowers the count but not below 0; a special sets 5 (or follows the medic rule); the inactive animation sets 5 in medic mode, else max(count + 1, 2); other animations change nothing; valid states stay valid |
| KephriBoss.MedicRunsOfFours | src/main/java/ca/plugins/toaextended/boss/kephri/Kephri.java:324-346 | from a fresh medic counter the shown counts run 4, 5, 4, 4, 5, 4, 4, 4, 5, 4 and the run length caps at 3 |
| KephriBoss.SpecialsCompose | src/main/java/ca/plugins/toaextended/boss/kephri/Kephri.java:324-346 | a + b medic specials are a specials followed by b more |
| KephriBoss.OnGameTick | src/main/java/ca/plugins/toaextended/boss/kephri/Kephri.java:170-188 | landed fireballs leave; with the boss tracked, swarms in melee distance leave; egg timers take the dropping countdown step |
| KephriBoss.OnProjectileMoved | src/main/java/ca/plugins/toaextended/boss/kephri/Kephri.java:191-201 | fireballs and bomber scarabs are tracked; other ids change nothing |
| KephriBoss.OnNpcSpawned | src/main/java/ca/plugins/toaextended/boss/kephri/Kephri.java:204-226 | the boss by name, an egg with a 15-tick timer, or a swarm appended |
| KephriBoss.OnNpcDespawned | src/main/java/ca/plugins/toaextended/boss/kephri/Kephri.java:229-247 | losing the boss resets everything with the counters at 0; an egg or swarm leaves its collection |
| KephriBoss.OnNpcChanged | src/main/java/ca/plugins/toaextended/boss/kephri/Kephri.java:250-256 | a change into id 11722 forgets the boss |
| KephriBoss.OnActorDeath | src/main/java/ca/plugins/toaextended/boss/kephri/Kephri.java:259-274 | a dead swarm leaves the list; other deaths change nothing |
| KephriBoss.OnAnimationChanged | src/main/java/ca/plugins/toaextended/boss/kephri/Kephri.java:277-298 | the boss's animations update the counter; a swarm's death animation removes it; others change nothing |
| KephriBoss.EggsOverTicks | src/main/java/ca/plugins/toaextended/boss/kephri/Kephri.java:170-188 | over k ticks the egg timers follow k dropping countdown steps |
| KephriBoss.EggHatchesAfterFifteen | src/main/java/ca/plugins/toaextended/boss/kephri/Kephri.java:204-226 | an egg's timer is shown for exactly fifteen ticks after it spawns |
| BabaBoss.OnGameTick | src/main/java/ca/plugins/toaextended/boss/baba/Baba.java:193-210 | landed sarcophagus projectiles leave, boulder timers take the dropping step, and a finished shockwave is cleared |
| BabaBoss.OnNpcSpawned | src/main/java/ca/plugins/toaextended/boss/baba/Baba.java:213-225 | the boss by its name "Ba-Ba", otherwise a baboon is appended |
| BabaBoss.OnNpcDespawned | src/main/java/ca/plugins/toaextended/boss/baba/Baba.java:228-242 | the boss is forgotten; a baboon leaves the list |
| BabaBoss.OnActorDeath | src/main/java/ca/plugins/toaextended/boss/baba/Baba.java:245-260 | a dead baboon leaves the list |
| BabaBoss.OnProjectileMoved | src/main/java/ca/plugins/toaextended/boss/baba/Baba.java:263-273 | sarcophagus attacks are tracked; other ids change nothing |
| BabaBoss.OnGraphicsObjectCreated | src/main/java/ca/plugins/toaextended/boss/baba/Baba.java:276-293 | boulders start a 7-tick timer; a large shockwave always takes the slot, a small one only an empty slot |
| BabaBoss.OnGameObjectSpawned | src/main/java/ca/plugins/toaextended/boss/baba/Baba.java:296-304 | a banana peel is added to the peel list |
| BabaBoss.OnGameObjectDespawned | src/main/java/ca/plugins/toaextended/boss/baba/Baba.java:307-315 | a tracked peel leaves the list |
| BabaBoss.OnHpHudUpdate | src/main/java/ca/plugins/toaextended/boss/baba/Baba.java:318-349 | breakpoints at 66 and 33 percent |
| BabaBoss.PeelRoundTrip | src/main/java/ca/plugins/toaextended/boss/baba/Baba.java:296-315 | a peel that appears and goes leaves the peel list as it was, as a multiset |
| BabaBoss.BaboonRoundTrip | src/main/java/ca/plugins/toaextended/boss/baba/Baba.java:213-260 | a baboon that spawns and then dies or despawns leaves the list as it was |
| BabaBoss.LargeShockwaveWins | src/main/java/ca/plugins/toaextended/boss/baba/Baba.java:276-293 | in either order of one large and one small shockwave graphic, the large one ends up in the slot |
| BabaBoss.BouldersOverTicks | src/main/java/ca/plugins/toaextended/boss/baba/Baba.java:193-210 | over k ticks the boulder timers follow k dropping countdown steps |
| BabaBoss.BoulderLastsSeven | src/main/java/ca/plugins/toaextended/boss/baba/Baba.java:276-293 | a falling boulder is shown for exactly seven ticks |
| BabaOverlay.HealthCounter | src/main/java/ca/plugins/toaextended/boss/baba/BabaSceneOverlay.java:147-171 | the counter shows the hit points to the next breakpoint iff positive and the boss is known |
| BabaOverlay.ShockwaveSize | src/main/java/ca/plugins/toaextended/boss/baba/BabaSceneOverlay.java:205 | the half side is 1 exactly for the small shockwave graphic, else 2 |
| BabaOverlay.ShockwaveTilesExact | src/main/java/ca/plugins/toaextended/boss/baba/BabaSceneOverlay.java:188-254 | a tile is drawn iff it is in the square of half side `size` or one of the four axis tips at `size + 1`; 13 tiles for a small wave, 29 for a large one |
| BabaOverlay.ShockwaveTipsOutsideSquare | src/main/java/ca/plugins/toaextended/boss/baba/BabaSceneOverlay.java:222-250 | the tips sit just outside the square, corners are not extended, and nothing lies beyond the tips |
| BabaOverlay.BoulderTiles | src/main/java/ca/plugins/toaextended/boss/baba/BabaSceneOverlay.java:267-304 | each boulder with a location is drawn there in its tick colour, and nothing else is drawn |
| BabaOverlay.BoulderTurnsRed | src/main/java/ca/plugins/toaextended/boss/baba/BabaSceneOverlay.java:267-304 | a boulder is drawn red exactly in its last two ticks |
| WardenP2Overlay.HealthCounter | src/main/java/ca/plugins/toaextended/boss/warden/phase2/WardenP2SceneOverlay.java:133-160 | shown iff hit points remain, the NPC is a combat warden and it is not standing up; then the remaining hit points |
| WardenP2Overlay.LightningColorThresholds | src/main/java/ca/plugins/toaextended/boss/warden/phase2/WardenP2SceneOverlay.java:249-250 | in cycles: red below two ticks' worth, orange for the third tick, yellow beyond |
| WardenP2Overlay.LightningTilesExact | src/main/java/ca/plugins/toaextended/boss/warden/phase2/WardenP2SceneOverlay.java:231-279 | a tile is drawn iff its offset is in the lightning pattern, and the strike covers 41 distinct tiles |
| WardenP2Overlay.LightningPattern | src/main/java/ca/plugins/toaextended/boss/warden/phase2/WardenP2SceneOverlay.java:252-264 | the pattern is the 7x7 square around the target minus the axis tiles at distance 1 and 2 |
| WardenP2Overlay.TargetIsDrawn | src/main/java/ca/plugins/toaextended/boss/warden/phase2/WardenP2SceneOverlay.java:252-264 | the target tile itself is always drawn |
| OverlayGeometry.TickColor | src/main/java/ca/plugins/toaextended/boss/baba/BabaSceneOverlay.java:280 | red for 2 ticks or fewer, orange at 3, yellow from 4 |
| OverlayGeometry.NewLocalPointExact | src/main/java/ca/plugins/toaextended/boss/warden/phase2/WardenP2SceneOverlay.java:281-287 | the truncating division is exact, so the offset is 64 * d * (size + 1) per axis, d whole tiles for a 1x1 area |
| OverlayGeometry.NewLocalPointInjective | src/main/java/ca/plugins/toaextended/boss/warden/phase2/WardenP2SceneOverlay.java:281-287 | for an area of positive size, different offsets land on different points |
| OverlayGeometry.ShapeSymmetric | src/main/java/ca/plugins/toaextended/boss/warden/phase2/WardenP2SceneOverlay.java:252-264 | the lightning and both shockwave patterns are symmetric under mirroring either axis and swapping them |
| OverlayGeometry.ShapeTilesMembers | src/main/java/ca/plugins/toaextended/boss/baba/BabaSceneOverlay.java:207-250 | a shape drawn around a centre holds the tile at an offset iff the offset is in the shape |
| OverlayGeometry.ShapeTilesCount | src/main/java/ca/plugins/toaextended/boss/baba/BabaSceneOverlay.java:207-250 | a shape drawn around a centre holds one distinct tile per offset |
| OverlayGeometry.LightningSize | src/main/java/ca/plugins/toaextended/boss/warden/phase2/WardenP2SceneOverlay.java:252-264 | the lightning pattern has 41 offsets |
| OverlayGeometry.SmallShockwaveSize | src/main/java/ca/plugins/toaextended/boss/baba/BabaSceneOverlay.java:205-250 | the small shockwave has 13 offsets |
| OverlayGeometry.LargeShockwaveSize | src/main/java/ca/plugins/toaextended/boss/baba/BabaSceneOverlay.java:205-250 | the large shockwave has 29 offsets |
| PointsTracking.FactorTenths | src/main/java/ca/plugins/toaextended/pointstracker/PointsTracker.java:86-132 | damage factors are at most 2.5, 1.0 for unlisted NPCs, and zero exactly for the listed no-point NPCs and downed phase-2 wardens |
| PointsTracking.OnGameTick | src/main/java/ca/plugins/toaextended/pointstracker/PointsTracker.java:190-193 | the raid level is re-read; nothing else changes |
| PointsTracking.RoomLeaveBonus | src/main/java/ca/plugins/toaextended/pointstracker/PointsTracker.java:198-229 | leaving Scabaras, Apmeken or Crondis earns 300, 450 or 400 personal plus 300 party; Het and the wardens earn 300 party only; other rooms nothing |
| PointsTracking.OnRaidStateChanged | src/main/java/ca/plugins/toaextended/pointstracker/PointsTracker.java:196-230 | no previous room adds nothing; otherwise the left room's bonus is added; valid states stay valid |
| PointsTracking.AfterDeath | src/main/java/ca/plugins/toaextended/pointstracker/PointsTracker.java:244-250 | a death removes max(a fifth, 1000) and never leaves the total negative |
| PointsTracking.OnChatMessage | src/main/java/ca/plugins/toaextended/pointstracker/PointsTracker.java:233-262 | start resets; death applies the penalty; room finish banks the room under the 69000 cap; failure zeroes room points and downs; other messages and non-game messages change nothing |
| PointsTracking.AddDamage | src/main/java/ca/plugins/toaextended/pointstracker/PointsTracker.java:279-284 | room points never decrease from a hitsplat, never exceed 20000, and are the truncated weighted sum when below the cap |
| PointsTracking.OnHitsplatApplied | src/main/java/ca/plugins/toaextended/pointstracker/PointsTracker.java:265-285 | hits below 1, on non-NPCs, on phase-2 wardens after 3 downs, or neither mine nor of the counted types are ignored; room points never decrease |
| PointsTracking.OnItemSpawned | src/main/java/ca/plugins/toaextended/pointstracker/PointsTracker.java:288-297 | an MVP item not yet seen earns 300 and is remembered; anything else changes nothing |
| PointsTracking.OnAnimationChanged | src/main/java/ca/plugins/toaextended/pointstracker/PointsTracker.java:300-311 | a phase-2 warden going down is counted |
| PointsTracking.TotalPoints | src/main/java/ca/plugins/toaextended/pointstracker/PointsTracker.java:332-340 | the total is personal minus 5000 plus room and party points, never below -5000 in valid states |
| PointsTracking.MvpBonusOncePerItem | src/main/java/ca/plugins/toaextended/pointstracker/PointsTracker.java:288-297 | any sequence of drops earns 300 per distinct new MVP item, once each |
| PointsTracking.MvpBonusBounded | src/main/java/ca/plugins/toaextended/pointstracker/PointsTracker.java:288-297 | after a reset the MVP bonus never exceeds 1200 |
| PointsTracking.RoomOutcome | src/main/java/ca/plugins/toaextended/pointstracker/PointsTracker.java:251-261 | completion banks the room points under the cap and zeroes the room; failure zeroes room points and downs only |
| PointsTracking.DeathPenalty | src/main/java/ca/plugins/toaextended/pointstracker/PointsTracker.java:244-250 | the death message costs a fifth of the total, at least 1000, never below zero |
| ScabarasLight.Xor | src/main/java/ca/plugins/toaextended/challenge/scabaras/ScabarasLightPuzzle.java:204-213 | a bit is in the XOR iff it is in exactly one operand |
| ScabarasLight.Row | src/main/java/ca/plugins/toaextended/challenge/scabaras/ScabarasLightPuzzle.java:76-85 | row i of the table is an 8-bit mask |
| ScabarasLight.CellIndex | src/main/java/ca/plugins/toaextended/challenge/scabaras/ScabarasLightPuzzle.java:182-185 | light i sits in cell i for i <= 3 and i + 1 from 4 on, never the centre |
| ScabarasLight.CellIndexBijective | src/main/java/ca/plugins/toaextended/challenge/scabaras/ScabarasLightPuzzle.java:182-185 | the lights correspond one to one with the eight non-centre cells |
| ScabarasLight.LightPoint | src/main/java/ca/plugins/toaextended/challenge/scabaras/ScabarasLightPuzzle.java:182-186 | light i's tile is two tiles per column east and two per row south of the corner, never the centre tile |
| ScabarasLight.LightPointInjective | src/main/java/ca/plugins/toaextended/challenge/scabaras/ScabarasLightPuzzle.java:182-186 | different lights sit on different tiles |
| ScabarasLight.SolutionMask | src/main/java/ca/plugins/toaextended/challenge/scabaras/ScabarasLightPuzzle.java:204-213 | the solution is the XOR of the table rows of the lights that are off |
| ScabarasLight.SolutionFrom | src/main/java/ca/plugins/toaextended/challenge/scabaras/ScabarasLightPuzzle.java:204-213 | the loop from bit i on XORs the rows of the unlit lights from i on |
| ScabarasLight.RowsLinear | src/main/java/ca/plugins/toaextended/challenge/scabaras/ScabarasLightPuzzle.java:204-213 | the row XOR is linear in the chosen set of lights |
| ScabarasLight.SolutionLinear | src/main/java/ca/plugins/toaextended/challenge/scabaras/ScabarasLightPuzzle.java:204-213 | two states' solutions differ by exactly the rows of the lights where the states differ |
| ScabarasLight.AllLitNoFlips | src/main/java/ca/plugins/toaextended/challenge/scabaras/ScabarasLightPuzzle.java:204-213 | with all eight lights on there is nothing to step on |
| ScabarasLight.OneLightOff | src/main/java/ca/plugins/toaextended/challenge/scabaras/ScabarasLightPuzzle.java:204-213 | with one light off the solution is exactly that light's row |
| ScabarasLight.ReadTileStates | src/main/java/ca/plugins/toaextended/challenge/scabaras/ScabarasLightPuzzle.java:175-200 | bit i is set iff light i's tile holds the enabled light object |
| ScabarasLight.FlipList | src/main/java/ca/plugins/toaextended/challenge/scabaras/ScabarasLightPuzzle.java:216-229 | the tiles of the chosen lights, without repeats, at most one per light |
| ScabarasLight.FindSolution | src/main/java/ca/plugins/toaextended/challenge/scabaras/ScabarasLightPuzzle.java:202-231 | at most 8 tiles; a light's tile is to be stepped on iff its bit is in the solution mask, and no other tile is |
| ScabarasLight.FlipSet | src/main/java/ca/plugins/toaextended/challenge/scabaras/ScabarasLightPuzzle.java:216-229 | a light's tile is in the set iff its bit is in the mask, and nothing else is |
| ScabarasLight.FindStartTile | src/main/java/ca/plugins/toaextended/challenge/scabaras/ScabarasLightPuzzle.java:160-173 | none iff no candidate holds the puzzle background; otherwise the first candidate that does |
| ScabarasLight.FirstBackground | src/main/java/ca/plugins/toaextended/challenge/scabaras/ScabarasLightPuzzle.java:160-173 | the search returns the first candidate index holding the background, or 4 |
| ScabarasLight.Solve | src/main/java/ca/plugins/toaextended/challenge/scabaras/ScabarasLightPuzzle.java:144-158 | solving always marks solved; without a start tile the previous reading and flips are kept; otherwise they are read and recomputed |
| ScabarasLight.StartUp | src/main/java/ca/plugins/toaextended/challenge/scabaras/ScabarasLightPuzzle.java:103-109 | start-up solves even a puzzle already marked solved (unlike the tick): afterwards it is solved, and with a start tile the reading and the flips are those of the current lights |
| ScabarasLight.OnLightObjectChanged | src/main/java/ca/plugins/toaextended/challenge/scabaras/ScabarasLightPuzzle.java:118-133 | a light object appearing or disappearing asks for a new solution |
| ScabarasLight.OnGameTick | src/main/java/ca/plugins/toaextended/challenge/scabaras/ScabarasLightPuzzle.java:136-142 | a tick solves only when a new solution was asked for |
| ScabarasLight.SolvedIsStable | src/main/java/ca/plugins/toaextended/challenge/scabaras/ScabarasLightPuzzle.java:136-142 | once solved, ticks leave the solution alone |
| ScabarasMatching.UpToDownBijection | src/main/java/ca/plugins/toaextended/challenge/scabaras/ScabarasMatchingPuzzle.java:61-79 | each up id maps to the down id nine lower, one to one onto the down ids |
| ScabarasMatching.OnGroundObjectSpawned | src/main/java/ca/plugins/toaextended/challenge/scabaras/ScabarasMatchingPuzzle.java:109-130 | an up id toggles in the showing set; a down tile is stored under its object; other ids change nothing; only up ids show and only down ids are stored |
| ScabarasMatching.OnGroundObjectDespawned | src/main/java/ca/plugins/toaextended/challenge/scabaras/ScabarasMatchingPuzzle.java:133-147 | an up id stops showing; a down tile's object is forgotten; other ids change nothing |
| ScabarasMatching.OnChatMessage | src/main/java/ca/plugins/toaextended/challenge/scabaras/ScabarasMatchingPuzzle.java:150-160 | the failure and completion messages clear both collections |
| ScabarasMatching.ShutDown | src/main/java/ca/plugins/toaextended/challenge/scabaras/ScabarasMatchingPuzzle.java:101-106 | shutdown clears both collections |
| ScabarasMatching.ToggleTwice | src/main/java/ca/plugins/toaextended/challenge/scabaras/ScabarasMatchingPuzzle.java:115-125 | two spawns of the same up tile restore the set |
| ScabarasMatching.DownRoundTrip | src/main/java/ca/plugins/toaextended/challenge/scabaras/ScabarasMatchingPuzzle.java:109-147 | a down tile spawned and despawned by an unseen object leaves no trace |
| ScabarasSequence.EvictingAdd | src/main/java/ca/plugins/toaextended/challenge/scabaras/ScabarasSequencePuzzle.java:69 | the queue holds at most five points; adding to a full queue evicts the oldest; the new point is last |
| ScabarasSequence.KeepsLastFive | src/main/java/ca/plugins/toaextended/challenge/scabaras/ScabarasSequencePuzzle.java:97-125 | adding points one at a time keeps exactly the last five added |
| ScabarasSequence.OnGameObjectSpawned | src/main/java/ca/plugins/toaextended/challenge/scabaras/ScabarasSequencePuzzle.java:97-125 | while finished nothing changes; two displays in one tick reset and finish; a display zeroes the step count and queues its point; a stepped tile counts one |
| ScabarasSequence.OnGraphicsObjectCreated | src/main/java/ca/plugins/toaextended/challenge/scabaras/ScabarasSequencePuzzle.java:128-139 | the reset graphic over the puzzle floor resets |
| ScabarasSequence.OnChatMessage | src/main/java/ca/plugins/toaextended/challenge/scabaras/ScabarasSequencePuzzle.java:142-148 | the failure message resets |
| ScabarasSequence.ShutDown | src/main/java/ca/plugins/toaextended/challenge/scabaras/ScabarasSequencePuzzle.java:90-94 | shutdown clears points, count, tick and the finished flag |
| ScabarasSequence.FinishedIgnoresSpawns | src/main/java/ca/plugins/toaextended/challenge/scabaras/ScabarasSequencePuzzle.java:97-125 | once finished, every spawn is ignored |
| ScabarasSequence.SameTickFinishes | src/main/java/ca/plugins/toaextended/challenge/scabaras/ScabarasSequencePuzzle.java:99-116 | two displays on the same tick finish the puzzle with nothing to show |
| ScabarasSequence.StepsCount | src/main/java/ca/plugins/toaextended/challenge/scabaras/ScabarasSequencePuzzle.java:117-123 | n stepped tiles count n |
| ScabarasObelisk.StartUp | src/main/java/ca/plugins/toaextended/challenge/scabaras/ScabarasObeliskPuzzle.java:94-99 | start-up zeroes the count and empties the order |
| ScabarasObelisk.OnNpcChanged | src/main/java/ca/plugins/toaextended/challenge/scabaras/ScabarasObeliskPuzzle.java:108-125 | an active obelisk counts one and joins the order once; an inactive one zeroes the count; the order never holds duplicates |
| ScabarasObelisk.EntranceFor | src/main/java/ca/plugins/toaextended/challenge/scabaras/ScabarasObeliskPuzzle.java:128-140 | the north entrance iff (scene y >= 51) equals (scene x >= 46), else the south one |
| ScabarasObelisk.OnNpcSpawned | src/main/java/ca/plugins/toaextended/challenge/scabaras/ScabarasObeliskPuzzle.java:128-140 | an inactive obelisk picks the entrance for its quadrant |
| ScabarasObelisk.OnChatMessage | src/main/java/ca/plugins/toaextended/challenge/scabaras/ScabarasObeliskPuzzle.java:143-150 | the failure message zeroes the count and empties the order |
| ScabarasObelisk.OnGameTick | src/main/java/ca/plugins/toaextended/challenge/scabaras/ScabarasObeliskPuzzle.java:153-159 | finished falling rocks leave |
| ScabarasObelisk.OnGraphicsObjectCreated | src/main/java/ca/plugins/toaextended/challenge/scabaras/ScabarasObeliskPuzzle.java:162-177 | falling rocks are recorded only with their highlight on |
| ScabarasObelisk.OnGameObjectSpawned | src/main/java/ca/plugins/toaextended/challenge/scabaras/ScabarasObeliskPuzzle.java:180-195 | an entrance is north iff scene y >= 51 |
| ScabarasObelisk.OrderOnlyGrows | src/main/java/ca/plugins/toaextended/challenge/scabaras/ScabarasObeliskPuzzle.java:108-195 | without the failure message or a restart the order only grows at its end and never holds duplicates |
| ScabarasObelisk.ActivatedIsRecorded | src/main/java/ca/plugins/toaextended/challenge/scabaras/ScabarasObeliskPuzzle.java:108-125 | an obelisk that turned active stays in the order through every later event |
| ApmekenChallenge.OnNpcSpawned | src/main/java/ca/plugins/toaextended/challenge/apmeken/Apmeken.java:130-154 | a volatile baboon joins both lists, another baboon the baboon list; valid states stay valid |
| ApmekenChallenge.RemoveNpc | src/main/java/ca/plugins/toaextended/challenge/apmeken/Apmeken.java:284-306 | a volatile baboon leaves both lists, another baboon the baboon list |
| ApmekenChallenge.RemoveNpcKeepsValid | src/main/java/ca/plugins/toaextended/challenge/apmeken/Apmeken.java:284-306 | removal keeps every volatile baboon in the baboon list |
| ApmekenChallenge.RemoveNpcCounts | src/main/java/ca/plugins/toaextended/challenge/apmeken/Apmeken.java:284-306 | removal takes exactly one copy of the NPC out of each list it belongs to, as a multiset |
| ApmekenChallenge.OnNpcDespawned | src/main/java/ca/plugins/toaextended/challenge/apmeken/Apmeken.java:157-160 | one copy of a despawned baboon leaves the baboon list, and of a volatile one the volatile list too; nothing else changes and the volatile-in-baboons inclusion is kept |
| ApmekenChallenge.OnActorDeath | src/main/java/ca/plugins/toaextended/challenge/apmeken/Apmeken.java:163-173 | only an NPC's death removes it |
| ApmekenChallenge.OnGameObjectSpawned | src/main/java/ca/plugins/toaextended/challenge/apmeken/Apmeken.java:176-190 | roof supports are collected, the statue remembered |
| ApmekenChallenge.OnGameObjectDespawned | src/main/java/ca/plugins/toaextended/challenge/apmeken/Apmeken.java:193-207 | a support leaves the list; any statue despawn forgets the statue |
| ApmekenChallenge.OnGroundObjectSpawned | src/main/java/ca/plugins/toaextended/challenge/apmeken/Apmeken.java:210-218 | vents are collected |
| ApmekenChallenge.OnGroundObjectDespawned | src/main/java/ca/plugins/toaextended/challenge/apmeken/Apmeken.java:221-229 | a vent leaves the list |
| ApmekenChallenge.SenseAfter | src/main/java/ca/plugins/toaextended/challenge/apmeken/Apmeken.java:232-264 | room end, death, fix and fail messages clear the sense; the fumes and roof messages set vents and roof; any change comes from one of these |
| ApmekenChallenge.SenseMessagesAreNotEnds | src/main/java/ca/plugins/toaextended/challenge/apmeken/Apmeken.java:234-263 | neither sense message reads as a room end or a death |
| ApmekenChallenge.OnChatMessage | src/main/java/ca/plugins/toaextended/challenge/apmeken/Apmeken.java:232-264 | only game messages move the sense |
| ApmekenChallenge.OnMenuEntryAdded | src/main/java/ca/plugins/toaextended/challenge/apmeken/Apmeken.java:267-282 | "Repair" is deprioritised iff the option is on and the sensed warning is not the roof |
| ApmekenChallenge.ShutDown | src/main/java/ca/plugins/toaextended/challenge/apmeken/Apmeken.java:119-127 | every list and the statue are cleared and the sense is none |
| ApmekenChallenge.VolatileAreBaboons | src/main/java/ca/plugins/toaextended/challenge/apmeken/Apmeken.java:130-154 | in every valid state each volatile baboon is also a tracked baboon |
| ApmekenChallenge.BaboonRoundTrip | src/main/java/ca/plugins/toaextended/challenge/apmeken/Apmeken.java:284-306 | a baboon that spawns and despawns leaves both lists as they were |
| ApmekenChallenge.SenseIsSticky | src/main/java/ca/plugins/toaextended/challenge/apmeken/Apmeken.java:232-264 | a sensed warning stays until fixed, failed, the room ends or the player dies |
| HetChallenge.OnChatMessage | src/main/java/ca/plugins/toaextended/challenge/het/Het.java:173-188 | the start message expects a beam ten ticks on, the completion message none |
| HetChallenge.OnGameObjectSpawned | src/main/java/ca/plugins/toaextended/challenge/het/Het.java:191-205 | the caster statue is remembered, mirrors collected |
| HetChallenge.OnGameObjectDespawned | src/main/java/ca/plugins/toaextended/challenge/het/Het.java:208-222 | the statue is forgotten, a mirror leaves the list |
| HetChallenge.OnGraphicsObjectCreated | src/main/java/ca/plugins/toaextended/challenge/het/Het.java:225-231 | a beam graphic expects the next beam nine ticks on |
| HetChallenge.OnNpcChanged | src/main/java/ca/plugins/toaextended/challenge/het/Het.java:234-244 | weakened to protected expects a beam ten ticks on; protected to weakened expects none |
| HetChallenge.ContainsAny | src/main/java/ca/plugins/toaextended/challenge/het/Het.java:334-345 | true iff some item id is a pickaxe |
| HetChallenge.IsTakePickaxe | src/main/java/ca/plugins/toaextended/challenge/het/Het.java:324-327 | the option is exactly "Take-pickaxe" and the target mentions "Statue" |
| HetChallenge.IsExitRoom | src/main/java/ca/plugins/toaextended/challenge/het/Het.java:329-332 | the option mentions "Enter" and the target mentions "Entry" |
| HetChallenge.OnMenuEntryAdded | src/main/java/ca/plugins/toaextended/challenge/het/Het.java:247-274 | deprioritised iff already so, or both containers exist, one holds a pickaxe, the option is on, and the entry takes a pickaxe or exits the room |
| HetChallenge.ShutDown | src/main/java/ca/plugins/toaextended/challenge/het/Het.java:312-317 | mirrors and statue cleared, no beam expected |
| HetChallenge.StartThenComplete | src/main/java/ca/plugins/toaextended/challenge/het/Het.java:173-188 | after the start the beam is in the future; after completion none is expected |
| HetChallenge.MirrorRoundTrip | src/main/java/ca/plugins/toaextended/challenge/het/Het.java:191-222 | a mirror that appears and disappears leaves the list as it was |
| QuickProceedSwaps.ShouldDeprioritize | src/main/java/ca/plugins/toaextended/challenge/QuickProceedSwaps.java:111-136 | only first-option entries; an NPC entry iff Osmumten and "Talk-to"; the Crondis barrier's "Pass" per the mode; other proceed objects iff Enter, Use or Pass |
| QuickProceedSwaps.OnMenuEntryAdded | src/main/java/ca/plugins/toaextended/challenge/QuickProceedSwaps.java:101-109 | the handler only ever sets the flag, and sets it iff the entry should be deprioritised |
| QuickProceedSwaps.BarrierPass | src/main/java/ca/plugins/toaextended/challenge/QuickProceedSwaps.java:124-129 | the barrier's "Pass" is deprioritised everywhere except in Crondis under the speedrun mode |
| QuickProceedSwaps.OnlyFirstOptions | src/main/java/ca/plugins/toaextended/challenge/QuickProceedSwaps.java:111-136 | anything deprioritised is an NPC "Talk-to" or a proceed object's Enter, Use or Pass |

## Left out

- Drawing. Graphics, polygons, fonts, sprites, outlines and alpha are not
  modelled, nor are the `shouldDraw` and highlight hooks. The model stops at
  which tiles, colours, boxes and texts are chosen. The same applies to the
  overlays that only draw: the prayer infobox, Het, Apmeken, Scabaras, Kephri,
  Zebak and phase 3. The phase-2 core tile, its tick text and the black-skull
  tiles are left out too.
- The descending boxes' pixel offset. It depends on the wall clock.
- The event bus, `clientThread`, DI wiring and event replay. The replay after
  `startUp` is an opaque step that may fail.
- `LocalPoint.fromScene` and the scene-to-local conversions. Scene and local
  points are taken as given, with a conversion function passed in where the
  source can fail.
- Canvas projections that return null. Every tile is assumed drawable.
- The host's id constants, `RaidRoom.fromRegionId` and
  `PathLevelTracker`. Ids become enumerations. The room lookup is a
  function parameter. Path levels are inputs.
- Chat message standardisation (`Text.standardize`). Messages arrive already
  standardised.
- `ToaUtils.colorToRs2hsb`, `UniqueChanceCalculator` and `Het.getProgress`.
  They are floating-point display helpers.
- `ToaUtils.DeriveBreakpoints`: the double `(int)(percent * maxHp)` product is
  modelled with exact hundredths. IEEE rounding of values such as 0.55 or 0.05 is
  not modelled.
- `PointsTracking.AddDamage`: the damage factors are modelled as exact tenths.
  IEEE rounding of products such as `amount * 1.2` is not modelled.
- `PointsTracking.AfterDeath`: the same exact-tenths simplification.
- The dry-streak persistence and chat formatting of the points tracker.
  They are configuration I/O.
- The Baba and Het `onConfigChanged` handlers. They only clear drawing
  caches.
- `Raid.OnGameTick`: the leave counter is an unbounded integer. The source's
  `int` could wrap after about 2^31 ticks out of the raid.
- `KephriBoss.MedicSpecial`: modelled exactly as written. The source marks the
  medic cycle unfinished, so nothing is claimed about its in-game correctness.
- `ApmekenChallenge.VolatileAreBaboons`: holds for a fixed `kindOf`, that is
  when an NPC's kind does not change while it is tracked.
- `AttackProjectiles.Compare`: its own contract only bounds the result.
  `AttackProjectiles.CompareIsLexicographic` states what it means.
- `ScabarasLight.Row`: the eight table rows are written out as bit sets. Only
  their range is stated as a contract; the solver lemmas use the rows
  themselves.
- The host's `PriorityQueue` iteration order is not modelled. It is an
  arbitrary sequence, and only order-independent facts and the fold over a given
  order are proved.
- Thin host wrappers are not modelled: `SarcophagusRecolorer`, `HpOrbManager`,
  `AkkhaFinalStand` and the phase-2 prayer infobox. They only mutate host models
  or widgets, or peek at a queue.

=== FILE: activation.dfy ===
/** Which registered components should run: each component's `isEnabled` reads the raid
    tracker's current state and, for some, a configuration toggle. The lifecycle manager
    revalidates every component against it whenever the tracker publishes a change, so
    a component runs exactly while its room is the room of the latest tick. */
module Activation {
  import opened Common
  import opened Raid
  import opened Config
  import opened Lifecycle
  import AkkhaBoss
  import AkkhaMemoryBlast
  import ApmekenChallenge
  import BabaBoss
  import HetChallenge
  import KephriBoss
  import PointsTracking
  import QuickProceedSwaps
  import ScabarasLight
  import ScabarasMatching
  import ScabarasObelisk
  import ScabarasSequence
  import WardenP2Boss
  import WardenP3Boss
  import ZebakBoss

  /** The modelled lifecycle components, Akkha's memory blast and the phase-3 prayer
      widget included. */
  datatype Component =
    | Akkha | AkkhaMemory | Apmeken | Baba | Het | Kephri | Points | QuickProceed
    | LightPuzzle | MatchingPuzzle | ObeliskPuzzle | SequencePuzzle
    | WardenP2 | WardenP3 | WardenP3Widget | Zebak

  /** The configuration values the activation tests read. */
  datatype Toggles = Toggles(quickProceed: QuickProceed, lightPuzzle: bool, matchingPuzzle: bool,
                             obeliskPuzzle: bool, sequencePuzzle: bool)

  /** The room a component is bound to; the points tracker and the menu swaps have none. */
  function RoomOf(c: Component): Option<RaidRoom> {
    match c
    case Akkha => Some(AKKHA)
    case AkkhaMemory => Some(AKKHA)
    case Apmeken => Some(APMEKEN)
    case Baba => Some(BABA)
    case Het => Some(HET)
    case Kephri => Some(KEPHRI)
    case Points => None
    case QuickProceed => None
    case LightPuzzle => Some(SCABARAS)
    case MatchingPuzzle => Some(SCABARAS)
    case ObeliskPuzzle => Some(SCABARAS)
    case SequencePuzzle => Some(SCABARAS)
    case WardenP2 => Some(WARDEN_P2)
    case WardenP3 => Some(WARDEN_P3)
    case WardenP3Widget => Some(WARDEN_P3)
    case Zebak => Some(ZEBAK)
  }

  /** The configuration switch a component also needs; bosses need none. */
  predicate Toggled(c: Component, cfg: Toggles) {
    match c
    case LightPuzzle => cfg.lightPuzzle
    case MatchingPuzzle => cfg.matchingPuzzle
    case ObeliskPuzzle => cfg.obeliskPuzzle
    case SequencePuzzle => cfg.sequencePuzzle
    case QuickProceed => cfg.quickProceed != PROCEED_OFF
    case _ => true
  }

  /** `c.isEnabled(config, raidState)`, dispatched to the component's own test. A
      room-bound component runs exactly in its room with its toggle on; the others only
      inside the raid. */
  function ShouldRun(c: Component, s: RaidState, cfg: Toggles): (b: bool)
    ensures RoomOf(c).Some? ==> (b <==> s.currentRoom == RoomOf(c) && Toggled(c, cfg))
    ensures RoomOf(c).None? ==> (b <==> s.inRaid && Toggled(c, cfg))
  {
    match c
    case Akkha => AkkhaBoss.IsEnabled(s)
    case AkkhaMemory => AkkhaMemoryBlast.IsEnabled(s)
    case Apmeken => ApmekenChallenge.IsEnabled(s)
    case Baba => BabaBoss.IsEnabled(s)
    case Het => HetChallenge.IsEnabled(s)
    case Kephri => KephriBoss.IsEnabled(s)
    case Points => PointsTracking.IsEnabled(s)
    case QuickProceed => QuickProceedSwaps.IsEnabled(s, cfg.quickProceed)
    case LightPuzzle => ScabarasLight.IsEnabled(s, cfg.lightPuzzle)
    case MatchingPuzzle => ScabarasMatching.IsEnabled(s, cfg.matchingPuzzle)
    case ObeliskPuzzle => ScabarasObelisk.IsEnabled(s, cfg.obeliskPuzzle)
    case SequencePuzzle => ScabarasSequence.IsEnabled(s, cfg.sequencePuzzle)
    case WardenP2 => WardenP2Boss.IsEnabled(s)
    case WardenP3 => WardenP3Boss.IsEnabled(s)
    case WardenP3Widget => WardenP3Boss.WidgetIsEnabled(s)
    case Zebak => ZebakBoss.IsEnabled(s)
  }

  /** Every registered component's flag equals its activation test in state `s`. */
  predicate Synced(m: Manager<Component>, s: RaidState, cfg: Toggles)
    requires Valid(m)
  {
    forall c :: c in m.components ==> m.states[c] == ShouldRun(c, s, cfg)
  }

  predicate NeverFailsToStart(f: Failures<Component>) {
    forall c :: !f.startFails(c) && !f.replayFails(c)
  }

  /** The tracker and the manager over a trace of ticks: each tick that publishes a
      change triggers one revalidation against the new state. */
  function Drive(m: Manager<Component>, t: Tracker, fromRegionId: int -> Option<RaidRoom>,
                 obs: seq<Observation>, cfg: Toggles, f: Failures<Component>): (r: (Manager<Component>, Tracker))
    requires Valid(m)
    ensures Valid(r.0) && r.0.components == m.components
    ensures r.1 == Run(t, fromRegionId, obs)
    decreases |obs|
  {
    if |obs| == 0 then (m, t)
    else
      var tick := OnGameTick(t, obs[0].region, fromRegionId, obs[0].raidWidgetHidden);
      var s := tick.0.currentState;
      var next := if tick.1.Some? then OnRaidStateChanged(m, c => ShouldRun(c, s, cfg), f).0 else m;
      Drive(next, tick.0, fromRegionId, obs[1..], cfg, f)
  }

  /** When no start throws, the flags keep following the tracker's state tick after
      tick: a tick without a published change leaves both alone, and a change is met by a
      revalidation that settles every flag. */
  lemma {:induction false} DriveKeepsSynced(m: Manager<Component>, t: Tracker, fromRegionId: int -> Option<RaidRoom>,
                                            obs: seq<Observation>, cfg: Toggles, f: Failures<Component>)
    requires Valid(m) && Synced(m, t.currentState, cfg)
    requires NeverFailsToStart(f)
    ensures var r := Drive(m, t, fromRegionId, obs, cfg, f);
      Synced(r.0, r.1.currentState, cfg)
    decreases |obs|
  {
    if |obs| > 0 {
      var tick := OnGameTick(t, obs[0].region, fromRegionId, obs[0].raidWidgetHidden);
      var s := tick.0.currentState;
      var next := if tick.1.Some? then OnRaidStateChanged(m, c => ShouldRun(c, s, cfg), f).0 else m;
      assert Synced(next, s, cfg);
      DriveKeepsSynced(next, tick.0, fromRegionId, obs[1..], cfg, f);
    }
  }

  /** `onPluginStart` with the tracker's initial state. */
  function Started(components: seq<Component>, cfg: Toggles, f: Failures<Component>): (m: Manager<Component>)
    requires Distinct(components)
    ensures Valid(m) && m.components == components
    ensures NeverFailsToStart(f) ==> Synced(m, InitialTracker.currentState, cfg)
  {
    OnPluginStart(components, c => ShouldRun(c, InitialTracker.currentState, cfg), f).0
  }

  /** What flags that follow state `s` say: a room-bound component runs exactly in its room
      with its toggle on, so the running room-bound components share one room; the
      memory blast runs exactly with Akkha and the phase-3 widget with phase 3; the points
      tracker exactly in the raid. */
  lemma SyncedMeans(m: Manager<Component>, s: RaidState, cfg: Toggles)
    requires Valid(m) && Synced(m, s, cfg)
    ensures forall c :: c in m.components && RoomOf(c).Some? ==>
              (m.states[c] <==> s.currentRoom == RoomOf(c) && Toggled(c, cfg))
    ensures forall c, d :: c in m.components && d in m.components && RoomOf(c).Some? && RoomOf(d).Some? ==>
              (m.states[c] && m.states[d] ==> RoomOf(c) == RoomOf(d))
    ensures Akkha in m.components && AkkhaMemory in m.components ==>
              m.states[AkkhaMemory] == m.states[Akkha]
    ensures WardenP3 in m.components && WardenP3Widget in m.components ==>
              m.states[WardenP3Widget] == m.states[WardenP3]
    ensures Points in m.components ==> (m.states[Points] <==> s.inRaid)
  {
  }

  /** From plugin start, after any non-empty trace in which no start throws, a room-bound
      component runs exactly when the last tick's region is its room and its toggle is on,
      and the flags follow the tracker's state as `SyncedMeans` spells out. */
  lemma {:induction false} RunningFollowsLastRoom(components: seq<Component>, fromRegionId: int -> Option<RaidRoom>,
                                                  obs: seq<Observation>, cfg: Toggles, f: Failures<Component>)
    requires Distinct(components)
    requires NeverFailsToStart(f)
    requires |obs| > 0
    ensures var r := Drive(Started(components, cfg, f), InitialTracker, fromRegionId, obs, cfg, f);
      var last := obs[|obs| - 1];
      var room := fromRegionId(if last.region.None? then -1 else last.region.value);
      Synced(r.0, r.1.currentState, cfg) &&
      forall c :: c in components && RoomOf(c).Some? ==> (r.0.states[c] <==> room == RoomOf(c) && Toggled(c, cfg))
  {
    var m := Started(components, cfg, f);
    DriveKeepsSynced(m, InitialTracker, fromRegionId, obs, cfg, f);
    CurrentRoomIsLastRegion(InitialTracker, fromRegionId, obs);
    var r := Drive(m, InitialTracker, fromRegionId, obs, cfg, f);
    SyncedMeans(r.0, r.1.currentState, cfg);
  }
}

=== FILE: akkha.dfy ===
/** Akkha: the current attack style (from form changes and attack animations), a
    six-tick countdown to the next attack, the prayer to use and the HP breakpoints. */
module AkkhaBoss {
  import opened Common
  import opened ToaUtils
  import opened Raid

  const HP_PERCENT_BREAKPOINTS: seq<int> := [80, 60, 40, 20]
  const ANIM_ID_MELEE: int := 9770
  const ANIM_ID_MAGIC: int := 9774
  const ANIM_ID_MISSILES: int := 9772
  const ATTACK_TICK_COUNT: int := 6
  const NPC_NAME: string := "Akkha"
  const MESSAGE_START: string := "challenge started: akkha."

  datatype AttackStyle = MELEE | RANGE | MAGE

  /** `AttackStyle.getPrayer`. */
  function StylePrayer(s: AttackStyle): (p: Prayer)
    ensures s == MELEE <==> p == ProtectFromMelee
    ensures s == RANGE <==> p == ProtectFromMissiles
    ensures s == MAGE <==> p == ProtectFromMagic
  {
    match s
    case MELEE => ProtectFromMelee
    case RANGE => ProtectFromMissiles
    case MAGE => ProtectFromMagic
  }

  /** The three Akkha forms (one per style) and every other NPC composition. */
  datatype Form = MeleeForm | RangeForm | MageForm | OtherForm

  datatype Akkha = Akkha(npc: Option<Handle>, attackStyle: AttackStyle, hp: BreakpointTracker, ticksUntilNextAttack: int)

  const Reset := Akkha(None, MELEE, NoBreakpoints, 0)

  predicate IsEnabled(s: RaidState) {
    s.currentRoom == Some(AKKHA)
  }

  /** The reachable states: the countdown stays within 0..6. */
  predicate Valid(a: Akkha) {
    0 <= a.ticksUntilNextAttack <= ATTACK_TICK_COUNT
  }

  /** `onGameTick`: the countdown falls by one until it reaches zero. */
  function OnGameTick(a: Akkha): (r: Akkha)
    ensures a.ticksUntilNextAttack > 0 ==> r.ticksUntilNextAttack == a.ticksUntilNextAttack - 1
    ensures a.ticksUntilNextAttack <= 0 ==> r.ticksUntilNextAttack == a.ticksUntilNextAttack
    ensures r == a.(ticksUntilNextAttack := r.ticksUntilNextAttack)
    ensures Valid(a) ==> Valid(r)
  {
    if a.ticksUntilNextAttack > 0 then a.(ticksUntilNextAttack := a.ticksUntilNextAttack - 1) else a
  }

  /** `onNpcSpawned`: the boss is recognised by name. */
  function OnNpcSpawned(a: Akkha, npc: Handle, name: string): (r: Akkha)
    ensures name == NPC_NAME ==> r == a.(npc := Some(npc))
    ensures name != NPC_NAME ==> r == a
    ensures r.npc == Some(npc) <==> name == "Akkha" || a.npc == Some(npc)
  {
    if name == NPC_NAME then a.(npc := Some(npc)) else a
  }

  /** `onNpcDespawned`. */
  function OnNpcDespawned(a: Akkha, npc: Handle): (r: Akkha)
    ensures a.npc == Some(npc) ==> r == a.(npc := None)
    ensures a.npc != Some(npc) ==> r == a
  {
    if a.npc == Some(npc) then a.(npc := None) else a
  }

  /** `onNpcChanged`: the tracked boss changing form sets the form's style. */
  function OnNpcChanged(a: Akkha, npc: Handle, form: Form): (r: Akkha)
    ensures a.npc == Some(npc) && form == RangeForm ==> r == a.(attackStyle := RANGE)
    ensures a.npc == Some(npc) && form == MeleeForm ==> r == a.(attackStyle := MELEE)
    ensures a.npc == Some(npc) && form == MageForm ==> r == a.(attackStyle := MAGE)
    ensures a.npc != Some(npc) || form == OtherForm ==> r == a
    ensures Valid(a) ==> Valid(r)
  {
    if a.npc != Some(npc) then a
    else match form
      case RangeForm => a.(attackStyle := RANGE)
      case MeleeForm => a.(attackStyle := MELEE)
      case MageForm => a.(attackStyle := MAGE)
      case OtherForm => a
  }

  /** The style an attack animation reveals, if it is one. */
  function AnimationStyle(anim: int): (s: Option<AttackStyle>)
    ensures s == Some(MELEE) <==> anim == ANIM_ID_MELEE
    ensures s == Some(RANGE) <==> anim == ANIM_ID_MISSILES
    ensures s == Some(MAGE) <==> anim == ANIM_ID_MAGIC
  {
    if anim == ANIM_ID_MELEE then Some(MELEE)
    else if anim == ANIM_ID_MISSILES then Some(RANGE)
    else if anim == ANIM_ID_MAGIC then Some(MAGE)
    else None
  }

  /** `onAnimationChanged`: an attack animation of the tracked boss sets the style and
      restarts the six-tick countdown; anything else changes nothing. */
  function OnAnimationChanged(a: Akkha, actor: Handle, anim: int): (r: Akkha)
    ensures a.npc != Some(actor) || AnimationStyle(anim).None? ==> r == a
    ensures a.npc == Some(actor) && AnimationStyle(anim).Some? ==>
              r == a.(attackStyle := AnimationStyle(anim).value, ticksUntilNextAttack := 6)
    ensures Valid(a) ==> Valid(r)
  {
    if a.npc != Some(actor) then a
    else match AnimationStyle(anim)
      case None => a
      case Some(s) => a.(attackStyle := s, ticksUntilNextAttack := ATTACK_TICK_COUNT)
  }

  /** `onChatMessage`: the room's start message (after the host's standardisation) sets
      the melee style. */
  function OnChatMessage(a: Akkha, isGameMessage: bool, message: string): (r: Akkha)
    ensures isGameMessage && message == MESSAGE_START ==> r == a.(attackStyle := MELEE)
    ensures !isGameMessage || message != MESSAGE_START ==> r == a
  {
    if isGameMessage && message == MESSAGE_START then a.(attackStyle := MELEE) else a
  }

  /** The HP_HUD_UPDATE script: breakpoints at 80/60/40/20 percent of the maximum. */
  function OnHpHudUpdate(a: Akkha, maxHp: int, currentHp: int): (r: Akkha)
    ensures r == a.(hp := r.hp)
    ensures a.hp.breakpoints.None? && maxHp <= 1 ==> r == a
    ensures a.hp.breakpoints.None? && maxHp > 1 ==> r.hp.breakpoints == Some(DeriveBreakpoints([80, 60, 40, 20], maxHp))
    ensures currentHp > 0 && r.hp.breakpoints.Some? ==>
              r.hp.hpUntilNextBreakPoint == HpUntilNextBreakPoint(r.hp.breakpoints.value, currentHp)
  {
    a.(hp := ToaUtils.OnHpHudUpdate(a.hp, HP_PERCENT_BREAKPOINTS, maxHp, currentHp))
  }

  /** `getPrayer`: a magic or missiles animation in progress wins; otherwise the stored
      style's prayer. `animation` is the tracked NPC's current animation. */
  function GetPrayer(a: Akkha, animation: int): (p: Prayer)
    ensures a.npc.Some? && animation == ANIM_ID_MAGIC ==> p == ProtectFromMagic
    ensures a.npc.Some? && animation == ANIM_ID_MISSILES ==> p == ProtectFromMissiles
    ensures a.npc.None? || (animation != ANIM_ID_MAGIC && animation != ANIM_ID_MISSILES) ==>
              p == StylePrayer(a.attackStyle)
  {
    if a.npc.Some? && animation == ANIM_ID_MAGIC then ProtectFromMagic
    else if a.npc.Some? && animation == ANIM_ID_MISSILES then ProtectFromMissiles
    else StylePrayer(a.attackStyle)
  }

  /** `k` ticks without an attack. */
  function Ticks(a: Akkha, k: nat): Akkha {
    Iterate(OnGameTick, a, k)
  }

  /** From any valid countdown `c`, `k` ticks later it reads `c - k`, floored at zero
      (so six ticks after an attack it reads zero). */
  lemma {:induction false} CountdownAfterAttack(a: Akkha, k: nat)
    requires Valid(a)
    ensures Ticks(a, k).ticksUntilNextAttack == Max(a.ticksUntilNextAttack - k, 0)
    ensures Valid(Ticks(a, k))
    decreases k
  {
    if k > 0 {
      CountdownAfterAttack(OnGameTick(a), k - 1);
    }
  }

  /** The prayer always answers the attack the boss has just shown. */
  lemma PrayerMatchesAttack(a: Akkha, anim: int)
    requires a.npc.Some? && AnimationStyle(anim).Some?
    ensures var a1 := OnAnimationChanged(a, a.npc.value, anim);
      GetPrayer(a1, anim) == StylePrayer(AnimationStyle(anim).value)
  {
  }
}

=== FILE: akkha_memory_blast.dfy ===
/** Akkha's memory blast: glowing symbol objects are memorised in order as the tiles to
    stand on (each symbol's tile offset cached on first sight), and the first
    memorised tile is consumed when the element graphics appear, at most once per tick. */
module AkkhaMemoryBlast {
  import opened Common
  import Raid
  import AkkhaBoss

  const GAME_OBJECT_ID_FIRE_SYMBOL: int := 45868
  const GAME_OBJECT_ID_LIGHTNING_SYMBOL: int := 45869
  const GAME_OBJECT_ID_STAR_SYMBOL: int := 45870
  const GAME_OBJECT_ID_DEATH_SYMBOL: int := 45871
  const ANIMATION_ID_GLOW: int := 9759
  const MESSAGE_GLOW: string := "sections of the room start to glow..."
  const MESSAGE_START: string := "challenge started: akkha."
  const MESSAGE_FAILED: string := "your party failed"

  /** The memory blast runs exactly when Akkha's component does. */
  predicate IsEnabled(s: Raid.RaidState): (b: bool)
    ensures b <==> s.currentRoom == Some(Raid.AKKHA)
  {
    AkkhaBoss.IsEnabled(s)
  }

  predicate IsSymbol(id: int) {
    id == GAME_OBJECT_ID_DEATH_SYMBOL || id == GAME_OBJECT_ID_FIRE_SYMBOL ||
    id == GAME_OBJECT_ID_LIGHTNING_SYMBOL || id == GAME_OBJECT_ID_STAR_SYMBOL
  }

  predicate IsElementGraphic(id: int) {
    2256 <= id <= 2259
  }

  /** `idToWorldPoint` is the offset cache, `worldPoints` the FIFO of memorised tiles and
      `lastTick` the tick of the last removal (never reset). */
  datatype MemoryBlast = MemoryBlast(idToWorldPoint: map<int, Point>, worldPoints: seq<Point>, lastTick: int)

  const Initial := MemoryBlast(map[], [], 0)

  /** `reset`: both the queue and the cache are emptied. */
  function Reset(m: MemoryBlast): (r: MemoryBlast)
    ensures r.worldPoints == [] && r.idToWorldPoint == map[] && r.lastTick == m.lastTick
  {
    m.(idToWorldPoint := map[], worldPoints := [])
  }

  /** The offset of the safe tile from a symbol, diagonally outwards. */
  function SymbolOffset(id: int): (d: Point)
    requires IsSymbol(id)
    ensures d.x == 1 || d.x == -1
    ensures d.y == 1 || d.y == -1
    ensures id == GAME_OBJECT_ID_DEATH_SYMBOL <==> d == Point(-1, -1)
    ensures id == GAME_OBJECT_ID_FIRE_SYMBOL <==> d == Point(1, -1)
    ensures id == GAME_OBJECT_ID_LIGHTNING_SYMBOL <==> d == Point(-1, 1)
    ensures id == GAME_OBJECT_ID_STAR_SYMBOL <==> d == Point(1, 1)
  {
    if id == GAME_OBJECT_ID_DEATH_SYMBOL then Point(-1, -1)
    else if id == GAME_OBJECT_ID_FIRE_SYMBOL then Point(1, -1)
    else if id == GAME_OBJECT_ID_LIGHTNING_SYMBOL then Point(-1, 1)
    else Point(1, 1)
  }

  /** `onChatMessage`: the glow, start and party-failed messages (after the host's
      standardisation) reset. */
  function OnChatMessage(m: MemoryBlast, isGameMessage: bool, message: string): (r: MemoryBlast)
    ensures isGameMessage && (message == MESSAGE_GLOW || message == MESSAGE_START || EndsWith(message, MESSAGE_FAILED)) ==>
              r == Reset(m)
    ensures !isGameMessage ==> r == m
    ensures message != MESSAGE_GLOW && message != MESSAGE_START && !EndsWith(message, MESSAGE_FAILED) ==> r == m
  {
    if !isGameMessage then m
    else if message == MESSAGE_GLOW || message == MESSAGE_START || EndsWith(message, MESSAGE_FAILED) then Reset(m)
    else m
  }

  /** `onGameObjectSpawned`: a glowing symbol memorises its tile. `animation` is the
      object's dynamic animation (None when it has none) and `location` its world tile. */
  function OnGameObjectSpawned(m: MemoryBlast, id: int, animation: Option<int>, location: Point): (r: MemoryBlast)
    ensures animation != Some(ANIMATION_ID_GLOW) || !IsSymbol(id) ==> r == m
    ensures animation == Some(ANIMATION_ID_GLOW) && IsSymbol(id) ==>
              var p := if id in m.idToWorldPoint then m.idToWorldPoint[id]
                       else Point(location.x + SymbolOffset(id).x, location.y + SymbolOffset(id).y);
              r == m.(idToWorldPoint := m.idToWorldPoint[id := p], worldPoints := m.worldPoints + [p])
  {
    if animation != Some(ANIMATION_ID_GLOW) || !IsSymbol(id) then m
    else if id in m.idToWorldPoint then
      m.(worldPoints := m.worldPoints + [m.idToWorldPoint[id]])
    else
      var d := SymbolOffset(id);
      var p := Point(location.x + d.x, location.y + d.y);
      m.(idToWorldPoint := m.idToWorldPoint[id := p], worldPoints := m.worldPoints + [p])
  }

  /** `onGraphicsObjectCreated`: an element graphic consumes the front tile, once per
      tick, never from an empty queue. */
  function OnGraphicsObjectCreated(m: MemoryBlast, id: int, tick: int): (r: MemoryBlast)
    ensures |m.worldPoints| == 0 || !IsElementGraphic(id) || tick == m.lastTick ==> r == m
    ensures |m.worldPoints| > 0 && IsElementGraphic(id) && tick != m.lastTick ==>
              r == m.(worldPoints := m.worldPoints[1..], lastTick := tick)
  {
    if |m.worldPoints| == 0 then m
    else if !IsElementGraphic(id) then m
    else if tick == m.lastTick then m
    else m.(worldPoints := m.worldPoints[1..], lastTick := tick)
  }

  /** Graphics created during one tick consume at most one tile. */
  lemma OncePerTick(m: MemoryBlast, id1: int, id2: int, tick: int)
    ensures var m1 := OnGraphicsObjectCreated(m, id1, tick);
      var m2 := OnGraphicsObjectCreated(m1, id2, tick);
      |m.worldPoints| - 1 <= |m2.worldPoints| <= |m.worldPoints| &&
      m2.worldPoints == m.worldPoints[|m.worldPoints| - |m2.worldPoints|..]
  {
  }

  /** First in, first out: tiles memorised in order are consumed in that order. */
  lemma FirstInFirstOut(m: MemoryBlast, id: int, animation: Option<int>, location: Point, gfx: int, tick: int)
    requires |m.worldPoints| > 0 && IsElementGraphic(gfx) && tick != m.lastTick
    ensures var spawned := OnGameObjectSpawned(m, id, animation, location);
      var popped := OnGraphicsObjectCreated(spawned, gfx, tick);
      spawned.worldPoints[0] == m.worldPoints[0] &&
      popped.worldPoints == OnGraphicsObjectCreated(m, gfx, tick).worldPoints +
                            spawned.worldPoints[|m.worldPoints|..]
  {
  }

  /** The first tile computed for a symbol is reused for every later glow of that
      symbol, wherever the later object stands. */
  lemma OffsetCached(m: MemoryBlast, id: int, first: Point, later: Point)
    requires IsSymbol(id)
    ensures var m1 := OnGameObjectSpawned(m, id, Some(ANIMATION_ID_GLOW), first);
      var m2 := OnGameObjectSpawned(m1, id, Some(ANIMATION_ID_GLOW), later);
      m2.worldPoints == m1.worldPoints + [m1.worldPoints[|m1.worldPoints| - 1]]
  {
  }
}

=== FILE: akkha_overlay.dfy ===
/** Akkha's scene overlay: the tiles each unstable orb is about to cross, a ray of
    `distance` tiles in the direction the orb faces. */
module AkkhaOverlay {
  import opened Common
  import opened OverlayGeometry

  /** The configured ray length: at most 7, 3 by default. */
  const RADIUS_DISTANCE_MAX: int := 7
  const RADIUS_DISTANCE_DEFAULT: int := 3

  /** An orb as the overlay reads it: its orientation (0..2047 in the host), local
      location and world-area size. */
  datatype Orb = Orb(orientation: int, location: Point, width: int, height: int)

  /** The unit step of each eighth of a turn: S, SW, W, NW, N, NE, E, SE. */
  const DIRECTIONS: seq<Point> := [
    Point(0, -1), Point(-1, -1), Point(-1, 0), Point(-1, 1),
    Point(0, 1), Point(1, 1), Point(1, 0), Point(1, -1)]

  /** The orb's direction: eighth `orientation / 256`, or none for any other value. */
  function Direction(orientation: int): (d: Option<Point>)
    ensures d.Some? <==> 0 <= JavaDiv(orientation, 256) < 8
    ensures d.Some? ==> d.value == DIRECTIONS[JavaDiv(orientation, 256)]
  {
    var sector := JavaDiv(orientation, 256);
    if 0 <= sector < 8 then Some(DIRECTIONS[sector]) else None
  }

  /** The eight directions are the eight distinct non-zero unit steps. */
  lemma DirectionsAreUnitSteps()
    ensures forall i :: 0 <= i < 8 ==>
              DIRECTIONS[i] != Point(0, 0) && -1 <= DIRECTIONS[i].x <= 1 && -1 <= DIRECTIONS[i].y <= 1
    ensures forall i, j :: 0 <= i < j < 8 ==> DIRECTIONS[i] != DIRECTIONS[j]
    ensures forall p: Point :: p != Point(0, 0) && -1 <= p.x <= 1 && -1 <= p.y <= 1 ==> p in DIRECTIONS
  {
  }

  /** The tile `d` steps along `dir` from the orb. */
  function RayPoint(o: Orb, dir: Point, d: int): Point {
    NewLocalPoint(o.width, o.height, o.location, d * dir.x, d * dir.y)
  }

  /** The tiles `step(1)`, ..., `step(k)`. */
  function Ray(step: int -> Point, k: int): set<Point>
    decreases if k < 0 then 0 else k
  {
    if k <= 0 then {} else Ray(step, k - 1) + {step(k)}
  }

  /** The ray holds exactly the steps 1..k. */
  lemma {:induction false} RayMembers(step: int -> Point, k: int, p: Point)
    ensures p in Ray(step, k) <==> exists d :: 1 <= d <= k && p == step(d)
    decreases if k < 0 then 0 else k
  {
    if k > 0 {
      RayMembers(step, k - 1, p);
      if p == step(k) {
      }
    }
  }

  /** A ray of length `k` has at most `k` tiles, none at all for `k <= 0`. */
  lemma {:induction false} RayBound(step: int -> Point, k: int)
    ensures |Ray(step, k)| <= if k < 0 then 0 else k
    decreases if k < 0 then 0 else k
  {
    if k > 0 {
      RayBound(step, k - 1);
    }
  }

  /** When the steps are all different tiles, the ray has exactly `k` of them. */
  lemma {:induction false} RayExact(step: int -> Point, k: int)
    requires forall d, e :: 1 <= d < e <= k ==> step(d) != step(e)
    ensures |Ray(step, k)| == if k < 0 then 0 else k
    decreases if k < 0 then 0 else k
  {
    if k > 0 {
      RayExact(step, k - 1);
      RayMembers(step, k - 1, step(k));
    }
  }

  /** For an orb of positive size and a non-zero direction, different steps are
      different tiles. */
  lemma StepsDiffer(o: Orb, dir: Point, d: int, e: int)
    requires o.width >= 1 && o.height >= 1 && dir != Point(0, 0) && d != e
    ensures RayPoint(o, dir, d) != RayPoint(o, dir, e)
  {
    if dir.x != 0 {
      MulDiffer(d, e, dir.x);
    } else {
      MulDiffer(d, e, dir.y);
    }
    NewLocalPointInjective(o.width, o.height, o.location, Point(d * dir.x, d * dir.y), Point(e * dir.x, e * dir.y));
  }

  /** Every orb of positive size facing one of the eight directions marks exactly
      `distance` tiles. */
  lemma OrbRayExact(o: Orb, distance: int)
    requires o.width >= 1 && o.height >= 1 && Direction(o.orientation).Some?
    ensures |OrbPoints(o, distance)| == if distance < 0 then 0 else distance
  {
    var dir := Direction(o.orientation).value;
    DirectionsAreUnitSteps();
    forall d, e | 1 <= d < e <= distance
      ensures RayPoint(o, dir, d) != RayPoint(o, dir, e)
    {
      StepsDiffer(o, dir, d, e);
    }
    RayExact(d => RayPoint(o, dir, d), distance);
  }

  /** For a 1x1 orb, step `d` is exactly `d` tiles along each non-zero axis. */
  lemma OneByOneSteps(o: Orb, dir: Point, d: int)
    requires o.width == 1 && o.height == 1
    ensures RayPoint(o, dir, d) == Point(o.location.x + d * dir.x * LOCAL_TILE_SIZE, o.location.y + d * dir.y * LOCAL_TILE_SIZE)
  {
    NewLocalPointExact(1, 1, o.location, d * dir.x, d * dir.y);
  }

  /** The orb's tiles: its ray, or nothing when its orientation has no direction. */
  function OrbPoints(o: Orb, distance: int): (s: set<Point>)
    ensures Direction(o.orientation).None? ==> s == {}
    ensures Direction(o.orientation).Some? ==>
              s == Ray(d => RayPoint(o, Direction(o.orientation).value, d), distance)
  {
    match Direction(o.orientation)
    case None => {}
    case Some(dir) => Ray(d => RayPoint(o, dir, d), distance)
  }

  /** `getUnstableOrbLocalPoints`: every orb's tiles, collected in one set. */
  function UnstableOrbLocalPoints(orbs: seq<Orb>, distance: int): set<Point>
    decreases |orbs|
  {
    if |orbs| == 0 then {} else OrbPoints(orbs[0], distance) + UnstableOrbLocalPoints(orbs[1..], distance)
  }

  /** A tile is marked exactly when some orb's ray marks it. */
  lemma {:induction false} UnstableOrbMembers(orbs: seq<Orb>, distance: int, p: Point)
    ensures p in UnstableOrbLocalPoints(orbs, distance) <==>
              exists i :: 0 <= i < |orbs| && p in OrbPoints(orbs[i], distance)
    decreases |orbs|
  {
    if |orbs| > 0 {
      UnstableOrbMembers(orbs[1..], distance, p);
      if p in UnstableOrbLocalPoints(orbs[1..], distance) {
        var j :| 0 <= j < |orbs[1..]| && p in OrbPoints(orbs[1..][j], distance);
        assert orbs[j + 1] == orbs[1..][j];
      }
      if exists i :: 0 <= i < |orbs| && p in OrbPoints(orbs[i], distance) {
        var i :| 0 <= i < |orbs| && p in OrbPoints(orbs[i], distance);
        if i > 0 {
          assert orbs[1..][i - 1] == orbs[i];
        }
      }
    }
  }

  /** Each orb adds at most `distance` tiles, so the overlay never marks more than
      `distance` tiles per orb. */
  lemma {:induction false} UnstableOrbBound(orbs: seq<Orb>, distance: int)
    requires 0 <= distance
    ensures |UnstableOrbLocalPoints(orbs, distance)| <= distance * |orbs|
    decreases |orbs|
  {
    if |orbs| > 0 {
      var o := orbs[0];
      var n := |orbs[1..]|;
      UnstableOrbBound(orbs[1..], distance);
      OrbBound(o, distance);
      UnionBound(OrbPoints(o, distance), UnstableOrbLocalPoints(orbs[1..], distance));
      MulSucc(distance, n);
    }
  }

  /** At the configuration's maximum ray length, seven tiles per orb at most. */
  lemma UnstableOrbMaxBound(orbs: seq<Orb>, distance: int)
    requires 0 <= distance <= RADIUS_DISTANCE_MAX
    ensures |UnstableOrbLocalPoints(orbs, distance)| <= RADIUS_DISTANCE_MAX * |orbs|
  {
    UnstableOrbBound(orbs, distance);
    MulMono(distance, RADIUS_DISTANCE_MAX, |orbs|);
  }

  lemma MulSucc(a: int, n: nat)
    ensures a * (n + 1) == a + a * n
  {
  }

  lemma MulMono(a: int, b: int, n: nat)
    requires a <= b
    ensures a * n <= b * n
  {
    assert b * n - a * n == (b - a) * n;
  }

  /** One orb marks at most `distance` tiles. */
  lemma OrbBound(o: Orb, distance: int)
    requires 0 <= distance
    ensures |OrbPoints(o, distance)| <= distance
  {
    if Direction(o.orientation).Some? {
      var dir := Direction(o.orientation).value;
      RayBound(d => RayPoint(o, dir, d), distance);
    }
  }

  lemma UnionBound<T>(a: set<T>, b: set<T>)
    ensures |a + b| <= |a| + |b|
  {
  }
}

=== FILE: apmeken.dfy ===
/** The Path of Apmeken: the baboons (volatile ones in a list of their own), the roof
    supports, vents and statue, the problem the player has sensed, and the "Repair"
    menu swap. NPC and object ids are abstracted to the kinds the room branches on. */
module ApmekenChallenge {
  import opened Common
  import opened Raid

  // Each sense message is the fixed opening "you sense " followed by the rest of the game text.
  const MESSAGE_SENSE_ROOF_SUPPORTS: string := "you sense " + "an issue with the roof supports."
  const MESSAGE_SENSE_FUMES: string := "you sense " + "some strange fumes coming from holes in the floor."
  const MESSAGE_FIX_ROOF_SUPPORTS: string := "you repair the damaged roof support."
  const MESSAGE_FIX_FUMES: string := "you neutralise the fumes coming from the hole."
  const MESSAGE_FAIL_ROOF_SUPPORTS: string := "damaged roof supports cause some debris to fall on you!"
  const MESSAGE_FAIL_FUMES: string := "the fumes filling the room suddenly ignite!"
  const MESSAGE_COMPLETE_PREFIX: string := "challenge complete"
  const MESSAGE_DIED_PREFIX: string := "you have died"
  const REPAIR_OPTION: string := "Repair"

  datatype Sense = NONE | VENTS | ROOF

  /** The volatile baboon, the nine other baboon ids, and everything else. */
  datatype NpcKind = VolatileBaboon | OtherBaboon | NotABaboon

  /** The two roof-support ids, the statue, and everything else. */
  datatype ObjectKind = RoofSupport | Statue | OtherObject

  datatype Apmeken = Apmeken(
    volatileBaboons: seq<Handle>,
    baboons: seq<Handle>,
    roofs: seq<Handle>,
    vents: seq<Handle>,
    statue: Option<Handle>,
    sense: Sense)

  /** `reset`. */
  const Reset := Apmeken([], [], [], [], None, NONE)

  predicate IsEnabled(s: RaidState) {
    s.currentRoom == Some(APMEKEN)
  }

  /** Every volatile-list entry is a volatile baboon that is also in the baboon list
      (counting repeats). `kindOf` is the host's NPC id lookup. */
  predicate Valid(a: Apmeken, kindOf: Handle -> NpcKind) {
    multiset(a.volatileBaboons) <= multiset(a.baboons) &&
    forall h :: h in a.volatileBaboons ==> kindOf(h) == VolatileBaboon
  }

  /** `onNpcSpawned`: a volatile baboon joins both lists, another baboon the baboon list. */
  function OnNpcSpawned(a: Apmeken, npc: Handle, kindOf: Handle -> NpcKind): (r: Apmeken)
    ensures kindOf(npc) == VolatileBaboon ==>
              r == a.(volatileBaboons := a.volatileBaboons + [npc], baboons := a.baboons + [npc])
    ensures kindOf(npc) == OtherBaboon ==> r == a.(baboons := a.baboons + [npc])
    ensures kindOf(npc) == NotABaboon ==> r == a
    ensures Valid(a, kindOf) ==> Valid(r, kindOf)
  {
    match kindOf(npc)
    case VolatileBaboon => a.(volatileBaboons := a.volatileBaboons + [npc], baboons := a.baboons + [npc])
    case OtherBaboon => a.(baboons := a.baboons + [npc])
    case NotABaboon => a
  }

  /** `removeNpc`, used on despawn and on an NPC's death: a volatile baboon leaves both
      lists, another baboon the baboon list (one occurrence each). */
  function RemoveNpc(a: Apmeken, npc: Handle, kindOf: Handle -> NpcKind): (r: Apmeken)
    ensures kindOf(npc) == VolatileBaboon ==>
              r == a.(volatileBaboons := RemoveFirst(a.volatileBaboons, npc), baboons := RemoveFirst(a.baboons, npc))
    ensures kindOf(npc) == OtherBaboon ==> r == a.(baboons := RemoveFirst(a.baboons, npc))
    ensures kindOf(npc) == NotABaboon ==> r == a
  {
    match kindOf(npc)
    case VolatileBaboon =>
      a.(volatileBaboons := RemoveFirst(a.volatileBaboons, npc), baboons := RemoveFirst(a.baboons, npc))
    case OtherBaboon => a.(baboons := RemoveFirst(a.baboons, npc))
    case NotABaboon => a
  }

  /** Removing an NPC keeps every volatile baboon in the baboon list. */
  lemma RemoveNpcKeepsValid(a: Apmeken, npc: Handle, kindOf: Handle -> NpcKind)
    requires Valid(a, kindOf)
    ensures Valid(RemoveNpc(a, npc, kindOf), kindOf)
  {
    var r := RemoveNpc(a, npc, kindOf);
    match kindOf(npc)
    case VolatileBaboon =>
      RemoveKeepsInclusion(a.volatileBaboons, a.baboons, npc, true);
      assert forall h :: h in r.volatileBaboons ==> h in a.volatileBaboons by {
        forall h | h in r.volatileBaboons ensures h in a.volatileBaboons {
          assert h in multiset(r.volatileBaboons);
        }
      }
    case OtherBaboon =>
      RemoveKeepsInclusion(a.volatileBaboons, a.baboons, npc, false);
    case NotABaboon =>
  }

  /** Removing `x` from the larger list (and from the smaller one too, when `both`)
      keeps the multiset inclusion, provided `x` is not in the smaller list otherwise. */
  lemma RemoveKeepsInclusion(small: seq<Handle>, large: seq<Handle>, x: Handle, both: bool)
    ensures multiset(small) <= multiset(large) && (both || x !in small) ==>
              multiset(if both then RemoveFirst(small, x) else small) <= multiset(RemoveFirst(large, x))
  {
    if multiset(small) <= multiset(large) && x in small {
      assert x in multiset(large);
    }
  }

  /** Removal takes one copy of the NPC out of each list it belongs to, as a multiset. */
  lemma RemoveNpcCounts(a: Apmeken, npc: Handle, kindOf: Handle -> NpcKind)
    ensures multiset(RemoveNpc(a, npc, kindOf).baboons) ==
              multiset(a.baboons) - (if kindOf(npc) == NotABaboon then multiset{} else multiset{npc})
    ensures multiset(RemoveNpc(a, npc, kindOf).volatileBaboons) ==
              multiset(a.volatileBaboons) - (if kindOf(npc) == VolatileBaboon then multiset{npc} else multiset{})
  {
    RemoveFirstMultiset(a.baboons, npc);
    RemoveFirstMultiset(a.volatileBaboons, npc);
    assert multiset(a.baboons) - multiset{} == multiset(a.baboons);
    assert multiset(a.volatileBaboons) - multiset{} == multiset(a.volatileBaboons);
  }

  /** `onNpcDespawned`. */
  function OnNpcDespawned(a: Apmeken, npc: Handle, kindOf: Handle -> NpcKind): (r: Apmeken)
    ensures r == RemoveNpc(a, npc, kindOf)
    ensures multiset(r.baboons) ==
              multiset(a.baboons) - (if kindOf(npc) == NotABaboon then multiset{} else multiset{npc})
    ensures multiset(r.volatileBaboons) ==
              multiset(a.volatileBaboons) - (if kindOf(npc) == VolatileBaboon then multiset{npc} else multiset{})
    ensures r == a.(baboons := r.baboons, volatileBaboons := r.volatileBaboons)
    ensures Valid(a, kindOf) ==> Valid(r, kindOf)
  {
    RemoveNpcCounts(a, npc, kindOf);
    if Valid(a, kindOf) then
      RemoveNpcKeepsValid(a, npc, kindOf);
      RemoveNpc(a, npc, kindOf)
    else
      RemoveNpc(a, npc, kindOf)
  }

  /** `onActorDeath`: only NPCs are removed; `npc` is `None` for any other actor. */
  function OnActorDeath(a: Apmeken, npc: Option<Handle>, kindOf: Handle -> NpcKind): (r: Apmeken)
    ensures npc.None? ==> r == a
    ensures npc.Some? ==> r == RemoveNpc(a, npc.value, kindOf)
  {
    if npc.None? then a else RemoveNpc(a, npc.value, kindOf)
  }

  /** `onGameObjectSpawned`: roof supports are collected, the statue remembered. */
  function OnGameObjectSpawned(a: Apmeken, obj: Handle, kind: ObjectKind): (r: Apmeken)
    ensures kind == RoofSupport ==> r == a.(roofs := a.roofs + [obj])
    ensures kind == Statue ==> r == a.(statue := Some(obj))
    ensures kind == OtherObject ==> r == a
  {
    match kind
    case RoofSupport => a.(roofs := a.roofs + [obj])
    case Statue => a.(statue := Some(obj))
    case OtherObject => a
  }

  /** `onGameObjectDespawned`: the statue is forgotten whichever statue object leaves. */
  function OnGameObjectDespawned(a: Apmeken, obj: Handle, kind: ObjectKind): (r: Apmeken)
    ensures kind == RoofSupport ==> r == a.(roofs := RemoveFirst(a.roofs, obj))
    ensures kind == Statue ==> r == a.(statue := None)
    ensures kind == OtherObject ==> r == a
  {
    match kind
    case RoofSupport => a.(roofs := RemoveFirst(a.roofs, obj))
    case Statue => a.(statue := None)
    case OtherObject => a
  }

  /** `onGroundObjectSpawned` / `onGroundObjectDespawned`: vents (ground object 45499). */
  function OnGroundObjectSpawned(a: Apmeken, obj: Handle, isVent: bool): (r: Apmeken)
    ensures isVent ==> r == a.(vents := a.vents + [obj])
    ensures !isVent ==> r == a
  {
    if isVent then a.(vents := a.vents + [obj]) else a
  }

  function OnGroundObjectDespawned(a: Apmeken, obj: Handle, isVent: bool): (r: Apmeken)
    ensures isVent ==> r == a.(vents := RemoveFirst(a.vents, obj))
    ensures !isVent ==> r == a
  {
    if isVent then a.(vents := RemoveFirst(a.vents, obj)) else a
  }

  /** The sense a standardised game message leaves behind, given the current one. */
  function SenseAfter(sense: Sense, message: string): (r: Sense)
    ensures StartsWith(message, MESSAGE_COMPLETE_PREFIX) || StartsWith(message, MESSAGE_DIED_PREFIX) ==> r == NONE
    ensures message in {MESSAGE_FIX_ROOF_SUPPORTS, MESSAGE_FIX_FUMES, MESSAGE_FAIL_ROOF_SUPPORTS, MESSAGE_FAIL_FUMES} ==> r == NONE
    ensures message == MESSAGE_SENSE_FUMES ==> r == VENTS
    ensures message == MESSAGE_SENSE_ROOF_SUPPORTS ==> r == ROOF
    ensures r != sense ==>
              StartsWith(message, MESSAGE_COMPLETE_PREFIX) || StartsWith(message, MESSAGE_DIED_PREFIX) ||
              message in {MESSAGE_FIX_ROOF_SUPPORTS, MESSAGE_FIX_FUMES, MESSAGE_FAIL_ROOF_SUPPORTS, MESSAGE_FAIL_FUMES,
                          MESSAGE_SENSE_FUMES, MESSAGE_SENSE_ROOF_SUPPORTS}
  {
    SenseMessagesAreNotEnds();
    if StartsWith(message, MESSAGE_COMPLETE_PREFIX) || StartsWith(message, MESSAGE_DIED_PREFIX) then NONE
    else if message in {MESSAGE_FIX_ROOF_SUPPORTS, MESSAGE_FIX_FUMES, MESSAGE_FAIL_ROOF_SUPPORTS, MESSAGE_FAIL_FUMES} then NONE
    else if message == MESSAGE_SENSE_FUMES then VENTS
    else if message == MESSAGE_SENSE_ROOF_SUPPORTS then ROOF
    else sense
  }

  /** Neither sense message reads as the end of the room or a death. */
  lemma SenseMessagesAreNotEnds()
    ensures !StartsWith(MESSAGE_SENSE_FUMES, MESSAGE_COMPLETE_PREFIX) && !StartsWith(MESSAGE_SENSE_FUMES, MESSAGE_DIED_PREFIX)
    ensures !StartsWith(MESSAGE_SENSE_ROOF_SUPPORTS, MESSAGE_COMPLETE_PREFIX) &&
            !StartsWith(MESSAGE_SENSE_ROOF_SUPPORTS, MESSAGE_DIED_PREFIX)
  {
    DiffersAt(MESSAGE_SENSE_FUMES, MESSAGE_COMPLETE_PREFIX, 0);
    DiffersAt(MESSAGE_SENSE_FUMES, MESSAGE_DIED_PREFIX, 4);
    DiffersAt(MESSAGE_SENSE_ROOF_SUPPORTS, MESSAGE_COMPLETE_PREFIX, 0);
    DiffersAt(MESSAGE_SENSE_ROOF_SUPPORTS, MESSAGE_DIED_PREFIX, 4);
  }

  /** `onChatMessage`: only game messages, after the host's standardisation, move the sense. */
  function OnChatMessage(a: Apmeken, isGameMessage: bool, message: string): (r: Apmeken)
    ensures !isGameMessage ==> r == a
    ensures isGameMessage ==> r == a.(sense := SenseAfter(a.sense, message))
  {
    if !isGameMessage then a else a.(sense := SenseAfter(a.sense, message))
  }

  /** `onMenuEntryAdded`: the entry's deprioritised flag afterwards. */
  function OnMenuEntryAdded(a: Apmeken, option: string, deprioritized: bool, repairMenuEntry: bool): (r: bool)
    ensures r <==> deprioritized || (repairMenuEntry && a.sense != ROOF && option == REPAIR_OPTION)
  {
    if !repairMenuEntry || a.sense == ROOF then deprioritized
    else if option != REPAIR_OPTION then deprioritized
    else true
  }

  /** `shutDown`. */
  function ShutDown(a: Apmeken): (r: Apmeken)
    ensures r.volatileBaboons == [] && r.baboons == [] && r.roofs == [] && r.vents == []
    ensures r.statue.None? && r.sense == NONE
  {
    Reset
  }

  /** In every valid state each volatile baboon is also a tracked baboon. */
  lemma VolatileAreBaboons(a: Apmeken, kindOf: Handle -> NpcKind)
    requires Valid(a, kindOf)
    ensures forall h :: h in a.volatileBaboons ==> h in a.baboons
  {
    forall h | h in a.volatileBaboons ensures h in a.baboons {
      assert h in multiset(a.volatileBaboons);
    }
  }

  /** A spawned baboon that despawns leaves the lists as they were. */
  lemma BaboonRoundTrip(a: Apmeken, npc: Handle, kindOf: Handle -> NpcKind)
    requires npc !in a.baboons && npc !in a.volatileBaboons
    ensures RemoveNpc(OnNpcSpawned(a, npc, kindOf), npc, kindOf) == a
  {
    RemoveFirstAppended(a.baboons, npc);
    RemoveFirstAppended(a.volatileBaboons, npc);
  }


  /** The warning sensed stays until it is fixed, failed, the room ends or the player
      dies: any other message leaves it. */
  lemma SenseIsSticky(sense: Sense, message: string)
    requires !StartsWith(message, MESSAGE_COMPLETE_PREFIX) && !StartsWith(message, MESSAGE_DIED_PREFIX)
    requires message !in {MESSAGE_FIX_ROOF_SUPPORTS, MESSAGE_FIX_FUMES, MESSAGE_FAIL_ROOF_SUPPORTS, MESSAGE_FAIL_FUMES,
                          MESSAGE_SENSE_FUMES, MESSAGE_SENSE_ROOF_SUPPORTS}
    ensures SenseAfter(sense, message) == sense
  {
  }
}

=== FILE: attack_projectile.dfy ===
/** A predicted hazard: the prayer that blocks it, the whole ticks until it lands and
    a tie-break priority (lower first). Only the tick count ever changes. */
module AttackProjectiles {
  import opened Common

  datatype AttackProjectile = AttackProjectile(prayer: Prayer, ticks: int, priority: int)

  /** The two-argument constructor: priority defaults to 0. */
  function WithDefaultPriority(prayer: Prayer, ticks: int): (p: AttackProjectile)
    ensures p.priority == 0
    ensures p.prayer == prayer && p.ticks == ticks
  {
    AttackProjectile(prayer, ticks, 0)
  }

  /** One tick of decay: positive counts drop by one, anything else stays put. */
  function DecrementTicks(p: AttackProjectile): (r: AttackProjectile)
    ensures r.prayer == p.prayer && r.priority == p.priority
    ensures p.ticks > 0 ==> r.ticks == p.ticks - 1
    ensures p.ticks <= 0 ==> r == p
    ensures p.ticks >= 0 ==> r.ticks >= 0
  {
    if p.ticks > 0 then p.(ticks := p.ticks - 1) else p
  }

  predicate IsExpired(p: AttackProjectile) {
    p.ticks == 0
  }

  /** `k` successive calls of `DecrementTicks`. */
  function Decayed(p: AttackProjectile, k: nat): AttackProjectile {
    if k == 0 then p else DecrementTicks(Decayed(p, k - 1))
  }

  /** A hazard created with `n >= 1` ticks counts down one per tick, keeps its prayer
      and priority, and is expired after exactly `n` decrements, never earlier. */
  lemma {:induction false} ExpiresAfterExactly(p: AttackProjectile, k: nat)
    requires p.ticks >= 1
    ensures k <= p.ticks ==> Decayed(p, k).ticks == p.ticks - k
    ensures Decayed(p, k).prayer == p.prayer && Decayed(p, k).priority == p.priority
    ensures IsExpired(Decayed(p, k)) <==> k >= p.ticks
  {
    if k > 0 {
      ExpiresAfterExactly(p, k - 1);
    }
  }

  /** The constructor does not validate: a hazard with negative ticks never changes
      under decay and is never expired. */
  lemma {:induction false} NegativeNeverExpires(p: AttackProjectile, k: nat)
    requires p.ticks < 0
    ensures Decayed(p, k) == p
    ensures !IsExpired(Decayed(p, k))
  {
    if k > 0 {
      NegativeNeverExpires(p, k - 1);
    }
  }

  /** Java's `Integer.compare`. */
  function CompareInt(a: int, b: int): int {
    if a < b then -1 else if a == b then 0 else 1
  }

  /** `compareTo`: compare by ticks, then by priority. */
  function Compare(a: AttackProjectile, b: AttackProjectile): (c: int)
    ensures -1 <= c <= 1
  {
    var byTicks := CompareInt(a.ticks, b.ticks);
    if byTicks != 0 then byTicks else CompareInt(a.priority, b.priority)
  }

  /** Independent statement of the queue order: fewer ticks first, then lower priority. */
  predicate Precedes(a: AttackProjectile, b: AttackProjectile) {
    a.ticks < b.ticks || (a.ticks == b.ticks && a.priority < b.priority)
  }

  /** `Compare` is the lexicographic order on (ticks, priority). */
  lemma CompareIsLexicographic(a: AttackProjectile, b: AttackProjectile)
    ensures Compare(a, b) < 0 <==> Precedes(a, b)
    ensures Compare(a, b) > 0 <==> Precedes(b, a)
    ensures Compare(a, b) == 0 <==> a.ticks == b.ticks && a.priority == b.priority
    ensures Compare(a, b) == -Compare(b, a)
  {
  }

  /** The order is a strict weak order, so a priority queue built on it is well defined. */
  lemma PrecedesIsStrictOrder(a: AttackProjectile, b: AttackProjectile, c: AttackProjectile)
    ensures !Precedes(a, a)
    ensures Precedes(a, b) ==> !Precedes(b, a)
    ensures Precedes(a, b) && Precedes(b, c) ==> Precedes(a, c)
    ensures !Precedes(a, b) && !Precedes(b, c) ==> !Precedes(a, c)
  {
  }

  /** Decay preserves the order between two live hazards. */
  lemma DecayPreservesOrder(a: AttackProjectile, b: AttackProjectile)
    requires a.ticks >= 1 && b.ticks >= 1
    ensures Precedes(DecrementTicks(a), DecrementTicks(b)) <==> Precedes(a, b)
  {
  }
}

=== FILE: baba.dfy ===
/** Ba-Ba: falling-boulder countdowns, the current shockwave (a large wave overrides a
    small one), the baboons, banana peels and sarcophagus projectiles on the floor,
    and the HP breakpoints. */
module BabaBoss {
  import opened Common
  import opened Countdowns
  import opened ToaUtils
  import opened Raid

  const HP_PERCENT_BREAKPOINTS: seq<int> := [66, 33]
  const GRAPHICS_OBJECT_ID_FALLING_BOULDER_A: int := 2250
  const GRAPHICS_OBJECT_ID_FALLING_BOULDER_B: int := 2251
  const GRAPHICS_OBJECT_ID_SHOCKWAVE_SMALL: int := 1447
  const GRAPHICS_OBJECT_ID_SHOCKWAVE_LARGE: int := 1448
  const NPC_NAME: string := "Ba-Ba"
  const PROJECTILE_ID_SARCOPHAGUS_ATTACK: int := 2246
  const FALLING_BOULDER_TICK_COUNT: int := 7

  /** The NPC and object id classes the component distinguishes. */
  datatype NpcKind = Baboon | OtherNpc
  datatype ObjectKind = BananaPeel | OtherObject

  datatype Actor = NpcActor(handle: Handle, kind: NpcKind) | NotAnNpc

  datatype Baba = Baba(
    fallingBouldersToTicks: Countdown,
    sarcophagusProjectiles: seq<Handle>,
    bananaPeelGameObjects: seq<Handle>,
    baboonNpcs: seq<Handle>,
    npc: Option<Handle>,
    shockwave: Option<Handle>,
    hp: BreakpointTracker)

  const Reset := Baba(map[], [], [], [], None, None, NoBreakpoints)

  predicate IsEnabled(s: RaidState) {
    s.currentRoom == Some(BABA)
  }

  /** `onGameTick`: landed sarcophagus projectiles leave, boulder timers count down and
      a finished shockwave frees the slot. */
  function OnGameTick(b: Baba, remainingCycles: Handle -> int, finished: Handle -> bool): (r: Baba)
    ensures forall p :: p in r.sarcophagusProjectiles <==> p in b.sarcophagusProjectiles && remainingCycles(p) > 0
    ensures r.fallingBouldersToTicks == DecrementAndDrop(b.fallingBouldersToTicks)
    ensures r.shockwave == (if b.shockwave.Some? && finished(b.shockwave.value) then None else b.shockwave)
    ensures r == b.(sarcophagusProjectiles := r.sarcophagusProjectiles, fallingBouldersToTicks := r.fallingBouldersToTicks,
                    shockwave := r.shockwave)
  {
    b.(sarcophagusProjectiles := Filter(b.sarcophagusProjectiles, p => remainingCycles(p) > 0),
       fallingBouldersToTicks := DecrementAndDrop(b.fallingBouldersToTicks),
       shockwave := if b.shockwave.Some? && finished(b.shockwave.value) then None else b.shockwave)
  }

  /** `onNpcSpawned`: the boss by name, otherwise a baboon is tracked. */
  function OnNpcSpawned(b: Baba, npc: Handle, name: string, kind: NpcKind): (r: Baba)
    ensures name == NPC_NAME ==> r == b.(npc := Some(npc))
    ensures name != NPC_NAME && kind == Baboon ==> r == b.(baboonNpcs := b.baboonNpcs + [npc])
    ensures name != NPC_NAME && kind != Baboon ==> r == b
  {
    if name == NPC_NAME then b.(npc := Some(npc))
    else if kind == Baboon then b.(baboonNpcs := b.baboonNpcs + [npc])
    else b
  }

  /** `onNpcDespawned`: the boss is forgotten; a baboon leaves the list. */
  function OnNpcDespawned(b: Baba, npc: Handle, kind: NpcKind): (r: Baba)
    ensures b.npc == Some(npc) ==> r == b.(npc := None)
    ensures b.npc != Some(npc) && kind == Baboon ==> r == b.(baboonNpcs := RemoveFirst(b.baboonNpcs, npc))
    ensures b.npc != Some(npc) && kind != Baboon ==> r == b
  {
    if b.npc == Some(npc) then b.(npc := None)
    else if kind == Baboon then b.(baboonNpcs := RemoveFirst(b.baboonNpcs, npc))
    else b
  }

  /** `onActorDeath`: a dead baboon leaves the list. */
  function OnActorDeath(b: Baba, actor: Actor): (r: Baba)
    ensures actor.NpcActor? && actor.kind == Baboon ==> r == b.(baboonNpcs := RemoveFirst(b.baboonNpcs, actor.handle))
    ensures !(actor.NpcActor? && actor.kind == Baboon) ==> r == b
  {
    if actor.NpcActor? && actor.kind == Baboon then b.(baboonNpcs := RemoveFirst(b.baboonNpcs, actor.handle)) else b
  }

  /** `onProjectileMoved`: sarcophagus attacks are tracked. */
  function OnProjectileMoved(b: Baba, projectile: Handle, id: int): (r: Baba)
    ensures id == PROJECTILE_ID_SARCOPHAGUS_ATTACK ==> r == b.(sarcophagusProjectiles := b.sarcophagusProjectiles + [projectile])
    ensures id != PROJECTILE_ID_SARCOPHAGUS_ATTACK ==> r == b
  {
    if id == PROJECTILE_ID_SARCOPHAGUS_ATTACK then b.(sarcophagusProjectiles := b.sarcophagusProjectiles + [projectile]) else b
  }

  /** `onGraphicsObjectCreated`: boulders start a seven-tick timer; a small shockwave
      only fills an empty slot, a large one always takes it. */
  function OnGraphicsObjectCreated(b: Baba, gfx: Handle, id: int): (r: Baba)
    ensures id == GRAPHICS_OBJECT_ID_FALLING_BOULDER_A || id == GRAPHICS_OBJECT_ID_FALLING_BOULDER_B ==>
              r == b.(fallingBouldersToTicks := b.fallingBouldersToTicks[gfx := 7])
    ensures id == GRAPHICS_OBJECT_ID_SHOCKWAVE_LARGE ==> r == b.(shockwave := Some(gfx))
    ensures id == GRAPHICS_OBJECT_ID_SHOCKWAVE_SMALL ==>
              r == b.(shockwave := if b.shockwave.None? then Some(gfx) else b.shockwave)
    ensures (id != GRAPHICS_OBJECT_ID_FALLING_BOULDER_A && id != GRAPHICS_OBJECT_ID_FALLING_BOULDER_B &&
             id != GRAPHICS_OBJECT_ID_SHOCKWAVE_SMALL && id != GRAPHICS_OBJECT_ID_SHOCKWAVE_LARGE) ==> r == b
  {
    if id == GRAPHICS_OBJECT_ID_FALLING_BOULDER_A || id == GRAPHICS_OBJECT_ID_FALLING_BOULDER_B then
      b.(fallingBouldersToTicks := b.fallingBouldersToTicks[gfx := FALLING_BOULDER_TICK_COUNT])
    else if id == GRAPHICS_OBJECT_ID_SHOCKWAVE_SMALL || id == GRAPHICS_OBJECT_ID_SHOCKWAVE_LARGE then
      if b.shockwave.None? || id == GRAPHICS_OBJECT_ID_SHOCKWAVE_LARGE then b.(shockwave := Some(gfx)) else b
    else b
  }

  /** `onGameObjectSpawned`: banana peels are tracked. */
  function OnGameObjectSpawned(b: Baba, obj: Handle, kind: ObjectKind): (r: Baba)
    ensures kind == BananaPeel ==> multiset(r.bananaPeelGameObjects) == multiset(b.bananaPeelGameObjects) + multiset{obj}
    ensures r == b.(bananaPeelGameObjects := r.bananaPeelGameObjects)
    ensures kind != BananaPeel ==> r == b
  {
    if kind == BananaPeel then b.(bananaPeelGameObjects := b.bananaPeelGameObjects + [obj]) else b
  }

  /** `onGameObjectDespawned`: a despawned peel leaves the list. */
  function OnGameObjectDespawned(b: Baba, obj: Handle, kind: ObjectKind): (r: Baba)
    ensures kind == BananaPeel && obj in b.bananaPeelGameObjects ==>
              multiset(r.bananaPeelGameObjects) == multiset(b.bananaPeelGameObjects) - multiset{obj}
    ensures r == b.(bananaPeelGameObjects := r.bananaPeelGameObjects)
    ensures kind != BananaPeel || obj !in b.bananaPeelGameObjects ==> r == b
  {
    if kind == BananaPeel then b.(bananaPeelGameObjects := RemoveFirst(b.bananaPeelGameObjects, obj)) else b
  }

  /** The HP_HUD_UPDATE script: breakpoints at 66 and 33 percent of the maximum. */
  function OnHpHudUpdate(b: Baba, maxHp: int, currentHp: int): (r: Baba)
    ensures r == b.(hp := r.hp)
    ensures b.hp.breakpoints.None? && maxHp <= 1 ==> r == b
    ensures b.hp.breakpoints.None? && maxHp > 1 ==> r.hp.breakpoints == Some(DeriveBreakpoints([66, 33], maxHp))
    ensures currentHp > 0 && r.hp.breakpoints.Some? ==>
              r.hp.hpUntilNextBreakPoint == HpUntilNextBreakPoint(r.hp.breakpoints.value, currentHp)
  {
    b.(hp := ToaUtils.OnHpHudUpdate(b.hp, HP_PERCENT_BREAKPOINTS, maxHp, currentHp))
  }

  /** A peel that appears and then goes leaves the peel list as it was (as a multiset). */
  lemma PeelRoundTrip(b: Baba, obj: Handle)
    ensures var b2 := OnGameObjectDespawned(OnGameObjectSpawned(b, obj, BananaPeel), obj, BananaPeel);
      multiset(b2.bananaPeelGameObjects) == multiset(b.bananaPeelGameObjects)
  {
  }

  /** A baboon that spawns and then dies, or despawns, leaves the baboon list as it was
      (as a multiset). */
  lemma BaboonRoundTrip(b: Baba, baboon: Handle, name: string)
    requires name != NPC_NAME && b.npc != Some(baboon)
    ensures var b1 := OnNpcSpawned(b, baboon, name, Baboon);
      multiset(OnActorDeath(b1, NpcActor(baboon, Baboon)).baboonNpcs) == multiset(b.baboonNpcs) &&
      multiset(OnNpcDespawned(b1, baboon, Baboon).baboonNpcs) == multiset(b.baboonNpcs)
  {
    var b1 := OnNpcSpawned(b, baboon, name, Baboon);
    assert baboon in b1.baboonNpcs;
  }

  /** Whatever the order of shockwave graphics in one burst, a large one ends up in the
      slot once it has appeared, and a small one never displaces any wave. */
  lemma LargeShockwaveWins(b: Baba, large: Handle, small: Handle)
    ensures var b1 := OnGraphicsObjectCreated(b, large, GRAPHICS_OBJECT_ID_SHOCKWAVE_LARGE);
      OnGraphicsObjectCreated(b1, small, GRAPHICS_OBJECT_ID_SHOCKWAVE_SMALL).shockwave == Some(large)
    ensures var b1 := OnGraphicsObjectCreated(b, small, GRAPHICS_OBJECT_ID_SHOCKWAVE_SMALL);
      OnGraphicsObjectCreated(b1, large, GRAPHICS_OBJECT_ID_SHOCKWAVE_LARGE).shockwave == Some(large)
  {
  }

  /** `k` game ticks. */
  function Ticks(b: Baba, remainingCycles: Handle -> int, finished: Handle -> bool, k: nat): Baba {
    Iterate((x: Baba) => OnGameTick(x, remainingCycles, finished), b, k)
  }

  /** The boulder timers over `k` ticks are the countdown map's drop steps. */
  lemma BouldersOverTicks(b: Baba, remainingCycles: Handle -> int, finished: Handle -> bool, k: nat)
    ensures Ticks(b, remainingCycles, finished, k).fallingBouldersToTicks == DropTicks(b.fallingBouldersToTicks, k)
  {
    IterateProjects((x: Baba) => OnGameTick(x, remainingCycles, finished), (x: Baba) => x.fallingBouldersToTicks,
                    DecrementAndDrop, b, k);
  }

  /** A falling boulder is shown for exactly seven ticks. */
  lemma BoulderLastsSeven(b: Baba, gfx: Handle, remainingCycles: Handle -> int, finished: Handle -> bool, k: nat)
    ensures var b1 := OnGraphicsObjectCreated(b, gfx, GRAPHICS_OBJECT_ID_FALLING_BOULDER_B);
      var t := Ticks(b1, remainingCycles, finished, k).fallingBouldersToTicks;
      (gfx in t <==> k < 7) && (gfx in t ==> t[gfx] == 7 - k)
  {
    var b1 := OnGraphicsObjectCreated(b, gfx, GRAPHICS_OBJECT_ID_FALLING_BOULDER_B);
    BouldersOverTicks(b1, remainingCycles, finished, k);
    DroppedAfterExactly(b1.fallingBouldersToTicks, gfx, k);
  }
}

=== FILE: baba_overlay.dfy ===
/** Ba-Ba's scene overlay: the health counter, the shockwave danger area (a square
    around the shockwave plus one tip beyond each side), and the falling boulders
    coloured by the ticks left before they land. */
module BabaOverlay {
  import opened Common
  import opened Countdowns
  import opened OverlayGeometry
  import opened BabaBoss

  /** `renderHealthCounter`: the hit points left until the next breakpoint, over the
      boss, shown only while positive and while the boss is tracked. */
  function HealthCounter(b: Baba): (text: Option<int>)
    ensures text.Some? <==> b.hp.hpUntilNextBreakPoint > 0 && b.npc.Some?
    ensures text.Some? ==> text.value == b.hp.hpUntilNextBreakPoint && text.value > 0
  {
    if b.hp.hpUntilNextBreakPoint <= 0 then None
    else if b.npc.None? then None
    else Some(b.hp.hpUntilNextBreakPoint)
  }

  /** The half side of the shockwave square: 1 for the small shockwave graphic, 2 for
      any other. */
  function ShockwaveSize(id: int): (size: int)
    ensures size == 1 <==> id == GRAPHICS_OBJECT_ID_SHOCKWAVE_SMALL
    ensures size == 1 || size == 2
  {
    if id == GRAPHICS_OBJECT_ID_SHOCKWAVE_SMALL then 1 else 2
  }

  function ShockwaveShape(id: int): Shape {
    if ShockwaveSize(id) == 1 then SmallShockwave else LargeShockwave
  }

  /** `renderShockwaveTiles`: the tiles of the square of half side `size` around the
      shockwave, and the four tiles `size + 1` out along the axes. */
  function ShockwaveTiles(id: int, width: int, height: int, location: Point): set<Point> {
    ShapeTiles(ShockwaveShape(id), width, height, location)
  }

  /** For a player of positive size, the tile at offset (`dx`, `dy`) is drawn exactly
      when it is in the square of half side `size` or one of the four tips at distance
      `size + 1`; a small shockwave covers 13 tiles and a large one 29. */
  lemma ShockwaveTilesExact(id: int, width: int, height: int, location: Point, dx: int, dy: int)
    requires width >= 1 && height >= 1
    ensures var size := ShockwaveSize(id);
      NewLocalPoint(width, height, location, dx, dy) in ShockwaveTiles(id, width, height, location) <==>
        (-size <= dx <= size && -size <= dy <= size) ||
        (dy == 0 && (dx == size + 1 || dx == -(size + 1))) ||
        (dx == 0 && (dy == size + 1 || dy == -(size + 1)))
    ensures |ShockwaveTiles(id, width, height, location)| == if id == GRAPHICS_OBJECT_ID_SHOCKWAVE_SMALL then 13 else 29
  {
    ShapeTilesMembers(ShockwaveShape(id), width, height, location, dx, dy);
    ShapeTilesCount(ShockwaveShape(id), width, height, location);
    if id == GRAPHICS_OBJECT_ID_SHOCKWAVE_SMALL {
      SmallShockwaveSize();
    } else {
      LargeShockwaveSize();
    }
  }

  /** The tips lie outside the square, and the square's corners are never extended:
      the tile diagonally beyond a corner is not drawn. */
  lemma ShockwaveTipsOutsideSquare(id: int)
    ensures var size := ShockwaveSize(id);
      InShape(ShockwaveShape(id), size + 1, 0) &&
      !InShape(ShockwaveShape(id), size + 1, 1) &&
      !InShape(ShockwaveShape(id), size + 1, size + 1) &&
      !InShape(ShockwaveShape(id), size + 2, 0)
  {
  }

  /** `renderFallingBoulderTiles`: each boulder with a known location is drawn with the
      colour of its tick counter. `location` is the graphics object's local point, when
      the host has one. */
  function BoulderTiles(boulders: Countdown, location: Handle -> Option<Point>): (s: set<(Point, Color)>)
    ensures forall h :: h in boulders && location(h).Some? ==> (location(h).value, TickColor(boulders[h])) in s
    ensures forall p, c :: (p, c) in s ==>
              exists h :: h in boulders && location(h) == Some(p) && c == TickColor(boulders[h])
  {
    set h | h in boulders && location(h).Some? :: (location(h).value, TickColor(boulders[h]))
  }

  /** A boulder dropped with `n` ticks on the clock is drawn red exactly in its last
      two ticks: `k` ticks later it is shown in red iff `n - k <= 2`. */
  lemma BoulderTurnsRed(boulders: Countdown, h: Handle, k: nat)
    requires h in boulders && boulders[h] >= 1 && k < boulders[h]
    ensures h in DropTicks(boulders, k)
    ensures TickColor(DropTicks(boulders, k)[h]) == RED <==> boulders[h] - k <= 2
  {
    DroppedAfterExactly(boulders, h, k);
  }
}

=== FILE: common.dfy ===
/** Shared vocabulary of the model: optional values, the protection prayers, host
    object handles, scene points, the string tests the plugin uses on chat messages
    and menu entries, and Java's integer division. */
module Common {

  datatype Option<+T> = None | Some(value: T)

  /** A host object (NPC, projectile, graphics object, game object). The plugin
      compares these by reference, which the model reduces to handle equality. */
  type Handle = nat

  /** The prayers the plugin recommends; every other prayer is `OtherPrayer`. */
  datatype Prayer = ProtectFromMagic | ProtectFromMissiles | ProtectFromMelee | OtherPrayer(ordinal: nat)

  /** An integer point: a world, scene or local coordinate pair depending on use. */
  datatype Point = Point(x: int, y: int)

  /** Java's `int` division: the quotient is truncated toward zero. */
  function JavaDiv(a: int, b: int): (q: int)
    requires b != 0
    ensures b > 0 && a >= 0 ==> q * b <= a < q * b + b
    ensures b > 0 && a <= 0 ==> q * b - b < a <= q * b
  {
    if a >= 0 && b > 0 then a / b
    else if a < 0 && b > 0 then -((-a) / b)
    else if a >= 0 then -(a / (-b))
    else (-a) / (-b)
  }

  lemma JavaDivNegates(a: int, b: int)
    requires b > 0
    ensures JavaDiv(-a, b) == -JavaDiv(a, b)
  {
  }

  function Max(a: int, b: int): int { if a >= b then a else b }

  function Min(a: int, b: int): int { if a <= b then a else b }

  predicate StartsWith(s: string, prefix: string) {
    |prefix| <= |s| && s[..|prefix|] == prefix
  }

  predicate EndsWith(s: string, suffix: string) {
    |suffix| <= |s| && s[|s| - |suffix|..] == suffix
  }

  /** A message whose `i`-th character differs from the prefix's does not start with it. */
  lemma DiffersAt(s: string, prefix: string, i: nat)
    requires i < |s| && i < |prefix| && s[i] != prefix[i]
    ensures !StartsWith(s, prefix)
  {
  }

  /** Java's `String.contains`: `t` occurs somewhere in `s`. */
  predicate Contains(s: string, t: string)
    decreases |s|
  {
    StartsWith(s, t) || (|s| > 0 && Contains(s[1..], t))
  }

  /** `t` occurs in `s` starting at index `i`. */
  predicate OccursAt(s: string, t: string, i: int) {
    0 <= i <= |s| - |t| && s[i..i + |t|] == t
  }

  /** `Contains` agrees with the index-based reading of "occurs somewhere". */
  lemma {:induction false} ContainsWitness(s: string, t: string)
    ensures Contains(s, t) <==> exists i :: OccursAt(s, t, i)
    decreases |s|
  {
    if |s| > 0 {
      ContainsWitness(s[1..], t);
      if StartsWith(s, t) {
        assert OccursAt(s, t, 0);
      }
      if Contains(s[1..], t) {
        var i :| OccursAt(s[1..], t, i);
        assert s[i + 1..i + 1 + |t|] == s[1..][i..i + |t|];
        assert OccursAt(s, t, i + 1);
      }
      if exists i :: OccursAt(s, t, i) {
        var i :| OccursAt(s, t, i);
        if i > 0 {
          assert s[1..][i - 1..i - 1 + |t|] == s[i..i + |t|];
          assert OccursAt(s[1..], t, i - 1);
        } else {
          assert StartsWith(s, t);
        }
      }
    } else if Contains(s, t) {
      assert OccursAt(s, t, 0);
    }
  }

  /** Java's `List.remove(Object)`: drop the first occurrence of `x`, if any. */
  function RemoveFirst<T(==)>(s: seq<T>, x: T): (r: seq<T>)
    ensures x in s ==> multiset(r) == multiset(s) - multiset{x}
    ensures x !in s ==> r == s
    ensures |r| == if x in s then |s| - 1 else |s|
  {
    if |s| == 0 then s
    else
      assert s == [s[0]] + s[1..];
      if s[0] == x then s[1..]
      else [s[0]] + RemoveFirst(s[1..], x)
  }
  /** `RemoveFirst` takes exactly one copy of `x` out of the multiset, none if absent. */
  lemma RemoveFirstMultiset<T>(s: seq<T>, x: T)
    ensures multiset(RemoveFirst(s, x)) == multiset(s) - multiset{x}
  {
    if x !in s {
      assert multiset(s)[x] == 0;
      assert multiset(s) - multiset{x} == multiset(s);
    }
  }


  /** Removing what was just appended, and was not there before, undoes the append. */
  lemma {:induction false} RemoveFirstAppended<T>(s: seq<T>, x: T)
    requires x !in s
    ensures RemoveFirst(s + [x], x) == s
    decreases |s|
  {
    if |s| > 0 {
      RemoveFirstAppended(s[1..], x);
      assert (s + [x])[1..] == s[1..] + [x];
    }
  }

  /** A sequence without repeats has as many distinct elements as entries. */
  lemma {:induction false} DistinctCard<T>(s: seq<T>)
    requires forall a, b :: 0 <= a < b < |s| ==> s[a] != s[b]
    ensures |set p | p in s| == |s|
  {
    if |s| > 0 {
      DistinctCard(s[1..]);
      assert (set p | p in s) == {s[0]} + (set p | p in s[1..]);
      assert s[0] !in (set p | p in s[1..]);
    }
  }

  /** Java's `Collection.removeIf(drop)` on a list: keep the others, in order, every copy.
      `FilterAppend` and `FilterSingle` state the order, `FilterCounts` the copies. */
  function Filter<T(!new)>(s: seq<T>, keep: T -> bool): (r: seq<T>)
    ensures |r| <= |s|
    ensures forall x :: x in r <==> x in s && keep(x)
  {
    if |s| == 0 then []
    else if keep(s[0]) then [s[0]] + Filter(s[1..], keep)
    else Filter(s[1..], keep)
  }

  /** Filtering a concatenation filters each part and keeps them in order; with
      `FilterSingle` this pins down both the order and the copies kept. */
  lemma {:induction false} FilterAppend<T(!new)>(a: seq<T>, b: seq<T>, keep: T -> bool)
    ensures Filter(a + b, keep) == Filter(a, keep) + Filter(b, keep)
    decreases |a|
  {
    if |a| > 0 {
      assert (a + b)[1..] == a[1..] + b;
      FilterAppend(a[1..], b, keep);
    } else {
      assert a + b == b;
    }
  }

  /** A single element is kept exactly when `keep` holds of it. */
  lemma FilterSingle<T(!new)>(x: T, keep: T -> bool)
    ensures Filter([x], keep) == (if keep(x) then [x] else [])
  {
    assert [x][1..] == [];
  }

  /** Every kept value keeps all its copies; every dropped value loses all of them. */
  lemma {:induction false} FilterCounts<T(!new)>(s: seq<T>, keep: T -> bool)
    ensures forall x :: multiset(Filter(s, keep))[x] == if keep(x) then multiset(s)[x] else 0
    decreases |s|
  {
    if |s| > 0 {
      FilterCounts(s[1..], keep);
      assert s == [s[0]] + s[1..];
      assert multiset(s) == multiset{s[0]} + multiset(s[1..]);
      if keep(s[0]) {
        assert multiset(Filter(s, keep)) == multiset{s[0]} + multiset(Filter(s[1..], keep));
      }
    }
  }

  /** `k` applications of a step: the state after `k` game ticks. */
  function Iterate<S>(step: S -> S, s: S, k: nat): S
    decreases k
  {
    if k == 0 then s else Iterate(step, step(s), k - 1)
  }

  /** When a part of the state moves by its own step `g` on every step of the whole,
      after `k` steps that part is `g` applied `k` times. */
  lemma {:induction false} IterateProjects<S, P>(step: S -> S, part: S -> P, g: P -> P, s: S, k: nat)
    requires forall x :: part(step(x)) == g(part(x))
    ensures part(Iterate(step, s, k)) == Iterate(g, part(s), k)
    decreases k
  {
    if k > 0 {
      IterateProjects(step, part, g, step(s), k - 1);
    }
  }
}

=== FILE: component_manager.dfy ===
/** The lifecycle scheduler: every registered component carries a started flag, and each
    revalidation starts the components whose activation predicate now holds and shuts
    down the ones whose predicate no longer holds. Starting is `startUp` followed by the
    host's event replay; either step may throw, and a throw is caught per component. */
module Lifecycle {
  import opened Config

  /** A call the manager makes on a component, in the order it makes them. */
  datatype Call<C> = StartUp(c: C) | Replay(c: C) | ShutDown(c: C)

  /** Which calls throw in a given pass: the host's behaviour, chosen freely. */
  datatype Failures<!C> = Failures(startFails: C -> bool, replayFails: C -> bool, stopFails: C -> bool)

  datatype Manager<C> = Manager(components: seq<C>, states: map<C, bool>)

  predicate Distinct<C(==)>(s: seq<C>) {
    forall i, j :: 0 <= i < j < |s| ==> s[i] != s[j]
  }

  /** The registered set is a set, and every component has a flag. */
  predicate Valid<C(==)>(m: Manager<C>) {
    Distinct(m.components) && forall c :: c in m.components ==> c in m.states
  }

  /** `tryStartUp`: nothing for a started component; otherwise the flag is set only when
      both `startUp` and the replay return normally. */
  function TryStartUp<C(==)>(states: map<C, bool>, c: C, f: Failures<C>): (r: (map<C, bool>, seq<Call<C>>))
    requires c in states
    ensures r.0.Keys == states.Keys
    ensures forall d :: d in states && d != c ==> r.0[d] == states[d]
    ensures states[c] ==> r == (states, [])
    ensures !states[c] ==> (r.0[c] <==> !f.startFails(c) && !f.replayFails(c))
    ensures !states[c] ==> r.1 == (if f.startFails(c) then [StartUp(c)] else [StartUp(c), Replay(c)])
  {
    if states[c] then (states, [])
    else if f.startFails(c) then (states, [StartUp(c)])
    else if f.replayFails(c) then (states, [StartUp(c), Replay(c)])
    else (states[c := true], [StartUp(c), Replay(c)])
  }

  /** `tryShutDown`: nothing for a stopped component; otherwise `shutDown` is called and the
      flag is cleared whether or not it throws. */
  function TryShutDown<C(==)>(states: map<C, bool>, c: C, f: Failures<C>): (r: (map<C, bool>, seq<Call<C>>))
    requires c in states
    ensures r.0.Keys == states.Keys
    ensures forall d :: d in states && d != c ==> r.0[d] == states[d]
    ensures !r.0[c]
    ensures r.1 == (if states[c] then [ShutDown(c)] else [])
  {
    if !states[c] then (states, [])
    else
      (states[c := false], [ShutDown(c)])
  }

  /** The flag a component ends a revalidation with. */
  function Settled<C(==)>(was: bool, shouldBe: bool, c: C, f: Failures<C>): bool {
    if shouldBe == was then was
    else if shouldBe then !f.startFails(c) && !f.replayFails(c)
    else false
  }

  /** The calls a revalidation makes for one component whose flag is `was`. */
  function CallsFor<C>(was: bool, shouldBe: bool, c: C, f: Failures<C>): seq<Call<C>> {
    if shouldBe == was then []
    else if shouldBe then (if f.startFails(c) then [StartUp(c)] else [StartUp(c), Replay(c)])
    else [ShutDown(c)]
  }

  /** One component's turn in a revalidation: compare the flag with the predicate and start
      or stop it on a mismatch. */
  function Step<C(==)>(states: map<C, bool>, c: C, enabled: C -> bool, f: Failures<C>): (r: (map<C, bool>, seq<Call<C>>))
    requires c in states
    ensures r.0.Keys == states.Keys
    ensures forall d :: d in states && d != c ==> r.0[d] == states[d]
    ensures r.0[c] == Settled(states[c], enabled(c), c, f)
    ensures r.1 == CallsFor(states[c], enabled(c), c, f)
  {
    if enabled(c) == states[c] then (states, [])
    else if enabled(c) then TryStartUp(states, c, f)
    else TryShutDown(states, c, f)
  }

  /** `revalidateComponentStates` over the components `cs`, in iteration order. */
  function Revalidate<C(==)>(cs: seq<C>, states: map<C, bool>, enabled: C -> bool, f: Failures<C>): (r: (map<C, bool>, seq<Call<C>>))
    requires Distinct(cs)
    requires forall c :: c in cs ==> c in states
    ensures r.0.Keys == states.Keys
    ensures forall c :: c in states && c !in cs ==> r.0[c] == states[c]
    ensures forall c :: c in cs ==> r.0[c] == Settled(states[c], enabled(c), c, f)
  {
    if |cs| == 0 then (states, [])
    else
      var step := Step(states, cs[0], enabled, f);
      assert forall d :: d in cs[1..] ==> d != cs[0] && d in cs;
      var rest := Revalidate(cs[1..], step.0, enabled, f);
      assert forall d :: d in cs ==> d == cs[0] || d in cs[1..];
      (rest.0, step.1 + rest.1)
  }

  /** A call a revalidation over `cs` may make: it is about a component of the pass whose
      flag disagreed with its predicate; `startUp` and the replay go only to stopped
      components that should run, `shutDown` only to started ones that should not. */
  predicate Justified<C(==)>(call: Call<C>, cs: seq<C>, states: map<C, bool>, enabled: C -> bool) {
    call.c in cs && call.c in states &&
    (if call.ShutDown? then states[call.c] && !enabled(call.c) else !states[call.c] && enabled(call.c))
  }

  lemma StepCallsJustified<C>(states: map<C, bool>, cs: seq<C>, enabled: C -> bool, f: Failures<C>)
    requires |cs| > 0 && cs[0] in states
    ensures forall call :: call in Step(states, cs[0], enabled, f).1 ==> Justified(call, cs, states, enabled)
  {
  }

  /** Every call in a revalidation's log is justified. */
  lemma {:induction false} RevalidateCalls<C>(cs: seq<C>, states: map<C, bool>, enabled: C -> bool, f: Failures<C>)
    requires Distinct(cs)
    requires forall c :: c in cs ==> c in states
    ensures forall call :: call in Revalidate(cs, states, enabled, f).1 ==> Justified(call, cs, states, enabled)
  {
    if |cs| > 0 {
      var step := Step(states, cs[0], enabled, f);
      assert forall d :: d in cs[1..] ==> d != cs[0] && d in cs;
      RevalidateCalls(cs[1..], step.0, enabled, f);
      StepCallsJustified(states, cs, enabled, f);
      var rest := Revalidate(cs[1..], step.0, enabled, f);
      assert Revalidate(cs, states, enabled, f).1 == step.1 + rest.1;
      forall call | call in rest.1
        ensures Justified(call, cs, states, enabled)
      {
        assert Justified(call, cs[1..], step.0, enabled);
        assert call.c != cs[0];
      }
    }
  }

  /** A revalidation whose starts all succeeded leaves every flag equal to its predicate,
      so an immediate second revalidation with the same predicate makes no call at all,
      whatever would fail in it. */
  lemma RevalidateIdempotent<C>(cs: seq<C>, states: map<C, bool>, enabled: C -> bool, f: Failures<C>, g: Failures<C>)
    requires Distinct(cs)
    requires forall c :: c in cs ==> c in states
    requires forall c :: c in cs && enabled(c) && !states[c] ==> !f.startFails(c) && !f.replayFails(c)
    ensures var once := Revalidate(cs, states, enabled, f);
      (forall c :: c in cs ==> once.0[c] == enabled(c)) &&
      Revalidate(cs, once.0, enabled, g) == (once.0, [])
  {
    var once := Revalidate(cs, states, enabled, f);
    NoCallsWhenSettled(cs, once.0, enabled, g);
  }

  /** When every flag already equals its predicate a revalidation changes nothing. */
  lemma {:induction false} NoCallsWhenSettled<C>(cs: seq<C>, states: map<C, bool>, enabled: C -> bool, g: Failures<C>)
    requires Distinct(cs)
    requires forall c :: c in cs ==> c in states && states[c] == enabled(c)
    ensures Revalidate(cs, states, enabled, g) == (states, [])
  {
    if |cs| > 0 {
      assert forall d :: d in cs[1..] ==> d != cs[0] && d in cs;
      assert Step(states, cs[0], enabled, g) == (states, []);
      NoCallsWhenSettled(cs[1..], states, enabled, g);
      var rest := Revalidate(cs[1..], states, enabled, g);
      assert rest.0 == states && rest.1 == [];
      assert Revalidate(cs, states, enabled, g) == (rest.0, [] + rest.1);
      assert [] + rest.1 == [];
      assert Revalidate(cs, states, enabled, g) == (states, []);
    }
  }

  /** A failed start leaves the flag false, so the next revalidation retries it. */
  lemma FailedStartRetried<C>(cs: seq<C>, states: map<C, bool>, enabled: C -> bool, f: Failures<C>, g: Failures<C>, c: C)
    requires Distinct(cs)
    requires forall d :: d in cs ==> d in states
    requires c in cs && enabled(c) && !states[c] && (f.startFails(c) || f.replayFails(c))
    ensures var once := Revalidate(cs, states, enabled, f);
      !once.0[c] && StartUp(c) in Revalidate(cs, once.0, enabled, g).1
  {
    var once := Revalidate(cs, states, enabled, f);
    StartCalledWhenNeeded(cs, once.0, enabled, g, c);
  }

  /** A component that should run but is stopped gets a `startUp` call. */
  lemma {:induction false} StartCalledWhenNeeded<C>(cs: seq<C>, states: map<C, bool>, enabled: C -> bool, g: Failures<C>, c: C)
    requires Distinct(cs)
    requires forall d :: d in cs ==> d in states
    requires c in cs && enabled(c) && !states[c]
    ensures StartUp(c) in Revalidate(cs, states, enabled, g).1
  {
    var step := Step(states, cs[0], enabled, g);
    if cs[0] != c {
      assert c in cs[1..];
      assert forall d :: d in cs[1..] ==> d != cs[0] && d in cs;
      StartCalledWhenNeeded(cs[1..], step.0, enabled, g, c);
    } else {
      assert StartUp(c) in step.1;
    }
  }

  /** Fault isolation: a component's flag after a pass depends only on its own
      failures, never on another component's. */
  lemma FailuresIsolated<C>(cs: seq<C>, states: map<C, bool>, enabled: C -> bool, f: Failures<C>, g: Failures<C>, d: C)
    requires Distinct(cs)
    requires forall c :: c in cs ==> c in states
    requires d in states
    requires f.startFails(d) == g.startFails(d) && f.replayFails(d) == g.replayFails(d)
    ensures Revalidate(cs, states, enabled, f).0[d] == Revalidate(cs, states, enabled, g).0[d]
  {
  }

  /** `onPluginStart`: every registered component's flag is false, then one revalidation. */
  function OnPluginStart<C(==)>(components: seq<C>, enabled: C -> bool, f: Failures<C>): (r: (Manager<C>, seq<Call<C>>))
    requires Distinct(components)
    ensures Valid(r.0) && r.0.components == components
    ensures forall c :: c in components ==> (r.0.states[c] <==> enabled(c) && !f.startFails(c) && !f.replayFails(c))
    ensures forall call :: call in r.1 ==> call.StartUp? || call.Replay?
  {
    var cleared := map c | c in components :: false;
    var rv := Revalidate(components, cleared, enabled, f);
    RevalidateCalls(components, cleared, enabled, f);
    (Manager(components, rv.0), rv.1)
  }

  /** Shut down the started components among `cs`, in order. */
  function ShutDownStarted<C(==)>(cs: seq<C>, states: map<C, bool>, f: Failures<C>): (r: (map<C, bool>, seq<Call<C>>))
    requires Distinct(cs)
    requires forall c :: c in cs ==> c in states
    ensures r.0.Keys == states.Keys
    ensures forall c :: c in cs ==> !r.0[c]
    ensures forall c :: c in states && c !in cs ==> r.0[c] == states[c]
    ensures forall c :: c in cs ==> (ShutDown(c) in r.1 <==> states[c])
    ensures forall call :: call in r.1 ==> call.ShutDown? && call.c in cs
  {
    if |cs| == 0 then (states, [])
    else
      var step := TryShutDown(states, cs[0], f);
      assert forall d :: d in cs[1..] ==> d != cs[0] && d in cs;
      var rest := ShutDownStarted(cs[1..], step.0, f);
      assert forall d :: d in cs ==> d == cs[0] || d in cs[1..];
      (rest.0, step.1 + rest.1)
  }

  /** `onPluginStop`: exactly the started components are shut down and every flag ends false. */
  function OnPluginStop<C(==)>(m: Manager<C>, f: Failures<C>): (r: (Manager<C>, seq<Call<C>>))
    requires Valid(m)
    ensures Valid(r.0) && r.0.components == m.components
    ensures forall c :: c in m.components ==> !r.0.states[c]
    ensures forall c :: c in m.components ==> (ShutDown(c) in r.1 <==> m.states[c])
    ensures forall call :: call in r.1 ==> call.ShutDown?
  {
    var s := ShutDownStarted(m.components, m.states, f);
    (Manager(m.components, s.0), s.1)
  }

  /** `onConfigChanged`: only the plugin's own group triggers a revalidation. */
  function OnConfigChanged<C(==)>(m: Manager<C>, group: string, enabled: C -> bool, f: Failures<C>): (r: (Manager<C>, seq<Call<C>>))
    requires Valid(m)
    ensures Valid(r.0) && r.0.components == m.components
    ensures group != CONFIG_GROUP ==> r == (m, [])
    ensures group == CONFIG_GROUP ==> r.0.states == Revalidate(m.components, m.states, enabled, f).0
  {
    if group != CONFIG_GROUP then (m, [])
    else
      var rv := Revalidate(m.components, m.states, enabled, f);
      (Manager(m.components, rv.0), rv.1)
  }

  /** `onRaidStateChanged`: always revalidates against the new state's predicate. */
  function OnRaidStateChanged<C(==)>(m: Manager<C>, enabled: C -> bool, f: Failures<C>): (r: (Manager<C>, seq<Call<C>>))
    requires Valid(m)
    ensures Valid(r.0) && r.0.components == m.components
    ensures forall c :: c in m.components ==> r.0.states[c] == Settled(m.states[c], enabled(c), c, f)
  {
    var rv := Revalidate(m.components, m.states, enabled, f);
    (Manager(m.components, rv.0), rv.1)
  }
}

=== FILE: config.dfy ===
/** The configuration enumerations the modelled components branch on. Every other
    configuration value is a plain parameter of the operation that reads it. */
module Config {
  /** Where the prayer helper is shown. */
  datatype PrayerMode = WIDGET | INFO_BOX | ALL | OFF

  /** The Kephri / Akkha attack counter variant. */
  datatype AttackCounter = MEDIC | DEFAULT | COUNTER_OFF

  /** The quick-proceed menu swap variant. */
  datatype QuickProceed = ON | SPEEDRUN | PROCEED_OFF

  /** The name of the plugin's configuration group. */
  const CONFIG_GROUP: string := "toaextended"
}

=== FILE: countdown.dfy ===
/** Tick counters keyed by host object (`Map<GraphicsObject, Integer>`,
    `Map<NPC, Integer>` and the like): every game tick lowers each counter by one, and
    most maps then drop the counters that reached zero or below. */
module Countdowns {
  import opened Common

  type Countdown = map<Handle, int>

  /** `replaceAll((k, v) -> v - 1)`: every counter drops by one, nothing leaves. */
  function Decrement(m: Countdown): (r: Countdown)
    ensures r.Keys == m.Keys
    ensures forall h :: h in m ==> r[h] == m[h] - 1
  {
    map h | h in m :: m[h] - 1
  }

  /** `replaceAll((k, v) -> v - 1)` then `values().removeIf(v -> v <= 0)`. */
  function DecrementAndDrop(m: Countdown): (r: Countdown)
    ensures forall h :: h in r <==> h in m && m[h] > 1
    ensures forall h :: h in r ==> r[h] == m[h] - 1 && r[h] > 0
  {
    map h | h in m && m[h] - 1 > 0 :: m[h] - 1
  }

  /** `k` ticks of `DecrementAndDrop`. */
  function DropTicks(m: Countdown, k: nat): Countdown {
    Iterate(DecrementAndDrop, m, k)
  }

  /** `k` ticks of `Decrement`. */
  function DecrementFor(m: Countdown, k: nat): Countdown {
    Iterate(Decrement, m, k)
  }

  /** A counter put at `n >= 1` is still shown, at `n - k`, after `k < n` ticks, and gone from
      the `n`-th tick on. */
  lemma {:induction false} DroppedAfterExactly(m: Countdown, h: Handle, k: nat)
    requires h in m && m[h] >= 1
    ensures h in DropTicks(m, k) <==> k < m[h]
    ensures h in DropTicks(m, k) ==> DropTicks(m, k)[h] == m[h] - k
    decreases k
  {
    if k > 0 {
      var m1 := DecrementAndDrop(m);
      if h in m1 {
        DroppedAfterExactly(m1, h, k - 1);
      } else {
        GoneStaysGone(m1, h, k - 1);
      }
    }
  }

  /** Dropping never brings a counter back. */
  lemma {:induction false} GoneStaysGone(m: Countdown, h: Handle, k: nat)
    requires h !in m
    ensures h !in DropTicks(m, k)
    decreases k
  {
    if k > 0 {
      GoneStaysGone(DecrementAndDrop(m), h, k - 1);
    }
  }

  /** Without dropping, a counter stays and keeps falling below zero. */
  lemma {:induction false} DecrementsForever(m: Countdown, h: Handle, k: nat)
    requires h in m
    ensures h in DecrementFor(m, k) && DecrementFor(m, k)[h] == m[h] - k
    decreases k
  {
    if k > 0 {
      DecrementsForever(Decrement(m), h, k - 1);
    }
  }
}

=== FILE: hazard_queue.dfy ===
/** The per-boss prediction queue (a `PriorityQueue<AttackProjectile>`). Its iteration
    order is unspecified by Java, so the model keeps an arbitrary sequence and states
    every property in terms of membership, multiplicity and the minimal element. */
module HazardQueues {
  import opened Common
  import opened AttackProjectiles

  type Queue = seq<AttackProjectile>

  function Add(q: Queue, p: AttackProjectile): (r: Queue)
    ensures multiset(r) == multiset(q) + multiset{p}
  {
    q + [p]
  }

  /** The entry a live entry `p` was one tick earlier: one more tick while it counts down,
      itself once its count is negative. */
  function Undecayed(p: AttackProjectile): AttackProjectile {
    if p.ticks > 0 then p.(ticks := p.ticks + 1) else p
  }

  /** A live entry has exactly one predecessor under `DecrementTicks`. */
  lemma UndecayedIsThePredecessor(x: AttackProjectile, p: AttackProjectile)
    requires !IsExpired(p)
    ensures DecrementTicks(x) == p <==> x == Undecayed(p)
  {
  }

  /** The game-tick step: decrement every entry, then drop the expired ones. */
  function Tick(q: Queue): (r: Queue)
    ensures |r| <= |q|
    ensures forall p :: p in r ==> !IsExpired(p)
    ensures forall x :: x in q && !IsExpired(DecrementTicks(x)) ==> DecrementTicks(x) in r
    ensures forall p :: p in r ==> exists x :: x in q && DecrementTicks(x) == p
  {
    if |q| == 0 then []
    else
      var d := DecrementTicks(q[0]);
      var rest := Tick(q[1..]);
      assert forall x :: x in q[1..] ==> x in q;
      assert forall x :: x in q ==> x == q[0] || x in q[1..];
      if IsExpired(d) then rest else [d] + rest
  }

  /** Multiplicity: each live value occurs after a tick exactly as often as its
      predecessor occurred before it, and expired values not at all. */
  lemma {:induction false} TickCounts(q: Queue)
    ensures forall p :: multiset(Tick(q))[p] == if IsExpired(p) then 0 else multiset(q)[Undecayed(p)]
  {
    if |q| > 0 {
      TickCounts(q[1..]);
      assert q == [q[0]] + q[1..];
      TickCountsStep(q[0], q[1..], Tick(q[1..]));
    }
  }

  /** The counting step of `Tick`: prepending `x` to the queue adds its decremented value,
      unless that has expired. */
  lemma TickCountsStep(x: AttackProjectile, q: Queue, rest: Queue)
    requires forall p :: multiset(rest)[p] == if IsExpired(p) then 0 else multiset(q)[Undecayed(p)]
    ensures var d := DecrementTicks(x);
      forall p :: multiset(if IsExpired(d) then rest else [d] + rest)[p] ==
                  if IsExpired(p) then 0 else multiset([x] + q)[Undecayed(p)]
  {
    var d := DecrementTicks(x);
    var r := if IsExpired(d) then rest else [d] + rest;
    forall p
      ensures multiset(r)[p] == if IsExpired(p) then 0 else multiset([x] + q)[Undecayed(p)]
    {
      assert multiset([x] + q) == multiset{x} + multiset(q);
      if !IsExpired(d) {
        assert multiset(r) == multiset{d} + multiset(rest);
      }
      if !IsExpired(p) {
        UndecayedIsThePredecessor(x, p);
      }
    }
  }

  /** Two equal entries stay two equal entries: a tick never merges or splits hazards. */
  lemma TickKeepsDuplicates(a: AttackProjectile, b: AttackProjectile)
    requires !IsExpired(DecrementTicks(a)) && !IsExpired(DecrementTicks(b)) && a != b
    ensures multiset(Tick([a, a, b]))[DecrementTicks(a)] == 2
    ensures multiset(Tick([a, a, b]))[DecrementTicks(b)] == 1
  {
    TickCounts([a, a, b]);
    UndecayedIsThePredecessor(a, DecrementTicks(a));
    UndecayedIsThePredecessor(b, DecrementTicks(b));
    UndecayedIsThePredecessor(a, DecrementTicks(b));
    UndecayedIsThePredecessor(b, DecrementTicks(a));
    assert multiset([a, a, b])[a] == 2 && multiset([a, a, b])[b] == 1;
  }

  /** Entries leave the queue at the tick their count reaches zero, never before. */
  lemma {:induction false} TickDropsExactlyTheDue(q: Queue)
    ensures |Tick(q)| == |q| - |Filter(q, (x: AttackProjectile) => 0 <= x.ticks <= 1)|
  {
    if |q| > 0 {
      TickDropsExactlyTheDue(q[1..]);
    }
  }

  /** `peek`: a head of the queue, i.e. an entry that no other entry precedes. */
  function Peek(q: Queue): (r: Option<AttackProjectile>)
    ensures r.None? <==> |q| == 0
    ensures r.Some? ==> r.value in q && forall x :: x in q ==> !Precedes(x, r.value)
  {
    if |q| == 0 then None
    else
      var tail := Peek(q[1..]);
      assert forall x :: x in q ==> x == q[0] || x in q[1..];
      if tail.None? || !Precedes(tail.value, q[0]) then
        MinOfTail(q, tail);
        Some(q[0])
      else
        PrecedesIsStrictOrder(q[0], tail.value, q[0]);
        Some(tail.value)
  }

  /** If the tail's head does not precede `q[0]`, nothing in the tail does. */
  lemma MinOfTail(q: Queue, tail: Option<AttackProjectile>)
    requires |q| > 0
    requires tail.Some? ==> forall x :: x in q[1..] ==> !Precedes(x, tail.value)
    requires tail.None? ==> |q| == 1
    requires tail.None? || !Precedes(tail.value, q[0])
    ensures forall x :: x in q[1..] ==> !Precedes(x, q[0])
  {
    if tail.Some? {
      forall x | x in q[1..]
        ensures !Precedes(x, q[0])
      {
        PrecedesIsStrictOrder(x, tail.value, q[0]);
      }
    }
  }

  /** Two heads agree on (ticks, priority): the displayed countdown is well defined. */
  lemma HeadsAgree(q: Queue, a: AttackProjectile, b: AttackProjectile)
    requires a in q && b in q
    requires forall x :: x in q ==> !Precedes(x, a)
    requires forall x :: x in q ==> !Precedes(x, b)
    ensures a.ticks == b.ticks && a.priority == b.priority
  {
    assert !Precedes(a, b) && !Precedes(b, a);
  }

  /** Decrementing in place does not disturb the queue order: when the head is not yet
      due, after a tick the head is the decremented old head (up to ties), so the
      heap never needs re-sifting. */
  lemma {:induction false} TickKeepsHead(q: Queue)
    requires Peek(q).Some? && Peek(q).value.ticks > 1
    ensures Peek(Tick(q)).Some?
    ensures Peek(Tick(q)).value.ticks == Peek(q).value.ticks - 1
    ensures Peek(Tick(q)).value.priority == Peek(q).value.priority
  {
    var m := Peek(q).value;
    var dm := DecrementTicks(m);
    assert dm in Tick(q);
    var h := Peek(Tick(q)).value;
    var x :| x in q && DecrementTicks(x) == h;
    assert !Precedes(x, m);
    assert x.ticks >= m.ticks;
    DecayPreservesOrder(x, m);
    assert !Precedes(dm, h);
    DecayPreservesOrder(m, x);
  }

  /** Entries due in 3, 1 and 2 ticks: the 1-tick entry is the head. */
  lemma PeekExample()
    ensures Peek([AttackProjectile(ProtectFromMagic, 3, 0),
                  AttackProjectile(ProtectFromMissiles, 1, 0),
                  AttackProjectile(ProtectFromMelee, 2, 0)])
            == Some(AttackProjectile(ProtectFromMissiles, 1, 0))
  {
  }
}

=== FILE: het.dfy ===
/** The Path of Het: the tick of the next beam, the mirrors and caster statue, and the
    menu swap that keeps a player with a pickaxe from taking another or leaving with it.
    NPC, object and item ids are abstracted to the kinds the room branches on. */
module HetChallenge {
  import opened Common
  import opened Raid

  const CHALLENGE_START_MESSAGE: string := "Challenge started: Path of Het."
  const CHALLENGE_COMPLETE_MESSAGE: string := "Challenge complete: Path of Het."
  const BEAM_FIRE_RATE_TICKS: int := 9
  const BEAM_GRAPHICS_OBJECT_IDS: set<int> := {2114, 2064, 2120}
  const TAKE_PICKAXE_OPTION: string := "Take-pickaxe"
  const STATUE_TARGET: string := "Statue"
  const ENTER_OPTION: string := "Enter"
  const ENTRY_TARGET: string := "Entry"

  /** The seal's two forms, and every other NPC. */
  datatype SealKind = SealWeakened | SealProtected | OtherNpc

  /** The caster statue, the mirror, and every other object. */
  datatype ObjectKind = CasterStatue | Mirror | OtherObject

  /** `nextFireTick` is -1 while no beam is expected. */
  datatype Het = Het(mirrors: seq<Handle>, casterStatue: Option<Handle>, nextFireTick: int)

  /** `reset`. */
  const Reset := Het([], None, -1)

  predicate IsEnabled(s: RaidState) {
    s.currentRoom == Some(HET)
  }

  /** `onChatMessage`: the start message expects the first beam ten ticks on, the
      completion message expects none. Messages are compared as received. */
  function OnChatMessage(h: Het, isGameMessage: bool, message: string, tick: int): (r: Het)
    ensures isGameMessage && message == CHALLENGE_START_MESSAGE ==> r == h.(nextFireTick := tick + 10)
    ensures isGameMessage && message == CHALLENGE_COMPLETE_MESSAGE ==> r == h.(nextFireTick := -1)
    ensures !isGameMessage || (message != CHALLENGE_START_MESSAGE && message != CHALLENGE_COMPLETE_MESSAGE) ==> r == h
  {
    if !isGameMessage then h
    else if message == CHALLENGE_START_MESSAGE then h.(nextFireTick := tick + BEAM_FIRE_RATE_TICKS + 1)
    else if message == CHALLENGE_COMPLETE_MESSAGE then h.(nextFireTick := -1)
    else h
  }

  /** `onGameObjectSpawned`. */
  function OnGameObjectSpawned(h: Het, obj: Handle, kind: ObjectKind): (r: Het)
    ensures kind == CasterStatue ==> r == h.(casterStatue := Some(obj))
    ensures kind == Mirror ==> r == h.(mirrors := h.mirrors + [obj])
    ensures kind == OtherObject ==> r == h
  {
    match kind
    case CasterStatue => h.(casterStatue := Some(obj))
    case Mirror => h.(mirrors := h.mirrors + [obj])
    case OtherObject => h
  }

  /** `onGameObjectDespawned`. */
  function OnGameObjectDespawned(h: Het, obj: Handle, kind: ObjectKind): (r: Het)
    ensures kind == CasterStatue ==> r == h.(casterStatue := None)
    ensures kind == Mirror ==> r == h.(mirrors := RemoveFirst(h.mirrors, obj))
    ensures kind == OtherObject ==> r == h
  {
    match kind
    case CasterStatue => h.(casterStatue := None)
    case Mirror => h.(mirrors := RemoveFirst(h.mirrors, obj))
    case OtherObject => h
  }

  /** `onGraphicsObjectCreated`: a beam graphic means the next beam is nine ticks on. */
  function OnGraphicsObjectCreated(h: Het, id: int, tick: int): (r: Het)
    ensures id in BEAM_GRAPHICS_OBJECT_IDS ==> r == h.(nextFireTick := tick + 9)
    ensures id !in BEAM_GRAPHICS_OBJECT_IDS ==> r == h
  {
    if id in BEAM_GRAPHICS_OBJECT_IDS then h.(nextFireTick := tick + BEAM_FIRE_RATE_TICKS) else h
  }

  /** `onNpcChanged`: the seal being protected again restarts the beams ten ticks on; the
      seal being weakened stops them. */
  function OnNpcChanged(h: Het, oldKind: SealKind, newKind: SealKind, tick: int): (r: Het)
    ensures oldKind == SealWeakened && newKind == SealProtected ==> r == h.(nextFireTick := tick + 10)
    ensures oldKind == SealProtected && newKind == SealWeakened ==> r == h.(nextFireTick := -1)
    ensures (!(oldKind == SealWeakened && newKind == SealProtected) &&
             !(oldKind == SealProtected && newKind == SealWeakened)) ==> r == h
  {
    if oldKind == SealWeakened && newKind == SealProtected then h.(nextFireTick := tick + BEAM_FIRE_RATE_TICKS + 1)
    else if oldKind == SealProtected && newKind == SealWeakened then h.(nextFireTick := -1)
    else h
  }

  /** `containsAny`: whether some item of the container is a pickaxe. */
  method ContainsAny(items: seq<int>, pickaxeIds: set<int>) returns (found: bool)
    ensures found <==> exists i :: 0 <= i < |items| && items[i] in pickaxeIds
  {
    var i := 0;
    while i < |items|
      invariant 0 <= i <= |items|
      invariant forall j :: 0 <= j < i ==> items[j] !in pickaxeIds
    {
      if items[i] in pickaxeIds {
        return true;
      }
      i := i + 1;
    }
    return false;
  }

  /** `isTakePickaxe`. */
  predicate IsTakePickaxe(option: string, target: string) {
    option == TAKE_PICKAXE_OPTION && Contains(target, STATUE_TARGET)
  }

  /** `isExitRoom`. */
  predicate IsExitRoom(option: string, target: string) {
    Contains(option, ENTER_OPTION) && Contains(target, ENTRY_TARGET)
  }

  /** `onMenuEntryAdded`: the entry's deprioritised flag afterwards. `inventory` and
      `equipment` are `None` when the client has no such container; `pickaxeIds` is the
      set of the nineteen pickaxe item ids. */
  method OnMenuEntryAdded(option: string, target: string, deprioritized: bool,
                          inventory: Option<seq<int>>, equipment: Option<seq<int>>,
                          pickaxeIds: set<int>, depositPickaxe: bool) returns (r: bool)
    ensures r <==> deprioritized ||
                   (inventory.Some? && equipment.Some? &&
                    ((exists i :: 0 <= i < |inventory.value| && inventory.value[i] in pickaxeIds) ||
                     (exists i :: 0 <= i < |equipment.value| && equipment.value[i] in pickaxeIds)) &&
                    depositPickaxe && (IsTakePickaxe(option, target) || IsExitRoom(option, target)))
  {
    if inventory.None? || equipment.None? {
      return deprioritized;
    }
    var inInventory := ContainsAny(inventory.value, pickaxeIds);
    var inEquipment := false;
    if !inInventory {
      inEquipment := ContainsAny(equipment.value, pickaxeIds);
    }
    if !(inInventory || inEquipment) {
      return deprioritized;
    }
    if depositPickaxe && (IsTakePickaxe(option, target) || IsExitRoom(option, target)) {
      return true;
    }
    return deprioritized;
  }

  /** `shutDown`. */
  function ShutDown(h: Het): (r: Het)
    ensures r.mirrors == [] && r.casterStatue.None? && r.nextFireTick == -1
  {
    Reset
  }

  /** A beam expected after the start is always in the future; after completion none is. */
  lemma StartThenComplete(h: Het, tick: int, later: int)
    ensures OnChatMessage(h, true, CHALLENGE_START_MESSAGE, tick).nextFireTick > tick
    ensures OnChatMessage(OnChatMessage(h, true, CHALLENGE_START_MESSAGE, tick), true, CHALLENGE_COMPLETE_MESSAGE, later).nextFireTick == -1
  {
    assert CHALLENGE_START_MESSAGE != CHALLENGE_COMPLETE_MESSAGE by {
      assert CHALLENGE_START_MESSAGE[10] != CHALLENGE_COMPLETE_MESSAGE[10];
    }
  }

  /** A mirror that appears and disappears leaves the list as it was. */
  lemma {:induction false} MirrorRoundTrip(h: Het, obj: Handle)
    requires obj !in h.mirrors
    ensures OnGameObjectDespawned(OnGameObjectSpawned(h, obj, Mirror), obj, Mirror) == h
  {
    RemoveFirstAppended(h.mirrors, obj);
  }
}

=== FILE: kephri.dfy ===
/** Kephri: the attack counter shown between specials (a plain cycle, or the medic
    variant with its run of fours), the egg hatch timers, the fireball and bomber
    projectiles and the scarab swarms still walking to the boss. The medic branch is
    modelled as the source writes it, which its authors flag as unfinished. */
module KephriBoss {
  import opened Common
  import opened Countdowns
  import opened Config
  import opened Raid

  const NPC_NAME: string := "Kephri"
  const ANIM_ID_FIREBALL_ATTACK: int := 9577
  const ANIM_ID_SPECIAL_ATTACK: int := 9578
  const ANIM_ID_INACTIVE: int := 9579
  const ANIM_ID_SCARAB_SWARM_DEATH: int := 9607
  const PROJECTILE_ID_FIREBALL: int := 2266
  const PROJECTILE_ID_BOMBER_SCARAB: int := 2147
  const ATK_COUNT_INIT: int := 3
  const ATK_COUNT_MAX: int := 5
  const TICK_COUNT_EGG: int := 15

  /** The NPC id classes the component distinguishes; `KephriId11722` is the id whose
      appearance makes the component forget the boss. */
  datatype NpcKind = KephriId11722 | Egg | ScarabSwarm | OtherNpc

  datatype Actor = NpcActor(handle: Handle, kind: NpcKind, animation: int) | NotAnNpc

  datatype Kephri = Kephri(
    fireballProjectiles: seq<Handle>,
    eggsToTicks: Countdown,
    scarabSwarmNpcs: seq<Handle>,
    atkCount: int,
    prevAtkCount: int,
    seenFours: int,
    numOfFours: int,
    npc: Option<Handle>)

  const Reset := Kephri([], map[], [], 0, 0, 0, 0, None)

  predicate IsEnabled(s: RaidState) {
    s.currentRoom == Some(KEPHRI)
  }

  /** `startUp`'s counter initialisation: three attacks, one fewer with the medic
      variant. */
  function StartUp(k: Kephri, mode: AttackCounter): (r: Kephri)
    ensures r.atkCount == r.prevAtkCount == (if mode == MEDIC then 2 else 3)
    ensures r == k.(atkCount := r.atkCount, prevAtkCount := r.prevAtkCount)
  {
    var init := if mode == MEDIC then ATK_COUNT_INIT - 1 else ATK_COUNT_INIT;
    k.(atkCount := init, prevAtkCount := init)
  }

  /** The counter states `updateAttackCount` keeps: the medic bookkeeping stays within
      its bounds. */
  predicate Valid(k: Kephri) {
    k.atkCount >= 0 && k.prevAtkCount <= ATK_COUNT_MAX && 0 <= k.numOfFours <= 3
  }

  /** The medic variant's special: after a low count a run of fours starts; each run of
      fours is one longer than the last (up to three) and ends in a five. */
  function MedicSpecial(k: Kephri): (r: Kephri)
    ensures k.prevAtkCount <= ATK_COUNT_MAX ==> r.atkCount == r.prevAtkCount && (r.atkCount == 4 || r.atkCount == 5)
    ensures 0 <= k.numOfFours <= 3 ==> 0 <= r.numOfFours <= 3
    ensures k.prevAtkCount <= ATK_COUNT_INIT ==> r.atkCount == 4 && r.numOfFours == 1 && r.seenFours == 0
    ensures k.prevAtkCount == ATK_COUNT_MAX ==>
              r.atkCount == 4 && r.seenFours == 0 &&
              (0 <= k.numOfFours <= 3 ==> r.numOfFours == Min(k.numOfFours + 1, 3))
    ensures k.prevAtkCount == ATK_COUNT_MAX - 1 ==>
              r.seenFours == k.seenFours + 1 && r.numOfFours == k.numOfFours &&
              (r.atkCount == 5 <==> k.seenFours + 1 == k.numOfFours)
    ensures r == k.(atkCount := r.atkCount, prevAtkCount := r.prevAtkCount, seenFours := r.seenFours, numOfFours := r.numOfFours)
  {
    if k.prevAtkCount <= ATK_COUNT_INIT then
      k.(atkCount := ATK_COUNT_MAX - 1, prevAtkCount := ATK_COUNT_MAX - 1, numOfFours := 1, seenFours := 0)
    else if k.prevAtkCount == ATK_COUNT_MAX - 1 then
      var seen := k.seenFours + 1;
      var prev := if seen == k.numOfFours then ATK_COUNT_MAX else k.prevAtkCount;
      k.(seenFours := seen, prevAtkCount := prev, atkCount := prev)
    else if k.prevAtkCount == ATK_COUNT_MAX then
      k.(atkCount := ATK_COUNT_MAX - 1, prevAtkCount := ATK_COUNT_MAX - 1, seenFours := 0,
         numOfFours := if k.numOfFours < 3 then k.numOfFours + 1 else k.numOfFours)
    else k
  }

  /** `updateAttackCount`. */
  function UpdateAttackCount(k: Kephri, anim: int, mode: AttackCounter): (r: Kephri)
    ensures anim == ANIM_ID_FIREBALL_ATTACK ==> r == k.(atkCount := if k.atkCount > 0 then k.atkCount - 1 else k.atkCount)
    ensures anim == ANIM_ID_SPECIAL_ATTACK && mode != MEDIC ==> r == k.(atkCount := 5)
    ensures anim == ANIM_ID_SPECIAL_ATTACK && mode == MEDIC ==> r == MedicSpecial(k)
    ensures anim == ANIM_ID_INACTIVE && mode == MEDIC ==> r == k.(atkCount := 5)
    ensures anim == ANIM_ID_INACTIVE && mode != MEDIC ==> r == k.(atkCount := Max(k.atkCount + 1, 2))
    ensures anim != ANIM_ID_FIREBALL_ATTACK && anim != ANIM_ID_SPECIAL_ATTACK && anim != ANIM_ID_INACTIVE ==> r == k
    ensures Valid(k) ==> Valid(r)
  {
    if anim == ANIM_ID_FIREBALL_ATTACK then
      if k.atkCount > 0 then k.(atkCount := k.atkCount - 1) else k
    else if anim == ANIM_ID_SPECIAL_ATTACK then
      if mode != MEDIC then k.(atkCount := ATK_COUNT_MAX) else MedicSpecial(k)
    else if anim == ANIM_ID_INACTIVE then
      k.(atkCount := if mode == MEDIC then ATK_COUNT_MAX else Max(k.atkCount + 1, 2))
    else k
  }

  /** `k` specials of the medic variant. */
  function MedicSpecials(k: Kephri, n: nat): Kephri
    decreases n
  {
    if n == 0 then k else MedicSpecials(UpdateAttackCount(k, ANIM_ID_SPECIAL_ATTACK, MEDIC), n - 1)
  }

  /** The counts the medic variant shows after each special, starting from a fresh
      count: runs of one, two and then three fours, each closed by a five. */
  lemma MedicRunsOfFours(k: Kephri)
    requires k.prevAtkCount <= ATK_COUNT_INIT
    ensures MedicSpecials(k, 1).atkCount == 4
    ensures MedicSpecials(k, 2).atkCount == 5
    ensures MedicSpecials(k, 3).atkCount == 4
    ensures MedicSpecials(k, 4).atkCount == 4
    ensures MedicSpecials(k, 5).atkCount == 5
    ensures MedicSpecials(k, 6).atkCount == 4
    ensures MedicSpecials(k, 7).atkCount == 4
    ensures MedicSpecials(k, 8).atkCount == 4
    ensures MedicSpecials(k, 9).atkCount == 5
    ensures MedicSpecials(k, 10).atkCount == 4 && MedicSpecials(k, 10).numOfFours == 3
  {
    var k1 := MedicSpecials(k, 1);
    var k2 := MedicSpecials(k1, 1);
    var k3 := MedicSpecials(k2, 1);
    var k4 := MedicSpecials(k3, 1);
    var k5 := MedicSpecials(k4, 1);
    var k6 := MedicSpecials(k5, 1);
    var k7 := MedicSpecials(k6, 1);
    var k8 := MedicSpecials(k7, 1);
    var k9 := MedicSpecials(k8, 1);
    SpecialsCompose(k, 1, 1);
    SpecialsCompose(k, 2, 1);
    SpecialsCompose(k, 3, 1);
    SpecialsCompose(k, 4, 1);
    SpecialsCompose(k, 5, 1);
    SpecialsCompose(k, 6, 1);
    SpecialsCompose(k, 7, 1);
    SpecialsCompose(k, 8, 1);
    SpecialsCompose(k, 9, 1);
  }

  /** Specials compose: `a + b` specials are `a` specials then `b` more. */
  lemma {:induction false} SpecialsCompose(k: Kephri, a: nat, b: nat)
    ensures MedicSpecials(k, a + b) == MedicSpecials(MedicSpecials(k, a), b)
    decreases a
  {
    if a > 0 {
      SpecialsCompose(UpdateAttackCount(k, ANIM_ID_SPECIAL_ATTACK, MEDIC), a - 1, b);
    }
  }

  /** `onGameTick`: landed projectiles leave, swarms that reached the boss leave (when
      the boss is known; `inMeleeDistance` is the host's test against its area), and the
      egg timers count down. */
  function OnGameTick(k: Kephri, remainingCycles: Handle -> int, inMeleeDistance: Handle -> bool): (r: Kephri)
    ensures forall p :: p in r.fireballProjectiles <==> p in k.fireballProjectiles && remainingCycles(p) > 0
    ensures k.npc.None? ==> r.scarabSwarmNpcs == k.scarabSwarmNpcs
    ensures k.npc.Some? ==> forall s :: s in r.scarabSwarmNpcs <==> s in k.scarabSwarmNpcs && !inMeleeDistance(s)
    ensures r.eggsToTicks == DecrementAndDrop(k.eggsToTicks)
    ensures r == k.(fireballProjectiles := r.fireballProjectiles, scarabSwarmNpcs := r.scarabSwarmNpcs, eggsToTicks := r.eggsToTicks)
  {
    k.(fireballProjectiles := Filter(k.fireballProjectiles, p => remainingCycles(p) > 0),
       scarabSwarmNpcs := if k.npc.Some? then Filter(k.scarabSwarmNpcs, s => !inMeleeDistance(s)) else k.scarabSwarmNpcs,
       eggsToTicks := DecrementAndDrop(k.eggsToTicks))
  }

  /** `onProjectileMoved`: fireballs and bomber scarabs are tracked. */
  function OnProjectileMoved(k: Kephri, projectile: Handle, id: int): (r: Kephri)
    ensures id == PROJECTILE_ID_FIREBALL || id == PROJECTILE_ID_BOMBER_SCARAB ==>
              r == k.(fireballProjectiles := k.fireballProjectiles + [projectile])
    ensures id != PROJECTILE_ID_FIREBALL && id != PROJECTILE_ID_BOMBER_SCARAB ==> r == k
  {
    if id == PROJECTILE_ID_FIREBALL || id == PROJECTILE_ID_BOMBER_SCARAB
    then k.(fireballProjectiles := k.fireballProjectiles + [projectile])
    else k
  }

  /** `onNpcSpawned`: the boss by name, an egg with a 15-tick timer, or a swarm. */
  function OnNpcSpawned(k: Kephri, npc: Handle, name: string, kind: NpcKind): (r: Kephri)
    ensures name == NPC_NAME ==> r == k.(npc := Some(npc))
    ensures name != NPC_NAME && kind == Egg ==> r == k.(eggsToTicks := k.eggsToTicks[npc := 15])
    ensures name != NPC_NAME && kind == ScarabSwarm ==> r == k.(scarabSwarmNpcs := k.scarabSwarmNpcs + [npc])
    ensures name != NPC_NAME && kind != Egg && kind != ScarabSwarm ==> r == k
  {
    if name == NPC_NAME then k.(npc := Some(npc))
    else if kind == Egg then k.(eggsToTicks := k.eggsToTicks[npc := TICK_COUNT_EGG])
    else if kind == ScarabSwarm then k.(scarabSwarmNpcs := k.scarabSwarmNpcs + [npc])
    else k
  }

  /** `onNpcDespawned`: losing the boss resets everything, counters to zero. */
  function OnNpcDespawned(k: Kephri, npc: Handle, kind: NpcKind): (r: Kephri)
    ensures k.npc == Some(npc) ==>
              r.atkCount == 0 && r.prevAtkCount == 0 && r.seenFours == 0 && r.numOfFours == 0 &&
              r.fireballProjectiles == [] && r.eggsToTicks == map[] && r.scarabSwarmNpcs == [] && r.npc.None?
    ensures k.npc != Some(npc) && kind == Egg ==> r == k.(eggsToTicks := k.eggsToTicks - {npc})
    ensures k.npc != Some(npc) && kind == ScarabSwarm ==> r == k.(scarabSwarmNpcs := RemoveFirst(k.scarabSwarmNpcs, npc))
    ensures k.npc != Some(npc) && kind != Egg && kind != ScarabSwarm ==> r == k
  {
    if k.npc == Some(npc) then Reset
    else if kind == Egg then k.(eggsToTicks := k.eggsToTicks - {npc})
    else if kind == ScarabSwarm then k.(scarabSwarmNpcs := RemoveFirst(k.scarabSwarmNpcs, npc))
    else k
  }

  /** `onNpcChanged`: any NPC changing into id 11722 makes the component forget the boss. */
  function OnNpcChanged(k: Kephri, kind: NpcKind): (r: Kephri)
    ensures kind == KephriId11722 ==> r == k.(npc := None)
    ensures kind != KephriId11722 ==> r == k
  {
    if kind == KephriId11722 then k.(npc := None) else k
  }

  /** `onActorDeath`: a dead swarm leaves the list. */
  function OnActorDeath(k: Kephri, actor: Actor): (r: Kephri)
    ensures actor.NpcActor? && actor.kind == ScarabSwarm ==>
              r == k.(scarabSwarmNpcs := RemoveFirst(k.scarabSwarmNpcs, actor.handle))
    ensures !(actor.NpcActor? && actor.kind == ScarabSwarm) ==> r == k
  {
    if actor.NpcActor? && actor.kind == ScarabSwarm
    then k.(scarabSwarmNpcs := RemoveFirst(k.scarabSwarmNpcs, actor.handle))
    else k
  }

  /** `onAnimationChanged`: the boss's animations drive the counter; a swarm's death
      animation removes it. */
  function OnAnimationChanged(k: Kephri, actor: Actor, mode: AttackCounter): (r: Kephri)
    ensures actor.NotAnNpc? ==> r == k
    ensures actor.NpcActor? && k.npc == Some(actor.handle) ==> r == UpdateAttackCount(k, actor.animation, mode)
    ensures actor.NpcActor? && k.npc != Some(actor.handle) && actor.kind == ScarabSwarm &&
            actor.animation == ANIM_ID_SCARAB_SWARM_DEATH ==>
              r == k.(scarabSwarmNpcs := RemoveFirst(k.scarabSwarmNpcs, actor.handle))
    ensures (actor.NpcActor? && k.npc != Some(actor.handle) &&
             (actor.kind != ScarabSwarm || actor.animation != ANIM_ID_SCARAB_SWARM_DEATH)) ==> r == k
  {
    match actor
    case NotAnNpc => k
    case NpcActor(npc, kind, anim) =>
      if k.npc == Some(npc) then UpdateAttackCount(k, anim, mode)
      else if kind == ScarabSwarm && anim == ANIM_ID_SCARAB_SWARM_DEATH
      then k.(scarabSwarmNpcs := RemoveFirst(k.scarabSwarmNpcs, npc))
      else k
  }

  /** `k` game ticks. */
  function Ticks(k: Kephri, remainingCycles: Handle -> int, inMeleeDistance: Handle -> bool, n: nat): Kephri {
    Iterate((x: Kephri) => OnGameTick(x, remainingCycles, inMeleeDistance), k, n)
  }

  /** The egg timers over `n` ticks are the countdown map's drop steps. */
  lemma EggsOverTicks(k: Kephri, remainingCycles: Handle -> int, inMeleeDistance: Handle -> bool, n: nat)
    ensures Ticks(k, remainingCycles, inMeleeDistance, n).eggsToTicks == DropTicks(k.eggsToTicks, n)
  {
    IterateProjects((x: Kephri) => OnGameTick(x, remainingCycles, inMeleeDistance), (x: Kephri) => x.eggsToTicks,
                    DecrementAndDrop, k, n);
  }

  /** An egg's timer is shown for exactly fifteen ticks after it spawns. */
  lemma EggHatchesAfterFifteen(k: Kephri, egg: Handle, name: string, remainingCycles: Handle -> int,
                               inMeleeDistance: Handle -> bool, n: nat)
    requires name != NPC_NAME
    ensures var k1 := OnNpcSpawned(k, egg, name, Egg);
      var eggs := Ticks(k1, remainingCycles, inMeleeDistance, n).eggsToTicks;
      (egg in eggs <==> n < 15) && (egg in eggs ==> eggs[egg] == 15 - n)
  {
    var k1 := OnNpcSpawned(k, egg, name, Egg);
    EggsOverTicks(k1, remainingCycles, inMeleeDistance, n);
    DroppedAfterExactly(k1.eggsToTicks, egg, n);
  }
}

=== FILE: overlay_geometry.dfy ===
/** The integer geometry the scene overlays share: the threshold colours, the offset of
    a tile from a local point scaled by the player's size, and square offset patterns
    enumerated row by row the way the overlays' nested loops visit them. */
module OverlayGeometry {
  import opened Common

  /** `Perspective.LOCAL_TILE_SIZE`: local units per tile. */
  const LOCAL_TILE_SIZE: int := 128

  datatype Color = RED | ORANGE | YELLOW

  /** The countdown colour: red for two ticks or fewer, orange at three, else yellow. */
  function TickColor(ticks: int): (c: Color)
    ensures c == RED <==> ticks <= 2
    ensures c == ORANGE <==> ticks == 3
    ensures c == YELLOW <==> ticks >= 4
  {
    if ticks <= 2 then RED else if ticks == 3 then ORANGE else YELLOW
  }

  /** `getNewLocalPoint`: `d` tiles plus `d` half-tiles per extra tile of the area's size,
      with Java's truncating division. */
  function NewLocalPoint(width: int, height: int, lp: Point, dx: int, dy: int): Point {
    Point(lp.x + dx * LOCAL_TILE_SIZE + JavaDiv(dx * LOCAL_TILE_SIZE * (width - 1), 2),
          lp.y + dy * LOCAL_TILE_SIZE + JavaDiv(dy * LOCAL_TILE_SIZE * (height - 1), 2))
  }

  /** The division is always exact (the tile size is even), so the offset is
      `64 * d * (size + 1)` on each axis, and exactly `d` tiles for a size-1 area. */
  lemma NewLocalPointExact(width: int, height: int, lp: Point, dx: int, dy: int)
    ensures NewLocalPoint(width, height, lp, dx, dy) == Point(lp.x + 64 * dx * (width + 1), lp.y + 64 * dy * (height + 1))
    ensures width == 1 && height == 1 ==>
              NewLocalPoint(width, height, lp, dx, dy) == Point(lp.x + dx * LOCAL_TILE_SIZE, lp.y + dy * LOCAL_TILE_SIZE)
  {
    HalfOfEven(dx * 64 * (width - 1));
    HalfOfEven(dy * 64 * (height - 1));
    assert dx * LOCAL_TILE_SIZE * (width - 1) == 2 * (dx * 64 * (width - 1));
    assert dy * LOCAL_TILE_SIZE * (height - 1) == 2 * (dy * 64 * (height - 1));
  }

  lemma HalfOfEven(k: int)
    ensures JavaDiv(2 * k, 2) == k
  {
    if k < 0 {
      assert -(2 * k) == 2 * (-k);
    }
  }

  /** For an area of positive size, different offsets land on different local points. */
  lemma NewLocalPointInjective(width: int, height: int, lp: Point, a: Point, b: Point)
    requires width >= 1 && height >= 1 && a != b
    ensures NewLocalPoint(width, height, lp, a.x, a.y) != NewLocalPoint(width, height, lp, b.x, b.y)
  {
    NewLocalPointExact(width, height, lp, a.x, a.y);
    NewLocalPointExact(width, height, lp, b.x, b.y);
    if a.x != b.x {
      ScaledDiffer(a.x, b.x, width + 1);
    } else {
      ScaledDiffer(a.y, b.y, height + 1);
    }
  }

  lemma ScaledDiffer(a: int, b: int, c: int)
    requires a != b && c > 0
    ensures 64 * a * c != 64 * b * c
  {
    MulDiffer(a, b, 64 * c);
    assert 64 * a * c == a * (64 * c);
    assert 64 * b * c == b * (64 * c);
  }

  lemma MulDiffer(a: int, b: int, c: int)
    requires a != b && c != 0
    ensures a * c != b * c
  {
    assert a * c - b * c == (a - b) * c;
  }

  /** The local points of the offsets `offsets` around `centre`. */
  function Place(width: int, height: int, centre: Point, offsets: set<Point>): set<Point> {
    set o | o in offsets :: NewLocalPoint(width, height, centre, o.x, o.y)
  }

  /** Placing is one-to-one for an area of positive size: no two offsets share a tile. */
  lemma {:induction false} PlaceCard(width: int, height: int, centre: Point, offsets: set<Point>)
    requires width >= 1 && height >= 1
    ensures |Place(width, height, centre, offsets)| == |offsets|
    decreases |offsets|
  {
    if offsets != {} {
      var o :| o in offsets;
      var rest := offsets - {o};
      PlaceCard(width, height, centre, rest);
      var p := NewLocalPoint(width, height, centre, o.x, o.y);
      assert Place(width, height, centre, offsets) == Place(width, height, centre, rest) + {p};
      forall q | q in rest
        ensures NewLocalPoint(width, height, centre, q.x, q.y) != p
      {
        NewLocalPointInjective(width, height, centre, q, o);
      }
    }
  }

  /** For an area of positive size, the point at offset `o` is placed exactly when `o`
      is one of the offsets. */
  lemma PlaceMembers(width: int, height: int, centre: Point, offsets: set<Point>, o: Point)
    requires width >= 1 && height >= 1
    ensures NewLocalPoint(width, height, centre, o.x, o.y) in Place(width, height, centre, offsets) <==> o in offsets
  {
    if NewLocalPoint(width, height, centre, o.x, o.y) in Place(width, height, centre, offsets) {
      var q :| q in offsets && NewLocalPoint(width, height, centre, q.x, q.y) == NewLocalPoint(width, height, centre, o.x, o.y);
      if q != o {
        NewLocalPointInjective(width, height, centre, q, o);
      }
    }
  }

  /** The shapes drawn around a centre tile: the P2 lightning strike and Ba-Ba's two
      shockwaves. */
  datatype Shape = Lightning | SmallShockwave | LargeShockwave

  /** Half the side of the bounding square. */
  function Radius(shape: Shape): (r: int)
    ensures r >= 2
  {
    match shape
    case Lightning => 3
    case SmallShockwave => 2
    case LargeShockwave => 3
  }

  /** Whether offset (`dx`, `dy`) belongs to `shape`. The lightning skips the axis tiles
      strictly between the centre and distance three; a shockwave of size `s` is the
      (2s+1)-square plus the four axis tiles at distance `s + 1`. */
  predicate InShape(shape: Shape, dx: int, dy: int) {
    match shape
    case Lightning =>
      -3 <= dx <= 3 && -3 <= dy <= 3 &&
      !(dx == 0 && (dy < 3 && dy > -3 && dy != 0)) &&
      !(dy == 0 && (dx < 3 && dx > -3 && dx != 0))
    case SmallShockwave => InShockwave(1, dx, dy)
    case LargeShockwave => InShockwave(2, dx, dy)
  }

  predicate InShockwave(size: int, dx: int, dy: int) {
    (-size <= dx <= size && -size <= dy <= size) ||
    (dy == 0 && (dx == size + 1 || dx == -(size + 1))) ||
    (dx == 0 && (dy == size + 1 || dy == -(size + 1)))
  }

  /** Offset membership of `shape`, as a predicate on points. */
  function Inside(shape: Shape): Point -> bool {
    (p: Point) => InShape(shape, p.x, p.y)
  }

  /** The points of column `dx` that `inside` holds, from row `dy` up to row `r`. */
  function Column(inside: Point -> bool, r: int, dx: int, dy: int): (c: seq<Point>)
    requires dy <= r + 1
    ensures forall k :: 0 <= k < |c| ==> c[k].x == dx && dy <= c[k].y <= r
    ensures forall k, l :: 0 <= k < l < |c| ==> c[k].y < c[l].y
    decreases r + 1 - dy
  {
    if dy == r + 1 then []
    else (if inside(Point(dx, dy)) then [Point(dx, dy)] else []) + Column(inside, r, dx, dy + 1)
  }

  /** Column `dx` from row `dy` on holds exactly the points `inside` holds there. */
  lemma {:induction false} ColumnMember(inside: Point -> bool, r: int, dx: int, dy: int, p: Point)
    requires dy <= r + 1
    ensures p in Column(inside, r, dx, dy) <==> p.x == dx && dy <= p.y <= r && inside(p)
    decreases r + 1 - dy
  {
    if dy < r + 1 {
      ColumnMember(inside, r, dx, dy + 1, p);
    }
  }

  /** The points of the square of half side `r` that `inside` holds, from column `dx`
      on, column by column. */
  function Columns(inside: Point -> bool, r: int, dx: int): (c: seq<Point>)
    requires -r <= dx <= r + 1
    ensures forall k :: 0 <= k < |c| ==> dx <= c[k].x <= r
    ensures forall k, l :: 0 <= k < l < |c| ==> c[k] != c[l]
    decreases r + 1 - dx
  {
    if dx == r + 1 then []
    else
      var col := Column(inside, r, dx, -r);
      var rest := Columns(inside, r, dx + 1);
      assert forall k, l :: 0 <= k < |col| && 0 <= l < |rest| ==> col[k].x < rest[l].x;
      col + rest
  }

  /** The enumeration from column `dx` on holds exactly the points of the square
      `inside` holds there. */
  lemma {:induction false} ColumnsMember(inside: Point -> bool, r: int, dx: int, p: Point)
    requires -r <= dx <= r + 1
    ensures p in Columns(inside, r, dx) <==> dx <= p.x <= r && -r <= p.y <= r && inside(p)
    decreases r + 1 - dx
  {
    if dx < r + 1 {
      var col := Column(inside, r, dx, -r);
      var rest := Columns(inside, r, dx + 1);
      assert Columns(inside, r, dx) == col + rest;
      assert p in col + rest <==> p in col || p in rest;
      ColumnMember(inside, r, dx, -r, p);
      ColumnsMember(inside, r, dx + 1, p);
    }
  }

  /** How many offsets column `dx` holds from row `dy` on. */
  function ColumnCount(shape: Shape, dx: int, dy: int): nat
    requires -Radius(shape) <= dy <= Radius(shape) + 1
    decreases Radius(shape) + 1 - dy
  {
    if dy == Radius(shape) + 1 then 0
    else (if InShape(shape, dx, dy) then 1 else 0) + ColumnCount(shape, dx, dy + 1)
  }

  function ColumnsCount(shape: Shape, dx: int): nat
    requires -Radius(shape) <= dx <= Radius(shape) + 1
    decreases Radius(shape) + 1 - dx
  {
    if dx == Radius(shape) + 1 then 0
    else ColumnCount(shape, dx, -Radius(shape)) + ColumnsCount(shape, dx + 1)
  }

  lemma {:induction false} ColumnLength(shape: Shape, dx: int, dy: int)
    requires -Radius(shape) <= dy <= Radius(shape) + 1
    ensures |Column(Inside(shape), Radius(shape), dx, dy)| == ColumnCount(shape, dx, dy)
    decreases Radius(shape) + 1 - dy
  {
    if dy < Radius(shape) + 1 {
      ColumnLength(shape, dx, dy + 1);
    }
  }

  lemma {:induction false} ColumnsLength(shape: Shape, dx: int)
    requires -Radius(shape) <= dx <= Radius(shape) + 1
    ensures |Columns(Inside(shape), Radius(shape), dx)| == ColumnsCount(shape, dx)
    decreases Radius(shape) + 1 - dx
  {
    if dx < Radius(shape) + 1 {
      ColumnLength(shape, dx, -Radius(shape));
      ColumnsLength(shape, dx + 1);
    }
  }
  /** The set of offsets of `shape`. */
  function Offsets(shape: Shape): (s: set<Point>)
    ensures forall p :: p in s <==> InShape(shape, p.x, p.y)
  {
    var r := Radius(shape);
    InsideRadius(shape);
    set dx: int, dy: int | -r <= dx <= r && -r <= dy <= r && InShape(shape, dx, dy) :: Point(dx, dy)
  }

  /** The offsets are exactly the ones the row-by-row enumeration visits, so there are
      as many as it counts. */
  lemma OffsetsCount(shape: Shape)
    ensures |Offsets(shape)| == ColumnsCount(shape, -Radius(shape))
  {
    OffsetsAsColumns(shape);
    ColumnsLength(shape, -Radius(shape));
  }

  lemma OffsetsAsColumns(shape: Shape)
    ensures |Offsets(shape)| == |Columns(Inside(shape), Radius(shape), -Radius(shape))|
  {
    var l := Columns(Inside(shape), Radius(shape), -Radius(shape));
    var a := Offsets(shape);
    OffsetsEnumerated(shape);
    CardOfDistinct(a, l);
  }

  /** A set holding exactly the elements of a sequence without repeats has its length. */
  lemma CardOfDistinct<T>(a: set<T>, l: seq<T>)
    requires forall k, m :: 0 <= k < m < |l| ==> l[k] != l[m]
    requires forall p :: p in a <==> p in l
    ensures |a| == |l|
  {
    DistinctCard(l);
    assert a == set p | p in l;
  }

  lemma OffsetsEnumerated(shape: Shape)
    ensures forall p :: p in Offsets(shape) <==> p in Columns(Inside(shape), Radius(shape), -Radius(shape))
  {
    forall p
      ensures p in Offsets(shape) <==> p in Columns(Inside(shape), Radius(shape), -Radius(shape))
    {
      EnumeratedOffset(shape, p);
    }
  }

  /** The enumeration visits exactly the offsets of the shape. */
  lemma EnumeratedOffset(shape: Shape, p: Point)
    ensures p in Columns(Inside(shape), Radius(shape), -Radius(shape)) <==> InShape(shape, p.x, p.y)
  {
    ColumnsMember(Inside(shape), Radius(shape), -Radius(shape), p);
    InsideRadius(shape);
  }

  /** Every offset of a shape lies in its bounding square. */
  lemma InsideRadius(shape: Shape)
    ensures forall dx, dy :: InShape(shape, dx, dy) ==> -Radius(shape) <= dx <= Radius(shape) && -Radius(shape) <= dy <= Radius(shape)
  {
  }

  /** Every shape is symmetric under mirroring either axis and under swapping them. */
  lemma ShapeSymmetric(shape: Shape, dx: int, dy: int)
    ensures InShape(shape, dx, dy) <==> InShape(shape, -dx, dy)
    ensures InShape(shape, dx, dy) <==> InShape(shape, dx, -dy)
    ensures InShape(shape, dx, dy) <==> InShape(shape, dy, dx)
  {
  }

  /** The tiles of `shape` drawn around `centre`. */
  function ShapeTiles(shape: Shape, width: int, height: int, centre: Point): set<Point> {
    Place(width, height, centre, Offsets(shape))
  }

  /** For an area of positive size, a shape drawn around `centre` holds the tile at
      offset (`dx`, `dy`) exactly when the offset is in the shape. */
  lemma ShapeTilesMembers(shape: Shape, width: int, height: int, centre: Point, dx: int, dy: int)
    requires width >= 1 && height >= 1
    ensures NewLocalPoint(width, height, centre, dx, dy) in ShapeTiles(shape, width, height, centre) <==>
              InShape(shape, dx, dy)
  {
    PlaceMembers(width, height, centre, Offsets(shape), Point(dx, dy));
  }

  /** ... and holds one tile per offset. */
  lemma ShapeTilesCount(shape: Shape, width: int, height: int, centre: Point)
    requires width >= 1 && height >= 1
    ensures |ShapeTiles(shape, width, height, centre)| == |Offsets(shape)|
  {
    PlaceCard(width, height, centre, Offsets(shape));
  }

  /** The P2 lightning strike covers 41 tiles. */
  lemma LightningSize()
    ensures |Offsets(Lightning)| == 41
  {
    assert ColumnsCount(Lightning, -3) == 41 by {}
    OffsetsCount(Lightning);
  }

  /** A small shockwave covers 13 tiles. */
  lemma SmallShockwaveSize()
    ensures |Offsets(SmallShockwave)| == 13
  {
    assert ColumnsCount(SmallShockwave, -2) == 13 by {}
    OffsetsCount(SmallShockwave);
  }

  /** A large shockwave covers 29 tiles. */
  lemma LargeShockwaveSize()
    ensures |Offsets(LargeShockwave)| == 29
  {
    assert ColumnsCount(LargeShockwave, -3) == 29 by {}
    OffsetsCount(LargeShockwave);
  }
}

=== FILE: points_tracker.dfy ===
/** The raid points estimate: damage dealt in the current room (weighted by the
    target's points factor, capped per room), the running personal total (banked at
    each room completion, cut on death, raised by MVP items and puzzle estimates) and
    the points earned once for the whole party. The factors are exact tenths. */
module PointsTracking {
  import opened Common
  import opened Raid

  const START_MESSAGE: string := "You enter the Tombs of Amascut"
  const DEATH_MESSAGE: string := "You have died"
  const ROOM_FAIL_MESSAGE: string := "Your party failed to complete"
  const ROOM_FINISH_MESSAGE: string := "Challenge complete"
  const BASE_POINTS: int := 5000
  const MAX_ROOM_POINTS: int := 20000
  const MAX_TOTAL_POINTS: int := 64000 + BASE_POINTS
  const ANIMATION_ID_WARDEN_DOWN: int := 9670
  const HITSPLAT_TYPE_HIT: int := 53
  const HITSPLAT_TYPE_MAX_HIT: int := 55

  /** The classes of the damage-factor table: NPCs worth no points (cores, siphons,
      boulders, non-combat and downed wardens), the weighted ones, the phase-2 wardens
      (whose downed forms are worth nothing) and every NPC the table does not list. */
  datatype NpcClass =
    | ZeroPoints | BaboonClass | BabaClass | ZebakClass | ScarabClass | HetsSealWeakened | ObeliskClass
    | P2Warden | P2WardenDowned | P3Warden | Unlisted

  /** `DAMAGE_POINTS_FACTORS.getOrDefault(id, 1.0)`, in tenths. */
  function FactorTenths(c: NpcClass): (f: nat)
    ensures f <= 25
    ensures c == Unlisted ==> f == 10
    ensures f == 0 <==> c == ZeroPoints || c == P2WardenDowned
  {
    match c
    case ZeroPoints => 0
    case BaboonClass => 12
    case BabaClass => 20
    case ZebakClass => 15
    case ScarabClass => 5
    case HetsSealWeakened => 25
    case ObeliskClass => 15
    case P2Warden => 20
    case P2WardenDowned => 0
    case P3Warden => 25
    case Unlisted => 10
  }

  predicate IsP2Warden(c: NpcClass) {
    c == P2Warden || c == P2WardenDowned
  }

  /** The four once-per-raid MVP drops. */
  datatype MvpItem = Fang | ScarabDung | BigBanana | EldritchAshes

  datatype Points = Points(
    seenMvpItems: set<MvpItem>,
    personalRoomPoints: int,
    personalTotalPoints: int,
    nonPartyPoints: int,
    raidLevel: int,
    wardenDowns: int)

  /** `reset`. */
  const Reset := Points({}, 0, BASE_POINTS, 0, -1, 0)

  predicate IsEnabled(s: RaidState) {
    s.inRaid
  }

  /** The states the handlers keep: room points within the cap, a non-negative total. */
  predicate Valid(p: Points) {
    0 <= p.personalRoomPoints <= MAX_ROOM_POINTS && p.personalTotalPoints >= 0 && p.nonPartyPoints >= 0
  }

  /** `onGameTick`: the raid level is re-read from its varbit. */
  function OnGameTick(p: Points, raidLevelVarbit: int): (r: Points)
    ensures r.raidLevel == raidLevelVarbit && r == p.(raidLevel := raidLevelVarbit)
  {
    p.(raidLevel := raidLevelVarbit)
  }

  /** The personal and party estimate for leaving a room, `(personal, party)`. */
  function RoomLeaveBonus(room: RaidRoom): (b: (int, int))
    ensures room == SCABARAS ==> b == (300, 300)
    ensures room == APMEKEN ==> b == (450, 300)
    ensures room == CRONDIS ==> b == (400, 300)
    ensures room == HET || room == WARDEN_P2 || room == WARDEN_P3 ==> b == (0, 300)
    ensures room !in {SCABARAS, APMEKEN, CRONDIS, HET, WARDEN_P2, WARDEN_P3} ==> b == (0, 0)
  {
    match room
    case SCABARAS => (300, 300)
    case APMEKEN => (450, 300)
    case CRONDIS => (400, 300)
    case HET => (0, 300)
    case WARDEN_P2 => (0, 300)
    case WARDEN_P3 => (0, 300)
    case _ => (0, 0)
  }

  /** `onRaidStateChanged`: leaving a room adds its estimate; no previous room adds
      nothing. */
  function OnRaidStateChanged(p: Points, e: RaidStateChanged): (r: Points)
    ensures e.previous.currentRoom.None? ==> r == p
    ensures e.previous.currentRoom.Some? ==>
              r == p.(personalTotalPoints := p.personalTotalPoints + RoomLeaveBonus(e.previous.currentRoom.value).0,
                      nonPartyPoints := p.nonPartyPoints + RoomLeaveBonus(e.previous.currentRoom.value).1)
    ensures Valid(p) ==> Valid(r)
  {
    match e.previous.currentRoom
    case None => p
    case Some(room) =>
      var (personal, party) := RoomLeaveBonus(room);
      p.(personalTotalPoints := p.personalTotalPoints + personal, nonPartyPoints := p.nonPartyPoints + party)
  }

  /** The total after a death: `(int)(total - max(0.2 * total, 1000))`, floored at 0. */
  function AfterDeath(total: int): (t: int)
    ensures t >= 0
    ensures total >= 5000 ==> t == (8 * total) / 10
    ensures total <= 1000 ==> t == 0
    ensures 1000 <= total <= 5000 ==> t == total - 1000
  {
    var reduced := JavaDiv(10 * total - Max(2 * total, 10000), 10);
    if reduced < 0 then 0 else reduced
  }

  /** `onChatMessage`, on the raw game message. The tests run in order: start, death,
      room failure, room completion. */
  function OnChatMessage(p: Points, isGameMessage: bool, message: string): (r: Points)
    ensures !isGameMessage ==> r == p
    ensures isGameMessage && StartsWith(message, START_MESSAGE) ==> r == Reset
    ensures isGameMessage && !StartsWith(message, START_MESSAGE) && StartsWith(message, DEATH_MESSAGE) ==>
              r == p.(personalTotalPoints := AfterDeath(p.personalTotalPoints))
    ensures isGameMessage && !StartsWith(message, START_MESSAGE) && !StartsWith(message, DEATH_MESSAGE) &&
            StartsWith(message, ROOM_FAIL_MESSAGE) ==>
              r == p.(wardenDowns := 0, personalRoomPoints := 0)
    ensures isGameMessage && !StartsWith(message, START_MESSAGE) && !StartsWith(message, DEATH_MESSAGE) &&
            !StartsWith(message, ROOM_FAIL_MESSAGE) && StartsWith(message, ROOM_FINISH_MESSAGE) ==>
              r == p.(personalTotalPoints := Min(MAX_TOTAL_POINTS, p.personalTotalPoints + p.personalRoomPoints),
                      personalRoomPoints := 0)
    ensures Valid(p) ==> Valid(r)
  {
    if !isGameMessage then p
    else if StartsWith(message, START_MESSAGE) then Reset
    else if StartsWith(message, DEATH_MESSAGE) then p.(personalTotalPoints := AfterDeath(p.personalTotalPoints))
    else if StartsWith(message, ROOM_FAIL_MESSAGE) then p.(wardenDowns := 0, personalRoomPoints := 0)
    else if StartsWith(message, ROOM_FINISH_MESSAGE) then
      p.(personalTotalPoints := Min(MAX_TOTAL_POINTS, p.personalTotalPoints + p.personalRoomPoints), personalRoomPoints := 0)
    else p
  }

  /** `(int) min(20000, room + amount * factor)`, with the factor in tenths; the cast
      truncates toward zero. */
  function AddDamage(room: int, amount: int, factorTenths: nat): (r: int)
    requires amount >= 1
    ensures r >= room || room > MAX_ROOM_POINTS
    ensures r <= MAX_ROOM_POINTS
    ensures room >= 0 ==> r * 10 <= room * 10 + amount * factorTenths
    ensures r == MAX_ROOM_POINTS || room * 10 + amount * factorTenths < r * 10 + 10
  {
    var tenths := room * 10 + amount * factorTenths;
    if tenths >= MAX_ROOM_POINTS * 10 then MAX_ROOM_POINTS else JavaDiv(tenths, 10)
  }

  /** `onHitsplatApplied`: a hit of at least 1 on an NPC counts when it is the player's
      own or a warden hit type; phase-2 warden hits stop counting after three downs.
      `target` is the NPC's class, None when the target is not an NPC. */
  function OnHitsplatApplied(p: Points, amount: int, target: Option<NpcClass>, mine: bool, hitsplatType: int): (r: Points)
    ensures amount < 1 || target.None? ==> r == p
    ensures target.Some? && IsP2Warden(target.value) && p.wardenDowns > 3 ==> r == p
    ensures !mine && hitsplatType != HITSPLAT_TYPE_HIT && hitsplatType != HITSPLAT_TYPE_MAX_HIT ==> r == p
    ensures (amount >= 1 && target.Some? && !(IsP2Warden(target.value) && p.wardenDowns > 3) &&
             (mine || hitsplatType == HITSPLAT_TYPE_HIT || hitsplatType == HITSPLAT_TYPE_MAX_HIT)) ==>
              r == p.(personalRoomPoints := AddDamage(p.personalRoomPoints, amount, FactorTenths(target.value)))
    ensures Valid(p) ==> Valid(r) && r.personalRoomPoints >= p.personalRoomPoints
  {
    if amount < 1 || target.None? then p
    else if IsP2Warden(target.value) && p.wardenDowns > 3 then p
    else if mine || hitsplatType == HITSPLAT_TYPE_HIT || hitsplatType == HITSPLAT_TYPE_MAX_HIT then
      p.(personalRoomPoints := AddDamage(p.personalRoomPoints, amount, FactorTenths(target.value)))
    else p
  }

  /** `onItemSpawned`: each MVP item is worth 300 once. */
  function OnItemSpawned(p: Points, item: Option<MvpItem>): (r: Points)
    ensures item.None? || item.value in p.seenMvpItems ==> r == p
    ensures item.Some? && item.value !in p.seenMvpItems ==>
              r == p.(personalTotalPoints := p.personalTotalPoints + 300, seenMvpItems := p.seenMvpItems + {item.value})
    ensures Valid(p) ==> Valid(r)
  {
    match item
    case None => p
    case Some(i) =>
      if i in p.seenMvpItems then p
      else p.(personalTotalPoints := p.personalTotalPoints + 300, seenMvpItems := p.seenMvpItems + {i})
  }

  /** `onAnimationChanged`: a phase-2 warden going down is counted. */
  function OnAnimationChanged(p: Points, actor: Option<NpcClass>, animation: int): (r: Points)
    ensures actor.Some? && IsP2Warden(actor.value) && animation == ANIMATION_ID_WARDEN_DOWN ==>
              r == p.(wardenDowns := p.wardenDowns + 1)
    ensures !(actor.Some? && IsP2Warden(actor.value) && animation == ANIMATION_ID_WARDEN_DOWN) ==> r == p
  {
    if actor.Some? && IsP2Warden(actor.value) && animation == ANIMATION_ID_WARDEN_DOWN
    then p.(wardenDowns := p.wardenDowns + 1)
    else p
  }

  /** `getTotalPoints`: the personal total without the 5000 base, plus the room's and the
      party's points. */
  function TotalPoints(p: Points): (t: int)
    ensures Valid(p) ==> t >= -BASE_POINTS
    ensures p.personalTotalPoints == BASE_POINTS ==> t == p.personalRoomPoints + p.nonPartyPoints
  {
    p.personalTotalPoints - BASE_POINTS + p.personalRoomPoints + p.nonPartyPoints
  }

  /** MVP items in sequence: each earns 300 the first time only. */
  function Items(p: Points, items: seq<MvpItem>): Points
    decreases |items|
  {
    if |items| == 0 then p else Items(OnItemSpawned(p, Some(items[0])), items[1..])
  }

  /** The MVP bonus earned by any sequence of drops is 300 per distinct new item, so at
      most 1200 between resets. */
  lemma {:induction false} MvpBonusOncePerItem(p: Points, items: seq<MvpItem>)
    ensures var r := Items(p, items);
      r.seenMvpItems == p.seenMvpItems + (set i | i in items) &&
      r.personalTotalPoints == p.personalTotalPoints + 300 * |r.seenMvpItems - p.seenMvpItems|
    decreases |items|
  {
    if |items| > 0 {
      var p1 := OnItemSpawned(p, Some(items[0]));
      MvpBonusOncePerItem(p1, items[1..]);
      var r := Items(p1, items[1..]);
      assert (set i | i in items) == {items[0]} + (set i | i in items[1..]);
      if items[0] in p.seenMvpItems {
        assert p1 == p;
      } else {
        assert r.seenMvpItems - p.seenMvpItems == (r.seenMvpItems - p1.seenMvpItems) + {items[0]};
        assert items[0] !in r.seenMvpItems - p1.seenMvpItems;
      }
    }
  }

  /** There are only four MVP items. */
  lemma MvpBonusBounded(items: seq<MvpItem>)
    ensures Items(Reset, items).personalTotalPoints <= BASE_POINTS + 1200
  {
    MvpBonusOncePerItem(Reset, items);
    var seen := Items(Reset, items).seenMvpItems;
    assert seen <= {Fang, ScarabDung, BigBanana, EldritchAshes} by {
      forall i | i in seen ensures i in {Fang, ScarabDung, BigBanana, EldritchAshes} {
        match i
        case Fang =>
        case ScarabDung =>
        case BigBanana =>
        case EldritchAshes =>
      }
    }
    SubsetCard(seen, {Fang, ScarabDung, BigBanana, EldritchAshes});
  }

  lemma SubsetCard<T>(a: set<T>, b: set<T>)
    requires a <= b
    ensures |a| <= |b|
  {
    assert b == a + (b - a);
  }

  /** Completing a room banks its points under the cap and zeroes the room; a failure
      loses them. */
  lemma RoomOutcome(p: Points)
    requires Valid(p)
    ensures var r := OnChatMessage(p, true, ROOM_FINISH_MESSAGE);
      r.personalRoomPoints == 0 && r.personalTotalPoints <= MAX_TOTAL_POINTS &&
      (p.personalTotalPoints + p.personalRoomPoints <= MAX_TOTAL_POINTS ==> TotalPoints(r) == TotalPoints(p))
    ensures var r := OnChatMessage(p, true, ROOM_FAIL_MESSAGE);
      r.personalRoomPoints == 0 && r.wardenDowns == 0 && r.personalTotalPoints == p.personalTotalPoints
  {
    DiffersAt(ROOM_FINISH_MESSAGE, START_MESSAGE, 0);
    DiffersAt(ROOM_FINISH_MESSAGE, DEATH_MESSAGE, 0);
    DiffersAt(ROOM_FINISH_MESSAGE, ROOM_FAIL_MESSAGE, 0);
    assert StartsWith(ROOM_FINISH_MESSAGE, ROOM_FINISH_MESSAGE);
    DiffersAt(ROOM_FAIL_MESSAGE, START_MESSAGE, 4);
    DiffersAt(ROOM_FAIL_MESSAGE, DEATH_MESSAGE, 3);
    assert StartsWith(ROOM_FAIL_MESSAGE, ROOM_FAIL_MESSAGE);
  }

  /** A death costs a fifth of the total, at least 1000, never leaving it negative. */
  lemma DeathPenalty(p: Points)
    requires Valid(p)
    ensures var r := OnChatMessage(p, true, DEATH_MESSAGE);
      0 <= r.personalTotalPoints <= p.personalTotalPoints &&
      (p.personalTotalPoints >= 1000 ==> r.personalTotalPoints <= p.personalTotalPoints - 1000) &&
      r.personalRoomPoints == p.personalRoomPoints
  {
    DiffersAt(DEATH_MESSAGE, START_MESSAGE, 4);
    assert StartsWith(DEATH_MESSAGE, DEATH_MESSAGE);
  }
}

=== FILE: prayer_widget.dfy ===
/** The prayer-widget overlay's decisions: which prayer widget to highlight, the countdown
    drawn on it, and one descending box per queued hazard, filled when its prayer is the
    one to pray at that tick. Pixel geometry and colours beyond these choices are drawing. */
module PrayerWidget {
  import opened Common
  import opened AttackProjectiles
  import opened HazardQueues
  import opened Config

  const PRAYER_TAB_ID: int := 5
  const WIDGET_ID_PRAYER_GROUP: int := 541
  const WIDGET_ID_PRAYER_PROTECT_MAGIC: int := 21
  const WIDGET_ID_PRAYER_PROTECT_MISSILES: int := 22
  const WIDGET_ID_PRAYER_PROTECT_MELEE: int := 23

  /** `getPrayerWidget`: the child of the prayer group showing each protection prayer. */
  function PrayerWidgetChild(p: Prayer): (child: Option<int>)
    ensures child.Some? <==> !p.OtherPrayer?
    ensures child.Some? ==> 21 <= child.value <= 23
  {
    match p
    case ProtectFromMagic => Some(WIDGET_ID_PRAYER_PROTECT_MAGIC)
    case ProtectFromMissiles => Some(WIDGET_ID_PRAYER_PROTECT_MISSILES)
    case ProtectFromMelee => Some(WIDGET_ID_PRAYER_PROTECT_MELEE)
    case OtherPrayer(_) => None
  }

  /** Distinct prayers sit on distinct widgets. */
  lemma PrayerWidgetChildInjective(p: Prayer, q: Prayer)
    requires PrayerWidgetChild(p).Some? && PrayerWidgetChild(p) == PrayerWidgetChild(q)
    ensures p == q
  {
  }

  /** One step of `getTickPriorityMap`: insert when the tick is new, replace only on a
      strictly lower priority. */
  function PriorityStep(m: map<int, AttackProjectile>, p: AttackProjectile): map<int, AttackProjectile> {
    if p.ticks !in m then m[p.ticks := p]
    else if p.priority < m[p.ticks].priority then m[p.ticks := p]
    else m
  }

  /** `getTickPriorityMap` as a left fold over the queue's iteration order. */
  function TickPriorityMapFrom(m: map<int, AttackProjectile>, q: Queue): (r: map<int, AttackProjectile>)
    ensures forall t :: t in m ==> t in r
    ensures forall p :: p in q ==> p.ticks in r
    decreases |q|
  {
    assert forall p :: p in q ==> p == q[0] || p in q[1..];
    if |q| == 0 then m else TickPriorityMapFrom(PriorityStep(m, q[0]), q[1..])
  }

  function TickPriorityMap(q: Queue): (r: map<int, AttackProjectile>)
    ensures forall p :: p in q ==> p.ticks in r
  {
    TickPriorityMapFrom(map[], q)
  }

  /** The fold's invariant: every stored entry sits under its own tick and comes from
      the map or the queue, and the keys are the old keys plus the queue's ticks. */
  lemma {:induction false} FoldKeys(m: map<int, AttackProjectile>, q: Queue)
    requires forall t :: t in m ==> m[t].ticks == t
    ensures var r := TickPriorityMapFrom(m, q);
      (forall t :: t in r <==> t in m || exists p :: p in q && p.ticks == t) &&
      (forall t :: t in r ==> r[t].ticks == t && (r[t] in q || (t in m && r[t] == m[t])))
    decreases |q|
  {
    if |q| > 0 {
      var m' := PriorityStep(m, q[0]);
      FoldKeys(m', q[1..]);
      assert forall p :: p in q <==> p == q[0] || p in q[1..];
    }
  }

  /** The fold keeps, per tick, a priority no greater than any queued entry's. */
  lemma {:induction false} FoldMinimal(m: map<int, AttackProjectile>, q: Queue)
    ensures var r := TickPriorityMapFrom(m, q);
      (forall t :: t in m ==> t in r && r[t].priority <= m[t].priority) &&
      (forall p :: p in q ==> p.ticks in r && r[p.ticks].priority <= p.priority)
    decreases |q|
  {
    if |q| > 0 {
      var m' := PriorityStep(m, q[0]);
      FoldMinimal(m', q[1..]);
      assert forall p :: p in q <==> p == q[0] || p in q[1..];
    }
  }

  /** `getTickPriorityMap`: its keys are exactly the ticks present in the queue, and the
      entry under `t` is a queued hazard due at `t` whose priority is the lowest at `t`. */
  lemma TickPriorityMapSpec(q: Queue)
    ensures var r := TickPriorityMap(q);
      (forall t :: t in r <==> exists p :: p in q && p.ticks == t) &&
      (forall t :: t in r ==> r[t] in q && r[t].ticks == t) &&
      (forall p :: p in q ==> r[p.ticks].priority <= p.priority)
  {
    FoldKeys(map[], q);
    FoldMinimal(map[], q);
  }

  /** Among hazards sharing the lowest priority at a tick, the first in iteration order
      wins: `q[i]` is kept when nothing before it at that tick has a priority as low. */
  lemma {:induction false} FirstLowestKept(m: map<int, AttackProjectile>, q: Queue, i: nat)
    requires i < |q|
    requires q[i].ticks !in m || q[i].priority < m[q[i].ticks].priority
    requires forall j :: 0 <= j < i && q[j].ticks == q[i].ticks ==> q[i].priority < q[j].priority
    requires forall j :: i < j < |q| && q[j].ticks == q[i].ticks ==> q[i].priority <= q[j].priority
    ensures TickPriorityMapFrom(m, q)[q[i].ticks] == q[i]
    decreases |q|
  {
    var m' := PriorityStep(m, q[0]);
    if i == 0 {
      KeptUntilBeaten(m', q[1..], q[0]);
    } else {
      assert q[1..][i - 1] == q[i];
      FirstLowestKept(m', q[1..], i - 1);
    }
  }

  /** An entry stays under its tick while no later entry has a strictly lower priority. */
  lemma {:induction false} KeptUntilBeaten(m: map<int, AttackProjectile>, q: Queue, p: AttackProjectile)
    requires p.ticks in m && m[p.ticks] == p
    requires forall j :: 0 <= j < |q| && q[j].ticks == p.ticks ==> p.priority <= q[j].priority
    ensures TickPriorityMapFrom(m, q)[p.ticks] == p
    decreases |q|
  {
    if |q| > 0 {
      KeptUntilBeaten(PriorityStep(m, q[0]), q[1..], p);
    }
  }

  /** Same lowest priority, different prayers: the first one met is shown as filled. */
  lemma TieBreakExample()
    ensures TickPriorityMap([AttackProjectile(ProtectFromMissiles, 2, 0),
                             AttackProjectile(ProtectFromMagic, 2, 0)])[2].prayer == ProtectFromMissiles
    ensures TickPriorityMap([AttackProjectile(ProtectFromMissiles, 2, 1),
                             AttackProjectile(ProtectFromMagic, 2, 0)])[2].prayer == ProtectFromMagic
  {
  }

  datatype BoxStyle = Filled | Outlined

  /** One descending box: the widget it hangs from, the hazard's tick, whether it uses the
      warning colour, and its style. */
  datatype PrayerBox = PrayerBox(widgetChild: int, prayer: Prayer, tick: int, warn: bool, style: BoxStyle)

  /** The countdown on the highlighted widget. */
  datatype Countdown = Countdown(ticks: int, urgent: bool)

  datatype Highlight = Highlight(widgetChild: int, prayer: Prayer, countdown: Option<Countdown>)

  /** What one frame of the overlay draws. */
  datatype Frame = Frame(highlight: Option<Highlight>, boxes: seq<PrayerBox>)

  /** The on-widget countdown: nothing for a missing or empty queue, else the head's ticks,
      urgent (red) iff at most one tick remains. */
  function WidgetCountdown(queue: Option<Queue>): (c: Option<Countdown>)
    ensures c.None? <==> queue.None? || |queue.value| == 0
    ensures c.Some? ==> (exists p :: p in queue.value && p.ticks == c.value.ticks &&
                                     forall x :: x in queue.value ==> !Precedes(x, p))
    ensures c.Some? ==> (c.value.urgent <==> c.value.ticks <= 1)
  {
    if queue.None? then None
    else match Peek(queue.value)
      case None => None
      case Some(head) => Some(Countdown(head.ticks, head.ticks <= 1))
  }

  /** The filled-versus-outlined decision for one queued hazard. */
  function BoxFor(p: AttackProjectile, best: map<int, AttackProjectile>, nonPriorityBoxes: bool, child: int): (b: Option<PrayerBox>)
    requires p.ticks in best
    ensures b.Some? ==> b.value.widgetChild == child && b.value.tick == p.ticks && b.value.prayer == p.prayer
    ensures b.Some? ==> (b.value.warn <==> p.ticks == 1)
    ensures p.prayer == best[p.ticks].prayer ==> b.Some? && b.value.style == Filled
    ensures p.prayer != best[p.ticks].prayer ==>
              (b.Some? <==> nonPriorityBoxes) && (b.Some? ==> b.value.style == Outlined)
  {
    var style := if p.prayer == best[p.ticks].prayer then Some(Filled)
                 else if nonPriorityBoxes then Some(Outlined) else None;
    if style.None? then None else Some(PrayerBox(child, p.prayer, p.ticks, p.ticks == 1, style.value))
  }

  /** The boxes for the queue entries in iteration order, skipping unloaded widgets. */
  function Boxes(q: Queue, best: map<int, AttackProjectile>, nonPriorityBoxes: bool, loaded: int -> bool): (r: seq<PrayerBox>)
    requires forall p :: p in q ==> p.ticks in best
    ensures |r| <= |q|
    ensures forall b :: b in r ==> exists p :: p in q && b.tick == p.ticks && b.prayer == p.prayer
    ensures forall b :: b in r ==> loaded(b.widgetChild) && PrayerWidgetChild(b.prayer) == Some(b.widgetChild)
    ensures forall b :: b in r ==> (b.style == Filled <==> b.prayer == best[b.tick].prayer)
    ensures forall p :: p in q && p.prayer == best[p.ticks].prayer && PrayerWidgetChild(p.prayer).Some? &&
                        loaded(PrayerWidgetChild(p.prayer).value) ==>
                        PrayerBox(PrayerWidgetChild(p.prayer).value, p.prayer, p.ticks, p.ticks == 1, Filled) in r
  {
    if |q| == 0 then []
    else
      var p := q[0];
      var rest := Boxes(q[1..], best, nonPriorityBoxes, loaded);
      assert forall x :: x in q <==> x == q[0] || x in q[1..];
      var child := PrayerWidgetChild(p.prayer);
      if child.None? || !loaded(child.value) then rest
      else
        match BoxFor(p, best, nonPriorityBoxes, child.value)
        case None => rest
        case Some(b) => [b] + rest
  }

  /** `renderDescendingBoxes`: one box per queued hazard against its tick's priority entry. */
  function DescendingBoxes(q: Queue, nonPriorityBoxes: bool, loaded: int -> bool): seq<PrayerBox> {
    Boxes(q, TickPriorityMap(q), nonPriorityBoxes, loaded)
  }

  /** `render`: nothing when the overlay is off or the prayer tab is not open; the widget
      highlight in WIDGET and ALL modes; the descending boxes when configured. `loaded`
      tells which prayer-group children the client currently has. */
  function Render(widgetEnabled: bool, inventoryTab: int, mode: PrayerMode, descendingBoxes: bool,
                  nonPriorityBoxes: bool, nextPrayer: Option<Prayer>, queue: Option<Queue>,
                  loaded: int -> bool): (f: Frame)
    ensures !widgetEnabled || inventoryTab != PRAYER_TAB_ID ==> f == Frame(None, [])
    ensures f.highlight.Some? <==>
              widgetEnabled && inventoryTab == PRAYER_TAB_ID && (mode == ALL || mode == WIDGET) &&
              nextPrayer.Some? && PrayerWidgetChild(nextPrayer.value).Some? &&
              loaded(PrayerWidgetChild(nextPrayer.value).value)
    ensures f.highlight.Some? ==>
              f.highlight.value.prayer == nextPrayer.value && f.highlight.value.countdown == WidgetCountdown(queue)
    ensures !descendingBoxes || queue.None? ==> f.boxes == []
    ensures widgetEnabled && inventoryTab == PRAYER_TAB_ID && descendingBoxes && queue.Some? ==>
              f.boxes == Boxes(queue.value, TickPriorityMap(queue.value), nonPriorityBoxes, loaded)
  {
    if !widgetEnabled || inventoryTab != PRAYER_TAB_ID then Frame(None, [])
    else
      var highlight :=
        if !(mode == ALL || mode == WIDGET) || nextPrayer.None? then None
        else match PrayerWidgetChild(nextPrayer.value)
          case None => None
          case Some(child) =>
            if !loaded(child) then None
            else Some(Highlight(child, nextPrayer.value, WidgetCountdown(queue)));
      var boxes := if !descendingBoxes || queue.None? then [] else DescendingBoxes(queue.value, nonPriorityBoxes, loaded);
      Frame(highlight, boxes)
  }

  /** For every tick in the queue, all filled boxes at that tick show one and the same
      prayer, and the lowest-priority hazard at that tick gets a filled box when its widget
      is loaded: the overlay never asks for two prayers at once. */
  lemma OnePrayerPerTick(q: Queue, nonPriorityBoxes: bool, loaded: int -> bool, a: PrayerBox, b: PrayerBox)
    requires a in DescendingBoxes(q, nonPriorityBoxes, loaded) && b in DescendingBoxes(q, nonPriorityBoxes, loaded)
    requires a.tick == b.tick && a.style == Filled && b.style == Filled
    ensures a.prayer == b.prayer
  {
    TickPriorityMapSpec(q);
  }
}

=== FILE: quick_proceed.dfy ===
/** Quick-proceed menu swaps: deprioritising the menu entries that would stop a player
    from proceeding with one click (talking to Osmumten, entering paths and rooms,
    using teleport crystals, passing barriers). Object and NPC ids are abstracted to
    the groups the swap branches on. */
module QuickProceedSwaps {
  import opened Common
  import opened Raid
  import opened Config

  /** The menu entry types the swap branches on; every other type is `OtherType`. */
  datatype MenuType = NpcFirstOption | GameObjectFirstOption | OtherType

  /** The barrier object 45135, another object of the proceed set (paths, teleport
      crystals, room entries), or any other object. */
  datatype ObjectGroup = Barrier | ProceedObject | OtherObject

  /** The menu entry's NPC: one of the three Osmumten ids or another NPC. */
  datatype NpcGroup = Osmumten | OtherNpc

  datatype MenuEntry = MenuEntry(menuType: MenuType, option: string, npc: Option<NpcGroup>, obj: ObjectGroup)

  const TALK_TO: string := "Talk-to"
  const ENTER: string := "Enter"
  const USE: string := "Use"
  const PASS: string := "Pass"

  predicate IsEnabled(s: RaidState, mode: QuickProceed) {
    s.inRaid && mode != PROCEED_OFF
  }

  predicate InObjectIds(g: ObjectGroup) {
    g == Barrier || g == ProceedObject
  }

  /** `shouldDeprioritize`. `currentRoom` is the raid tracker's current room. */
  function ShouldDeprioritize(e: MenuEntry, currentRoom: Option<RaidRoom>, mode: QuickProceed): (b: bool)
    ensures e.menuType == OtherType ==> !b
    ensures e.menuType == NpcFirstOption ==> (b <==> e.npc == Some(Osmumten) && e.option == TALK_TO)
    ensures e.menuType == GameObjectFirstOption && e.obj == Barrier && currentRoom == Some(CRONDIS) && e.option == PASS ==>
              (b <==> mode != SPEEDRUN)
    ensures e.menuType == GameObjectFirstOption && !(e.obj == Barrier && currentRoom == Some(CRONDIS) && e.option == PASS) ==>
              (b <==> InObjectIds(e.obj) && (e.option == ENTER || e.option == USE || e.option == PASS))
  {
    match e.menuType
    case NpcFirstOption => e.npc.Some? && e.npc.value == Osmumten && e.option == TALK_TO
    case GameObjectFirstOption =>
      if e.obj == Barrier && currentRoom == Some(CRONDIS) && e.option == PASS then mode != SPEEDRUN
      else InObjectIds(e.obj) && (e.option == ENTER || e.option == USE || e.option == PASS)
    case OtherType => false
  }

  /** `onMenuEntryAdded`: the entry's deprioritised flag afterwards. */
  function OnMenuEntryAdded(e: MenuEntry, deprioritized: bool, currentRoom: Option<RaidRoom>, mode: QuickProceed): (r: bool)
    ensures deprioritized ==> r
    ensures r <==> deprioritized || ShouldDeprioritize(e, currentRoom, mode)
  {
    if ShouldDeprioritize(e, currentRoom, mode) then true else deprioritized
  }

  /** The barrier is a one-click "Pass" everywhere except in Crondis under the
      speed-run variant. */
  lemma BarrierPass(currentRoom: Option<RaidRoom>, mode: QuickProceed)
    ensures ShouldDeprioritize(MenuEntry(GameObjectFirstOption, PASS, None, Barrier), currentRoom, mode) <==>
              currentRoom != Some(CRONDIS) || mode != SPEEDRUN
  {
  }

  /** Only first-option entries on NPCs and objects are ever deprioritised, and the
      swap never clears a flag already set. */
  lemma OnlyFirstOptions(e: MenuEntry, currentRoom: Option<RaidRoom>, mode: QuickProceed)
    requires ShouldDeprioritize(e, currentRoom, mode)
    ensures e.menuType == NpcFirstOption || e.menuType == GameObjectFirstOption
    ensures e.menuType == NpcFirstOption ==> e.option == TALK_TO
    ensures e.menuType == GameObjectFirstOption ==> InObjectIds(e.obj) && e.option in {ENTER, USE, PASS}
  {
  }
}

=== FILE: raid_state.dfy ===
/** The raid-state detector: once per game tick it classifies the player's region into
    lobby / raid / room, keeps "in raid" alive for up to three ticks after the raw
    signal drops, and publishes a change event only when the state actually changes. */
module Raid {
  import opened Common

  /** The raid rooms the plugin branches on; every other room of the host's enumeration
      is `UnlistedRoom`. */
  datatype RaidRoom =
    | NEXUS | SCABARAS | KEPHRI | APMEKEN | BABA | CRONDIS | ZEBAK | HET | AKKHA
    | WARDEN_P2 | WARDEN_P3 | TOMB | UnlistedRoom(ordinal: nat)

  datatype RaidState = RaidState(inLobby: bool, inRaid: bool, currentRoom: Option<RaidRoom>)

  const REGION_LOBBY: int := 13454
  const WIDGET_PARENT_ID: int := 481
  const WIDGET_CHILD_ID: int := 40
  const RAID_LEAVE_TICKS: int := 3

  datatype Tracker = Tracker(currentState: RaidState, raidLeaveTicks: int)

  /** The published (previous, new) pair. */
  datatype RaidStateChanged = RaidStateChanged(previous: RaidState, current: RaidState)

  const InitialTracker := Tracker(RaidState(false, false, None), RAID_LEAVE_TICKS)

  /** One game tick. `region` is the player's instance region (None when the player has no
      local point), `fromRegionId` the host's room lookup, and `raidWidgetHidden` the
      hidden flag of the raid widget (None when the client has no such widget). */
  function OnGameTick(t: Tracker, region: Option<int>, fromRegionId: int -> Option<RaidRoom>,
                      raidWidgetHidden: Option<bool>): (r: (Tracker, Option<RaidStateChanged>))
    ensures var regionId := if region.None? then -1 else region.value;
      r.0.raidLeaveTicks == (if fromRegionId(regionId).Some? || raidWidgetHidden == Some(false)
                             then RAID_LEAVE_TICKS else t.raidLeaveTicks - 1)
    ensures var s := RaidState(region == Some(REGION_LOBBY),
                               r.0.raidLeaveTicks > 0,
                               fromRegionId(if region.None? then -1 else region.value));
      (r.1.Some? <==> s != t.currentState) && r.0.currentState == s &&
      (r.1.Some? ==> r.1.value == RaidStateChanged(t.currentState, s))
  {
    var regionId := if region.None? then -1 else region.value;
    var inLobby := regionId == REGION_LOBBY;
    var currentRoom := fromRegionId(regionId);
    var inRaidRaw := currentRoom.Some? || (raidWidgetHidden.Some? && !raidWidgetHidden.value);
    var leave := if inRaidRaw then RAID_LEAVE_TICKS else t.raidLeaveTicks - 1;
    var newState := RaidState(inLobby, leave > 0, currentRoom);
    if t.currentState != newState then
      (Tracker(newState, leave), Some(RaidStateChanged(t.currentState, newState)))
    else
      (Tracker(t.currentState, leave), None)
  }

  /** `getCurrentRoom`. */
  function CurrentRoom(t: Tracker): (room: Option<RaidRoom>)
    ensures room == t.currentState.currentRoom
  {
    t.currentState.currentRoom
  }

  /** A tick's observation, for traces. */
  datatype Observation = Observation(region: Option<int>, raidWidgetHidden: Option<bool>)

  function Run(t: Tracker, fromRegionId: int -> Option<RaidRoom>, obs: seq<Observation>): Tracker
    decreases |obs|
  {
    if |obs| == 0 then t
    else Run(OnGameTick(t, obs[0].region, fromRegionId, obs[0].raidWidgetHidden).0, fromRegionId, obs[1..])
  }

  predicate RawInRaid(fromRegionId: int -> Option<RaidRoom>, o: Observation) {
    fromRegionId(if o.region.None? then -1 else o.region.value).Some? || o.raidWidgetHidden == Some(false)
  }

  /** After a non-empty run the current room is the host's room for the last tick's
      region, whatever came before: the room has no hysteresis. */
  lemma {:induction false} CurrentRoomIsLastRegion(t: Tracker, fromRegionId: int -> Option<RaidRoom>, obs: seq<Observation>)
    requires |obs| > 0
    ensures var last := obs[|obs| - 1];
      CurrentRoom(Run(t, fromRegionId, obs)) == fromRegionId(if last.region.None? then -1 else last.region.value)
    decreases |obs|
  {
    if |obs| > 1 {
      CurrentRoomIsLastRegion(OnGameTick(t, obs[0].region, fromRegionId, obs[0].raidWidgetHidden).0,
                              fromRegionId, obs[1..]);
      assert obs[1..][|obs[1..]| - 1] == obs[|obs| - 1];
    }
  }

  /** Hysteresis: after `k` consecutive raw-false ticks the counter has dropped by exactly
      `k`, with no floor. */
  lemma {:induction false} LeaveCounterFalls(t: Tracker, fromRegionId: int -> Option<RaidRoom>, obs: seq<Observation>)
    requires forall i :: 0 <= i < |obs| ==> !RawInRaid(fromRegionId, obs[i])
    ensures Run(t, fromRegionId, obs).raidLeaveTicks == t.raidLeaveTicks - |obs|
    decreases |obs|
  {
    if |obs| > 0 {
      LeaveCounterFalls(OnGameTick(t, obs[0].region, fromRegionId, obs[0].raidWidgetHidden).0,
                        fromRegionId, obs[1..]);
    }
  }

  /** A raw-true tick followed by up to two raw-false ticks still reports in-raid; the
      third consecutive raw-false tick reports leaving. */
  lemma LeaveAfterExactlyThree(t: Tracker, fromRegionId: int -> Option<RaidRoom>, on: Observation, offs: seq<Observation>)
    requires RawInRaid(fromRegionId, on)
    requires forall i :: 0 <= i < |offs| ==> !RawInRaid(fromRegionId, offs[i])
    ensures Run(t, fromRegionId, [on] + offs).currentState.inRaid <==> |offs| < 3
  {
    var t1 := OnGameTick(t, on.region, fromRegionId, on.raidWidgetHidden).0;
    assert ([on] + offs)[1..] == offs;
    LeaveCounterFalls(t1, fromRegionId, offs);
    StateTracksCounter(t, fromRegionId, [on] + offs);
  }

  /** After any non-empty run the stored in-raid flag agrees with the counter. */
  lemma {:induction false} StateTracksCounter(t: Tracker, fromRegionId: int -> Option<RaidRoom>, obs: seq<Observation>)
    requires |obs| > 0
    ensures Run(t, fromRegionId, obs).currentState.inRaid <==> Run(t, fromRegionId, obs).raidLeaveTicks > 0
    decreases |obs|
  {
    if |obs| > 1 {
      StateTracksCounter(OnGameTick(t, obs[0].region, fromRegionId, obs[0].raidWidgetHidden).0,
                         fromRegionId, obs[1..]);
    }
  }

  /** From the initial tracker, the first two ticks report in-raid even with no raw
      signal; the third does not. */
  lemma InitialGrace(fromRegionId: int -> Option<RaidRoom>, obs: seq<Observation>)
    requires 1 <= |obs| <= 3
    requires forall i :: 0 <= i < |obs| ==> !RawInRaid(fromRegionId, obs[i])
    ensures Run(InitialTracker, fromRegionId, obs).currentState.inRaid <==> |obs| <= 2
  {
    LeaveCounterFalls(InitialTracker, fromRegionId, obs);
    StateTracksCounter(InitialTracker, fromRegionId, obs);
  }

  /** A missing local point is region -1, which is never the lobby. */
  lemma NoLocalPointIsNotLobby(t: Tracker, fromRegionId: int -> Option<RaidRoom>, hidden: Option<bool>)
    ensures !OnGameTick(t, None, fromRegionId, hidden).0.currentState.inLobby
    ensures OnGameTick(t, None, fromRegionId, hidden).0.currentState.currentRoom == fromRegionId(-1)
  {
  }

  /** Publishing is change-only: while a raw-true signal pins the counter, repeating an
      observation posts no second event. */
  lemma NoRepeatedEvent(t: Tracker, region: Option<int>, fromRegionId: int -> Option<RaidRoom>, hidden: Option<bool>)
    requires fromRegionId(if region.None? then -1 else region.value).Some? || hidden == Some(false)
    ensures var t1 := OnGameTick(t, region, fromRegionId, hidden).0;
      OnGameTick(t1, region, fromRegionId, hidden).1.None?
  {
  }
}

=== FILE: scabaras_light.dfy ===
/** The Scabaras light puzzle: eight lights around a 3x3 grid (the centre has none)
    are read into a bit mask, and the tiles to step on come from XOR-ing one fixed row
    per light that is off. */
module ScabarasLight {
  import opened Common
  import opened Raid

  const GROUND_OBJECT_LIGHT_BACKGROUND: int := 45344
  const GAME_OBJECT_LIGHT_ENABLED: int := 45384

  /** The scene tiles where the puzzle's north-west corner may be, tried in order. */
  const SCENE_COORD_STARTS: seq<Point> := [Point(36, 56), Point(36, 44), Point(53, 56), Point(53, 44)]

  /** Row `i` is the mask of tiles to step on when light `i` alone is off. */
  const LIGHTS_PUZZLE_XOR_ARRAY: seq<int> := [0x75, 0xBA, 0xCD, 0xCE, 0x73, 0xB3, 0x5D, 0xAE]

  /** An 8-bit mask is represented by the set of its 1-bits: bit `i` is set iff `i` is
      in the set, so `^` is symmetric difference and `~` is the complement in 0..7. */
  type Mask = set<nat>

  predicate IsMask(m: Mask) {
    forall i :: i in m ==> i < 8
  }

  const ALL_BITS: Mask := {0, 1, 2, 3, 4, 5, 6, 7}

  /** The 1-bits of `n` from position `j` on (`n` already shifted right by `j`). */
  function BitsFrom(n: nat, j: nat): (m: Mask)
    requires j <= 8
    ensures forall i :: i in m ==> j <= i < 8
    decreases 8 - j
  {
    if j == 8 then {} else (if n % 2 == 1 then {j} else {}) + BitsFrom(n / 2, j + 1)
  }

  /** The 1-bits of the low byte of `n`. */
  function BitsOf(n: nat): (m: Mask)
    ensures IsMask(m)
  {
    BitsFrom(n, 0)
  }

  /** `a ^ b` on masks. */
  function Xor(a: Mask, b: Mask): (r: Mask)
    ensures forall i :: i in r <==> (i in a) != (i in b)
  {
    (a - b) + (b - a)
  }

  /** Row `i` of the table as a mask. */
  function Row(i: nat): (m: Mask)
    requires i < 8
    ensures IsMask(m)
  {
    BitsOf(LIGHTS_PUZZLE_XOR_ARRAY[i])
  }

  /** The grid cell of light `i`: the centre cell 4 is skipped. */
  function CellIndex(i: nat): (c: nat)
    requires i < 8
    ensures c < 9 && c != 4
    ensures i <= 3 ==> c == i
    ensures i >= 4 ==> c == i + 1
  {
    if i > 3 then i + 1 else i
  }

  /** Lights and non-centre cells correspond one to one. */
  lemma CellIndexBijective(c: nat)
    requires c < 9 && c != 4
    ensures exists i :: 0 <= i < 8 && CellIndex(i) == c
    ensures forall i, j :: 0 <= i < 8 && 0 <= j < 8 && CellIndex(i) == CellIndex(j) ==> i == j
  {
    if c < 4 {
      assert CellIndex(c) == c;
    } else {
      assert CellIndex(c - 1) == c;
    }
  }

  /** The scene tile of light `i`: two tiles apart, eastwards and southwards from the
      north-west corner. */
  function LightPoint(topLeft: Point, i: nat): (p: Point)
    requires i < 8
    ensures var c := CellIndex(i);
      p == Point(topLeft.x + 2 * (c % 3), topLeft.y - 2 * (c / 3))
    ensures p != Point(topLeft.x + 2, topLeft.y - 2)
  {
    var c := CellIndex(i);
    Point(topLeft.x + (c % 3) * 2, topLeft.y - (c / 3) * 2)
  }

  /** Different lights sit on different tiles. */
  lemma LightPointInjective(topLeft: Point, i: nat, j: nat)
    requires i < 8 && j < 8 && LightPoint(topLeft, i) == LightPoint(topLeft, j)
    ensures i == j
  {
    var ci, cj := CellIndex(i), CellIndex(j);
    assert ci % 3 == cj % 3 && ci / 3 == cj / 3;
    assert ci == 3 * (ci / 3) + ci % 3;
    assert cj == 3 * (cj / 3) + cj % 3;
  }

  /** The XOR of the rows of the lights from `i` on that are in `m`. */
  function RowsOf(m: Mask, i: nat): (x: Mask)
    requires i <= 8
    ensures IsMask(x)
    decreases 8 - i
  {
    if i == 8 then {} else Xor(Pick(m, i), RowsOf(m, i + 1))
  }

  /** Row `i` if bit `i` of `m` is set, else nothing. */
  function Pick(m: Mask, i: nat): (x: Mask)
    requires i < 8
    ensures IsMask(x)
  {
    if i in m then Row(i) else {}
  }

  /** `findSolution`'s mask: the XOR of the rows of the lights that are off. */
  function SolutionMask(lit: Mask): (x: Mask)
    ensures IsMask(x)
    ensures x == RowsOf(ALL_BITS - lit, 0)
  {
    SolutionFrom(lit, 0)
  }

  /** The loop of `findSolution` from bit `i` on. */
  function SolutionFrom(lit: Mask, i: nat): (x: Mask)
    requires i <= 8
    ensures x == RowsOf(ALL_BITS - lit, i)
    decreases 8 - i
  {
    if i == 8 then {}
    else
      var rest := SolutionFrom(lit, i + 1);
      if i !in lit then Xor(Row(i), rest) else rest
  }

  /** XOR-linearity: two states' solutions differ by exactly the rows of the lights in
      which the states differ. */
  lemma {:induction false} RowsLinear(a: Mask, b: Mask, i: nat)
    requires i <= 8
    ensures Xor(RowsOf(a, i), RowsOf(b, i)) == RowsOf(Xor(a, b), i)
    decreases 8 - i
  {
    if i < 8 {
      RowsLinear(a, b, i + 1);
      assert Pick(Xor(a, b), i) == Xor(Pick(a, i), Pick(b, i));
    }
  }

  lemma SolutionLinear(s1: Mask, s2: Mask)
    ensures Xor(SolutionMask(s1), SolutionMask(s2)) == RowsOf(Xor(s1, s2) * ALL_BITS, 0)
  {
    RowsLinear(ALL_BITS - s1, ALL_BITS - s2, 0);
    assert Xor(ALL_BITS - s1, ALL_BITS - s2) == Xor(s1, s2) * ALL_BITS;
  }

  /** All eight lights on: nothing to step on. */
  lemma AllLitNoFlips()
    ensures SolutionMask(ALL_BITS) == {}
  {
    RowsNone(0);
  }

  lemma {:induction false} RowsNone(i: nat)
    requires i <= 8
    ensures RowsOf({}, i) == {}
    decreases 8 - i
  {
    if i < 8 {
      RowsNone(i + 1);
    }
  }

  /** A single light off: step on exactly that light's row. */
  lemma OneLightOff(k: nat)
    requires k < 8
    ensures SolutionMask(ALL_BITS - {k}) == Row(k)
  {
    assert ALL_BITS - (ALL_BITS - {k}) == {k};
    RowsSingle(k, 0);
  }

  lemma {:induction false} RowsSingle(k: nat, i: nat)
    requires k < 8 && i <= 8
    ensures RowsOf({k}, i) == if i <= k then Row(k) else {}
    decreases 8 - i
  {
    if i < 8 {
      RowsSingle(k, i + 1);
    }
  }

  /** `readTileStates`: the lights that are on. `lightOn` is the host's test for the
      enabled-light object on a scene tile. */
  function ReadTileStates(topLeft: Point, lightOn: Point -> bool): (lit: Mask)
    ensures IsMask(lit)
    ensures forall i :: 0 <= i < 8 ==> (i in lit <==> lightOn(LightPoint(topLeft, i)))
  {
    set i: nat | i < 8 && lightOn(LightPoint(topLeft, i))
  }

  /** The tiles of the lights in `m` from `i` on, in bit order. */
  function FlipList(topLeft: Point, m: Mask, i: nat): (r: seq<Point>)
    requires i <= 8
    ensures |r| <= 8 - i
    ensures forall p :: p in r <==> exists j :: i <= j < 8 && j in m && p == LightPoint(topLeft, j)
    ensures forall a, b :: 0 <= a < b < |r| ==> r[a] != r[b]
    decreases 8 - i
  {
    if i == 8 then []
    else
      var rest := FlipList(topLeft, m, i + 1);
      if i in m then
        FreshPoint(topLeft, m, i, rest);
        [LightPoint(topLeft, i)] + rest
      else rest
  }

  /** Light `i`'s tile is not among the later lights' tiles. */
  lemma FreshPoint(topLeft: Point, m: Mask, i: nat, rest: seq<Point>)
    requires i < 8
    requires forall p :: p in rest <==> exists j :: i + 1 <= j < 8 && j in m && p == LightPoint(topLeft, j)
    ensures LightPoint(topLeft, i) !in rest
  {
    if LightPoint(topLeft, i) in rest {
      var j :| i + 1 <= j < 8 && j in m && LightPoint(topLeft, i) == LightPoint(topLeft, j);
      LightPointInjective(topLeft, i, j);
    }
  }

  /** `findSolution`: the tiles to step on, one per bit of the solution mask. */
  function FindSolution(topLeft: Point, lit: Mask): (flips: set<Point>)
    ensures |flips| <= 8
    ensures forall i :: 0 <= i < 8 ==> (LightPoint(topLeft, i) in flips <==> i in SolutionMask(lit))
    ensures forall p :: p in flips ==> exists i :: 0 <= i < 8 && p == LightPoint(topLeft, i)
  {
    FlipSet(topLeft, SolutionMask(lit))
  }

  /** The tiles of the lights in `m`. */
  function FlipSet(topLeft: Point, m: Mask): (flips: set<Point>)
    ensures |flips| <= 8
    ensures forall i :: 0 <= i < 8 ==> (LightPoint(topLeft, i) in flips <==> i in m)
    ensures forall p :: p in flips ==> exists i :: 0 <= i < 8 && p == LightPoint(topLeft, i)
  {
    var l := FlipList(topLeft, m, 0);
    DistinctCard(l);
    ListMembers(topLeft, m, l);
    set p | p in l
  }

  lemma ListMembers(topLeft: Point, m: Mask, l: seq<Point>)
    requires forall p :: p in l <==> exists j :: 0 <= j < 8 && j in m && p == LightPoint(topLeft, j)
    ensures forall i :: 0 <= i < 8 ==> (LightPoint(topLeft, i) in l <==> i in m)
  {
    forall i | 0 <= i < 8 && LightPoint(topLeft, i) in l
      ensures i in m
    {
      var j :| 0 <= j < 8 && j in m && LightPoint(topLeft, i) == LightPoint(topLeft, j);
      LightPointInjective(topLeft, i, j);
    }
  }


  /** `findStartTile`: the first candidate corner whose tile holds the puzzle's
      background; `isBackground` is the host's ground-object test. */
  function FindStartTile(isBackground: Point -> bool): (r: Option<Point>)
    ensures r.None? <==> forall k :: 0 <= k < 4 ==> !isBackground(SCENE_COORD_STARTS[k])
    ensures r.Some? ==> exists k :: 0 <= k < 4 && r.value == SCENE_COORD_STARTS[k] && isBackground(r.value) &&
                          forall j :: 0 <= j < k ==> !isBackground(SCENE_COORD_STARTS[j])
  {
    var k := FirstBackground(isBackground, 0);
    if k == 4 then None else Some(SCENE_COORD_STARTS[k])
  }

  /** The index of the first candidate from `i` on that holds the background, or 4. */
  function FirstBackground(isBackground: Point -> bool, i: nat): (k: nat)
    requires i <= 4
    ensures i <= k <= 4
    ensures k < 4 ==> isBackground(SCENE_COORD_STARTS[k])
    ensures forall j :: i <= j < k ==> !isBackground(SCENE_COORD_STARTS[j])
    decreases 4 - i
  {
    if i == 4 then 4
    else if isBackground(SCENE_COORD_STARTS[i]) then i
    else FirstBackground(isBackground, i + 1)
  }

  /** `tileStates` is -1 (here `None`) until the first successful read. */
  datatype LightPuzzle = LightPuzzle(solved: bool, tileStates: Option<Mask>, flips: set<Point>)

  const Initial := LightPuzzle(false, None, {})

  predicate IsEnabled(s: RaidState, lightPuzzleConfig: bool) {
    s.currentRoom == Some(SCABARAS) && lightPuzzleConfig
  }

  /** `solve`: marks the puzzle solved; without a start tile the previous reading and
      flips stay. */
  function Solve(p: LightPuzzle, isBackground: Point -> bool, lightOn: Point -> bool): (r: LightPuzzle)
    ensures r.solved
    ensures FindStartTile(isBackground).None? ==> r == p.(solved := true)
    ensures FindStartTile(isBackground).Some? ==>
              var tl := FindStartTile(isBackground).value;
              r.tileStates == Some(ReadTileStates(tl, lightOn)) &&
              r.flips == FindSolution(tl, ReadTileStates(tl, lightOn))
  {
    match FindStartTile(isBackground)
    case None => p.(solved := true)
    case Some(tl) =>
      var states := ReadTileStates(tl, lightOn);
      LightPuzzle(true, Some(states), FindSolution(tl, states))
  }

  /** `startUp`: always solves afresh, even when `p` is already solved (where
      `OnGameTick` would leave it alone). */
  function StartUp(p: LightPuzzle, isBackground: Point -> bool, lightOn: Point -> bool): (r: LightPuzzle)
    ensures r == Solve(p.(solved := false), isBackground, lightOn)
    ensures r.solved
    ensures FindStartTile(isBackground).None? ==> r == p.(solved := true)
    ensures FindStartTile(isBackground).Some? ==>
              var tl := FindStartTile(isBackground).value;
              r.tileStates == Some(ReadTileStates(tl, lightOn)) &&
              r.flips == FindSolution(tl, ReadTileStates(tl, lightOn))
  {
    Solve(p.(solved := false), isBackground, lightOn)
  }

  /** A light object appearing or disappearing asks for a new solution. */
  function OnLightObjectChanged(p: LightPuzzle, id: int): (r: LightPuzzle)
    ensures id == GAME_OBJECT_LIGHT_ENABLED ==> !r.solved && r.flips == p.flips
    ensures id != GAME_OBJECT_LIGHT_ENABLED ==> r == p
  {
    if id == GAME_OBJECT_LIGHT_ENABLED then p.(solved := false) else p
  }

  /** `onGameTick`: solve when asked to. */
  function OnGameTick(p: LightPuzzle, isBackground: Point -> bool, lightOn: Point -> bool): (r: LightPuzzle)
    ensures p.solved ==> r == p
    ensures !p.solved ==> r == Solve(p, isBackground, lightOn)
  {
    if p.solved then p else Solve(p, isBackground, lightOn)
  }

  /** Once solved, ticks leave the solution alone until a light changes. */
  lemma SolvedIsStable(p: LightPuzzle, isBackground: Point -> bool, lightOn: Point -> bool)
    ensures var r := OnGameTick(p, isBackground, lightOn);
      OnGameTick(r, isBackground, lightOn) == r
  {
  }
}

=== FILE: scabaras_matching.dfy ===
/** The Scabaras matching puzzle: which face-up tile ids are showing, and which
    face-down tiles lie where. */
module ScabarasMatching {
  import opened Common
  import opened Raid

  const UP_TILE_IDS: set<int> := {45365, 45366, 45367, 45368, 45369, 45370, 45371, 45372, 45373}
  const DOWN_TILE_IDS: set<int> := {45356, 45357, 45358, 45359, 45360, 45361, 45362, 45363, 45364}

  /** Each face-up tile id and the id of the same symbol face down. */
  const UP_TO_DOWN: map<int, int> := map[
    45365 := 45356, 45366 := 45357, 45367 := 45358, 45368 := 45359, 45369 := 45360,
    45370 := 45361, 45371 := 45362, 45372 := 45363, 45373 := 45364]

  const MESSAGE_FAILED: string := "Your party failed to complete the challenge"
  const MESSAGE_COMPLETE: string := "Challenge complete"

  /** `upToDown` pairs every up id with the down id nine lower, and its values are
      exactly the down ids, each hit once. */
  lemma UpToDownBijection()
    ensures UP_TO_DOWN.Keys == UP_TILE_IDS
    ensures forall u :: u in UP_TO_DOWN ==> UP_TO_DOWN[u] == u - 9 && UP_TO_DOWN[u] in DOWN_TILE_IDS
    ensures forall d :: d in DOWN_TILE_IDS ==> exists u :: u in UP_TO_DOWN && UP_TO_DOWN[u] == d
    ensures forall u, v :: u in UP_TO_DOWN && v in UP_TO_DOWN && UP_TO_DOWN[u] == UP_TO_DOWN[v] ==> u == v
  {
    forall d | d in DOWN_TILE_IDS
      ensures exists u :: u in UP_TO_DOWN && UP_TO_DOWN[u] == d
    {
      assert d + 9 in UP_TO_DOWN;
    }
  }

  /** `downTiles` maps each face-down tile object to its id. */
  datatype Matching = Matching(upTiles: set<int>, downTiles: map<Handle, int>)

  const Empty := Matching({}, map[])

  predicate IsEnabled(s: RaidState, matchingPuzzleConfig: bool) {
    s.currentRoom == Some(SCABARAS) && matchingPuzzleConfig
  }

  /** Only up ids are showing and only down ids are stored. */
  predicate Valid(m: Matching) {
    m.upTiles <= UP_TILE_IDS && forall h :: h in m.downTiles ==> m.downTiles[h] in DOWN_TILE_IDS
  }

  /** `onGroundObjectSpawned`: an up tile toggles, a down tile is stored by object. */
  function OnGroundObjectSpawned(m: Matching, obj: Handle, id: int): (r: Matching)
    ensures id in UP_TILE_IDS ==>
              r.downTiles == m.downTiles &&
              (id in r.upTiles <==> id !in m.upTiles) && r.upTiles - {id} == m.upTiles - {id}
    ensures id in DOWN_TILE_IDS ==> r == m.(downTiles := m.downTiles[obj := id])
    ensures id !in UP_TILE_IDS && id !in DOWN_TILE_IDS ==> r == m
    ensures Valid(m) ==> Valid(r)
  {
    if id in UP_TILE_IDS then
      m.(upTiles := if id in m.upTiles then m.upTiles - {id} else m.upTiles + {id})
    else if id in DOWN_TILE_IDS then
      m.(downTiles := m.downTiles[obj := id])
    else m
  }

  /** `onGroundObjectDespawned`: an up id stops showing, a down tile object is forgotten. */
  function OnGroundObjectDespawned(m: Matching, obj: Handle, id: int): (r: Matching)
    ensures id in UP_TILE_IDS ==> r == m.(upTiles := m.upTiles - {id})
    ensures id in DOWN_TILE_IDS ==>
              r.upTiles == m.upTiles && obj !in r.downTiles &&
              forall h :: h != obj ==>
                (h in r.downTiles <==> h in m.downTiles) && (h in r.downTiles ==> r.downTiles[h] == m.downTiles[h])
    ensures id !in UP_TILE_IDS && id !in DOWN_TILE_IDS ==> r == m
    ensures Valid(m) ==> Valid(r)
  {
    if id in UP_TILE_IDS then m.(upTiles := m.upTiles - {id})
    else if id in DOWN_TILE_IDS then m.(downTiles := m.downTiles - {obj})
    else m
  }

  /** `onChatMessage`: a failed or completed challenge forgets everything. */
  function OnChatMessage(m: Matching, message: string): (r: Matching)
    ensures StartsWith(message, MESSAGE_FAILED) || StartsWith(message, MESSAGE_COMPLETE) ==> r == Empty
    ensures !StartsWith(message, MESSAGE_FAILED) && !StartsWith(message, MESSAGE_COMPLETE) ==> r == m
  {
    if StartsWith(message, MESSAGE_FAILED) || StartsWith(message, MESSAGE_COMPLETE) then Empty else m
  }

  /** `shutDown`: both collections are cleared. */
  function ShutDown(m: Matching): (r: Matching)
    ensures r.upTiles == {} && r.downTiles == map[]
  {
    Empty
  }

  /** Spawning the same up tile twice restores the set, whatever it held. */
  lemma ToggleTwice(m: Matching, obj1: Handle, obj2: Handle, id: int)
    requires id in UP_TILE_IDS
    ensures OnGroundObjectSpawned(OnGroundObjectSpawned(m, obj1, id), obj2, id) == m
  {
    var m1 := OnGroundObjectSpawned(m, obj1, id);
    var m2 := OnGroundObjectSpawned(m1, obj2, id);
    assert m2.upTiles == m.upTiles by {
      forall t ensures t in m2.upTiles <==> t in m.upTiles {
        if t != id {
          assert t in m2.upTiles - {id} <==> t in m1.upTiles - {id};
        }
      }
    }
  }

  /** Down tiles spawned and despawned by the same object leave no trace of it. */
  lemma DownRoundTrip(m: Matching, obj: Handle, id: int)
    requires id in DOWN_TILE_IDS && obj !in m.downTiles
    ensures OnGroundObjectDespawned(OnGroundObjectSpawned(m, obj, id), obj, id) == m
  {
    assert m.downTiles[obj := id] - {obj} == m.downTiles;
  }
}

=== FILE: scabaras_obelisk.dfy ===
/** The Scabaras obelisk puzzle: the order in which obelisks were activated, how many are
    active, which entrance an obelisk's quadrant belongs to, and the falling rocks. */
module ScabarasObelisk {
  import opened Common
  import opened Raid

  const OBELISK_ID_INACTIVE: int := 11698
  const OBELISK_ID_ACTIVE: int := 11699
  const GRAPHICS_OBJECT_ID_FALLING_ROCKS: int := 317
  const GAME_OBJECT_ID_ENTRANCE: int := 45135
  const SCENE_X: int := 46
  const SCENE_Y: int := 51
  const MESSAGE_FAILED: string := "Your party failed to complete the challenge"

  datatype Obelisk = Obelisk(
    obeliskOrder: seq<Point>,
    fallingRocks: seq<Handle>,
    activeObelisks: int,
    northEntrance: Option<Handle>,
    southEntrance: Option<Handle>,
    entranceTile: Option<Handle>)

  const Initial := Obelisk([], [], 0, None, None, None)

  predicate IsEnabled(s: RaidState, obeliskPuzzleConfig: bool) {
    s.currentRoom == Some(SCABARAS) && obeliskPuzzleConfig
  }

  predicate NoDuplicates(s: seq<Point>) {
    forall i, j :: 0 <= i < j < |s| ==> s[i] != s[j]
  }

  /** `startUp`: the count and the order start afresh. */
  function StartUp(o: Obelisk): (r: Obelisk)
    ensures r.activeObelisks == 0 && r.obeliskOrder == []
    ensures r.fallingRocks == o.fallingRocks && r.entranceTile == o.entranceTile
  {
    o.(activeObelisks := 0, obeliskOrder := [])
  }

  /** `onNpcChanged`: an obelisk turning active is appended to the order the first time
      its tile is seen and counts one more; an obelisk turning inactive zeroes the count. */
  function OnNpcChanged(o: Obelisk, id: int, location: Point): (r: Obelisk)
    ensures id == OBELISK_ID_ACTIVE ==>
              r.activeObelisks == o.activeObelisks + 1 &&
              r.obeliskOrder == (if location in o.obeliskOrder then o.obeliskOrder else o.obeliskOrder + [location])
    ensures id == OBELISK_ID_INACTIVE ==> r == o.(activeObelisks := 0)
    ensures id != OBELISK_ID_ACTIVE && id != OBELISK_ID_INACTIVE ==> r == o
    ensures r.fallingRocks == o.fallingRocks && r.entranceTile == o.entranceTile
    ensures NoDuplicates(o.obeliskOrder) ==> NoDuplicates(r.obeliskOrder)
    ensures location in r.obeliskOrder || id != OBELISK_ID_ACTIVE
  {
    if id == OBELISK_ID_ACTIVE then
      var order := if location in o.obeliskOrder then o.obeliskOrder else o.obeliskOrder + [location];
      o.(obeliskOrder := order, activeObelisks := o.activeObelisks + 1)
    else if id == OBELISK_ID_INACTIVE then o.(activeObelisks := 0)
    else o
  }

  /** Which entrance serves an obelisk at scene tile (`sceneX`, `sceneY`): the north one
      in the north-east and south-west quadrants, the south one otherwise. */
  function EntranceFor(o: Obelisk, sceneX: int, sceneY: int): (e: Option<Handle>)
    ensures (sceneY >= SCENE_Y) == (sceneX >= SCENE_X) ==> e == o.northEntrance
    ensures (sceneY >= SCENE_Y) != (sceneX >= SCENE_X) ==> e == o.southEntrance
  {
    if sceneY >= SCENE_Y then
      (if sceneX >= SCENE_X then o.northEntrance else o.southEntrance)
    else
      (if sceneX >= SCENE_X then o.southEntrance else o.northEntrance)
  }

  /** `onNpcSpawned`: an inactive obelisk picks the entrance tile for its quadrant. */
  function OnNpcSpawned(o: Obelisk, id: int, sceneX: int, sceneY: int): (r: Obelisk)
    ensures id == OBELISK_ID_INACTIVE ==> r == o.(entranceTile := EntranceFor(o, sceneX, sceneY))
    ensures id != OBELISK_ID_INACTIVE ==> r == o
  {
    if id == OBELISK_ID_INACTIVE then o.(entranceTile := EntranceFor(o, sceneX, sceneY)) else o
  }

  /** `onChatMessage`: the failure message forgets the count and the order. */
  function OnChatMessage(o: Obelisk, message: string): (r: Obelisk)
    ensures StartsWith(message, MESSAGE_FAILED) ==> r == o.(activeObelisks := 0, obeliskOrder := [])
    ensures !StartsWith(message, MESSAGE_FAILED) ==> r == o
  {
    if StartsWith(message, MESSAGE_FAILED) then o.(activeObelisks := 0, obeliskOrder := []) else o
  }

  /** `onGameTick`: finished falling-rock graphics leave. */
  function OnGameTick(o: Obelisk, finished: Handle -> bool): (r: Obelisk)
    ensures forall g :: g in r.fallingRocks <==> g in o.fallingRocks && !finished(g)
    ensures r == o.(fallingRocks := r.fallingRocks)
  {
    o.(fallingRocks := Filter(o.fallingRocks, g => !finished(g)))
  }

  /** `onGraphicsObjectCreated`: falling rocks are recorded only when their highlight is
      configured. */
  function OnGraphicsObjectCreated(o: Obelisk, gfx: Handle, id: int, fallingRocksHighlight: bool): (r: Obelisk)
    ensures fallingRocksHighlight && id == GRAPHICS_OBJECT_ID_FALLING_ROCKS ==>
              r == o.(fallingRocks := o.fallingRocks + [gfx])
    ensures !fallingRocksHighlight || id != GRAPHICS_OBJECT_ID_FALLING_ROCKS ==> r == o
  {
    if fallingRocksHighlight && id == GRAPHICS_OBJECT_ID_FALLING_ROCKS then o.(fallingRocks := o.fallingRocks + [gfx])
    else o
  }

  /** `onGameObjectSpawned`: an entrance in the north half (scene y at least 51) is the
      north entrance, any other the south one. */
  function OnGameObjectSpawned(o: Obelisk, obj: Handle, id: int, sceneY: int): (r: Obelisk)
    ensures id == GAME_OBJECT_ID_ENTRANCE && sceneY >= SCENE_Y ==> r == o.(northEntrance := Some(obj))
    ensures id == GAME_OBJECT_ID_ENTRANCE && sceneY < SCENE_Y ==> r == o.(southEntrance := Some(obj))
    ensures id != GAME_OBJECT_ID_ENTRANCE ==> r == o
  {
    if id != GAME_OBJECT_ID_ENTRANCE then o
    else if sceneY >= SCENE_Y then o.(northEntrance := Some(obj))
    else o.(southEntrance := Some(obj))
  }

  /** The events that reach the puzzle in a room attempt, without the failure message. */
  datatype Event =
    | NpcChanged(id: int, location: Point)
    | NpcSpawned(id: int, sceneX: int, sceneY: int)
    | GameTick(finished: Handle -> bool)
    | GraphicsObjectCreated(gfx: Handle, gid: int, highlight: bool)
    | GameObjectSpawned(obj: Handle, oid: int, sceneY: int)

  function Step(o: Obelisk, e: Event): Obelisk {
    match e
    case NpcChanged(id, location) => OnNpcChanged(o, id, location)
    case NpcSpawned(id, x, y) => OnNpcSpawned(o, id, x, y)
    case GameTick(finished) => OnGameTick(o, finished)
    case GraphicsObjectCreated(gfx, id, highlight) => OnGraphicsObjectCreated(o, gfx, id, highlight)
    case GameObjectSpawned(obj, id, y) => OnGameObjectSpawned(o, obj, id, y)
  }

  function Run(o: Obelisk, events: seq<Event>): Obelisk
    decreases |events|
  {
    if |events| == 0 then o else Run(Step(o, events[0]), events[1..])
  }

  /** Without the failure message or a restart, the order only grows at its end and
      never repeats a tile. */
  lemma {:induction false} OrderOnlyGrows(o: Obelisk, events: seq<Event>)
    requires NoDuplicates(o.obeliskOrder)
    ensures o.obeliskOrder <= Run(o, events).obeliskOrder
    ensures NoDuplicates(Run(o, events).obeliskOrder)
    decreases |events|
  {
    if |events| > 0 {
      var o1 := Step(o, events[0]);
      assert o.obeliskOrder <= o1.obeliskOrder && NoDuplicates(o1.obeliskOrder);
      OrderOnlyGrows(o1, events[1..]);
    }
  }

  /** An obelisk that turned active stays in the order through every later event. */
  lemma ActivatedIsRecorded(o: Obelisk, location: Point, events: seq<Event>)
    requires NoDuplicates(o.obeliskOrder)
    ensures location in Run(OnNpcChanged(o, OBELISK_ID_ACTIVE, location), events).obeliskOrder
  {
    var o1 := OnNpcChanged(o, OBELISK_ID_ACTIVE, location);
    OrderOnlyGrows(o1, events);
  }
}

=== FILE: scabaras_sequence.dfy ===
/** The Scabaras sequence puzzle: the last five displayed tiles, how many of them have
    been stepped on, and the end of the puzzle (two displays on one tick). */
module ScabarasSequence {
  import opened Common
  import opened Raid

  const GROUND_OBJECT_ID: int := 45340
  const DISPLAY_GAME_OBJECT_ID: int := 45341
  const STEPPED_GAME_OBJECT_ID: int := 45342
  const GRAPHICS_OBJECT_RESET: int := 302
  const QUEUE_CAPACITY: nat := 5
  const MESSAGE_FAILED: string := "Your party failed to complete the challenge"

  /** `EvictingQueue.add`: when full, the oldest entry leaves to make room. */
  function EvictingAdd<T>(q: seq<T>, x: T): (r: seq<T>)
    requires |q| <= QUEUE_CAPACITY
    ensures |r| == Min(|q| + 1, QUEUE_CAPACITY)
    ensures |r| > 0 && r[|r| - 1] == x
    ensures |q| < QUEUE_CAPACITY ==> r == q + [x]
    ensures |q| == QUEUE_CAPACITY ==> r == q[1..] + [x]
  {
    if |q| == QUEUE_CAPACITY then q[1..] + [x] else q + [x]
  }

  /** The last `n` entries of `s` (all of them when it is shorter). */
  function LastN<T>(s: seq<T>, n: nat): (r: seq<T>)
    ensures |r| == Min(|s|, n)
  {
    if |s| <= n then s else s[|s| - n..]
  }

  /** Adding one entry at a time keeps exactly the last five entries added. */
  lemma {:induction false} KeepsLastFive<T>(q: seq<T>, xs: seq<T>)
    requires |q| <= QUEUE_CAPACITY
    ensures AddAll(q, xs) == LastN(q + xs, QUEUE_CAPACITY)
    decreases |xs|
  {
    if |xs| > 0 {
      var q1 := EvictingAdd(q, xs[0]);
      KeepsLastFive(q1, xs[1..]);
      assert AddAll(q, xs) == LastN(q1 + xs[1..], QUEUE_CAPACITY);
      if |q| == QUEUE_CAPACITY {
        assert q1 + xs[1..] == (q + xs)[1..];
        LastNOfTail(q + xs, QUEUE_CAPACITY);
      } else {
        assert q1 + xs[1..] == q + xs;
      }
    }
  }

  /** Dropping the first entry of a sequence longer than `n` keeps its last `n`. */
  lemma LastNOfTail<T>(s: seq<T>, n: nat)
    requires |s| > n
    ensures LastN(s[1..], n) == LastN(s, n)
  {
    assert s[1..][|s| - 1 - n..] == s[|s| - n..];
  }

  function AddAll<T>(q: seq<T>, xs: seq<T>): seq<T>
    requires |q| <= QUEUE_CAPACITY
    decreases |xs|
  {
    if |xs| == 0 then q else AddAll(EvictingAdd(q, xs[0]), xs[1..])
  }

  datatype Sequence = Sequence(points: seq<Point>, completedTiles: int, puzzleFinished: bool, lastDisplayTick: int)

  /** `reset`. */
  const Reset := Sequence([], 0, false, 0)

  predicate IsEnabled(s: RaidState, sequencePuzzleConfig: bool) {
    s.currentRoom == Some(SCABARAS) && sequencePuzzleConfig
  }

  predicate Valid(s: Sequence) {
    |s.points| <= QUEUE_CAPACITY
  }

  /** `onGameObjectSpawned`. While finished nothing changes. A display on the same tick
      as the previous display resets and finishes the puzzle; otherwise it queues the
      tile, stores the tick and restarts the count. A stepped tile counts one. */
  function OnGameObjectSpawned(s: Sequence, id: int, location: Point, tick: int): (r: Sequence)
    requires Valid(s)
    ensures Valid(r)
    ensures s.puzzleFinished ==> r == s
    ensures !s.puzzleFinished && id == DISPLAY_GAME_OBJECT_ID && s.lastDisplayTick == tick ==>
              r == Reset.(puzzleFinished := true)
    ensures !s.puzzleFinished && id == DISPLAY_GAME_OBJECT_ID && s.lastDisplayTick != tick ==>
              r == Sequence(EvictingAdd(s.points, location), 0, false, tick)
    ensures !s.puzzleFinished && id == STEPPED_GAME_OBJECT_ID ==> r == s.(completedTiles := s.completedTiles + 1)
    ensures id != DISPLAY_GAME_OBJECT_ID && id != STEPPED_GAME_OBJECT_ID ==> r == s
  {
    if s.puzzleFinished then s
    else if id == DISPLAY_GAME_OBJECT_ID then
      if s.lastDisplayTick == tick then Reset.(puzzleFinished := true)
      else s.(points := EvictingAdd(s.points, location), completedTiles := 0, lastDisplayTick := tick)
    else if id == STEPPED_GAME_OBJECT_ID then s.(completedTiles := s.completedTiles + 1)
    else s
  }

  /** `onGraphicsObjectCreated`: the reset graphic over the puzzle floor resets.
      `groundObjectId` is the id of the ground object on the graphic's tile, if any. */
  function OnGraphicsObjectCreated(s: Sequence, id: int, groundObjectId: Option<int>): (r: Sequence)
    ensures id == GRAPHICS_OBJECT_RESET && groundObjectId == Some(GROUND_OBJECT_ID) ==> r == Reset
    ensures id != GRAPHICS_OBJECT_RESET || groundObjectId != Some(GROUND_OBJECT_ID) ==> r == s
  {
    if id == GRAPHICS_OBJECT_RESET && groundObjectId == Some(GROUND_OBJECT_ID) then Reset else s
  }

  /** `onChatMessage`: the failure message resets. */
  function OnChatMessage(s: Sequence, message: string): (r: Sequence)
    ensures StartsWith(message, MESSAGE_FAILED) ==> r == Reset
    ensures !StartsWith(message, MESSAGE_FAILED) ==> r == s
  {
    if StartsWith(message, MESSAGE_FAILED) then Reset else s
  }

  /** `shutDown`. */
  function ShutDown(s: Sequence): (r: Sequence)
    ensures r.points == [] && r.completedTiles == 0 && !r.puzzleFinished && r.lastDisplayTick == 0
  {
    Reset
  }

  /** One game-object spawn event. */
  datatype Spawn = Spawn(id: int, location: Point, tick: int)

  function Spawns(s: Sequence, events: seq<Spawn>): Sequence
    requires Valid(s)
    decreases |events|
  {
    if |events| == 0 then s
    else Spawns(OnGameObjectSpawned(s, events[0].id, events[0].location, events[0].tick), events[1..])
  }

  /** Once finished, the puzzle ignores every spawn until something resets it. */
  lemma {:induction false} FinishedIgnoresSpawns(s: Sequence, events: seq<Spawn>)
    requires Valid(s) && s.puzzleFinished
    ensures Spawns(s, events) == s
    decreases |events|
  {
    if |events| > 0 {
      FinishedIgnoresSpawns(s, events[1..]);
    }
  }

  /** Two displays on the same tick finish the puzzle with nothing to show. */
  lemma SameTickFinishes(s: Sequence, p: Point, q: Point, tick: int)
    requires Valid(s) && !s.puzzleFinished
    ensures var s1 := OnGameObjectSpawned(s, DISPLAY_GAME_OBJECT_ID, p, tick);
      var s2 := OnGameObjectSpawned(s1, DISPLAY_GAME_OBJECT_ID, q, tick);
      s2.puzzleFinished && s2.points == [] && s2.completedTiles == 0
  {
  }

  /** After a display, stepping on `n` tiles counts `n`. */
  lemma {:induction false} StepsCount(s: Sequence, loc: Point, tick: int, n: nat)
    requires Valid(s) && !s.puzzleFinished
    ensures Spawns(s, seq(n, _ => Spawn(STEPPED_GAME_OBJECT_ID, loc, tick))).completedTiles == s.completedTiles + n
    decreases n
  {
    if n > 0 {
      var evs := seq(n, _ => Spawn(STEPPED_GAME_OBJECT_ID, loc, tick));
      var s1 := OnGameObjectSpawned(s, STEPPED_GAME_OBJECT_ID, loc, tick);
      StepsCount(s1, loc, tick, n - 1);
      assert evs[1..] == seq(n - 1, _ => Spawn(STEPPED_GAME_OBJECT_ID, loc, tick));
    }
  }
}

=== FILE: toa_utils.dfy ===
/** Pure helpers shared by the encounters: client cycles to game ticks, the hit points
    left until the next boss breakpoint, and a rectangle's corner polygon. */
module ToaUtils {
  import opened Common

  /** Game tick length (600 ms) over client tick length (20 ms), from the host. */
  const GAME_TICK_LENGTH: int := 600
  const CLIENT_TICK_LENGTH: int := 20
  const CYCLES_PER_GAME_TICK: int := GAME_TICK_LENGTH / CLIENT_TICK_LENGTH

  /** `cyclesToTicks`: whole ticks plus one, biased toward warning early. */
  function CyclesToTicks(cycles: int): (ticks: int)
  {
    JavaDiv(cycles, CYCLES_PER_GAME_TICK) + 1
  }

  /** For a non-negative cycle count the result is the `t` with
      (t - 1) ticks' worth of cycles <= cycles < t ticks' worth, so at least 1. */
  lemma CyclesToTicksBracket(cycles: int)
    requires cycles >= 0
    ensures (CyclesToTicks(cycles) - 1) * CYCLES_PER_GAME_TICK <= cycles
    ensures cycles < CyclesToTicks(cycles) * CYCLES_PER_GAME_TICK
    ensures CyclesToTicks(cycles) >= 1
  {
  }

  lemma CyclesToTicksExamples()
    ensures CYCLES_PER_GAME_TICK == 30
    ensures CyclesToTicks(0) == 1
    ensures CyclesToTicks(CYCLES_PER_GAME_TICK) == 2
    ensures CyclesToTicks(-29) == 1
  {
  }

  lemma CyclesToTicksMonotone(a: int, b: int)
    requires 0 <= a <= b
    ensures CyclesToTicks(a) <= CyclesToTicks(b)
  {
    CyclesToTicksBracket(a);
    CyclesToTicksBracket(b);
  }

  /** `getHpUntilNextBreakPoint`: distance to the first breakpoint (array order) that is
      below the current hit points, or the hit points themselves when there is none. */
  function HpUntilNextBreakPoint(breakpoints: seq<int>, currentHp: int): (r: int)
    ensures r == currentHp ||
            exists i :: 0 <= i < |breakpoints| && currentHp > breakpoints[i] && r == currentHp - breakpoints[i]
    ensures (forall i :: 0 <= i < |breakpoints| ==> currentHp <= breakpoints[i]) ==> r == currentHp
  {
    if |breakpoints| == 0 then currentHp
    else if currentHp > breakpoints[0] then currentHp - breakpoints[0]
    else HpUntilNextBreakPoint(breakpoints[1..], currentHp)
  }

  /** The result is `currentHp - b` for the first breakpoint `b` below `currentHp`. */
  lemma {:induction false} HpUntilFirstBelow(breakpoints: seq<int>, currentHp: int, i: nat)
    requires i < |breakpoints| && currentHp > breakpoints[i]
    requires forall j :: 0 <= j < i ==> currentHp <= breakpoints[j]
    ensures HpUntilNextBreakPoint(breakpoints, currentHp) == currentHp - breakpoints[i]
  {
    if i > 0 {
      HpUntilFirstBelow(breakpoints[1..], currentHp, i - 1);
    }
  }

  /** With no breakpoint below the current hit points the result is the hit points. */
  lemma {:induction false} HpUntilNoneBelow(breakpoints: seq<int>, currentHp: int)
    requires forall j :: 0 <= j < |breakpoints| ==> currentHp <= breakpoints[j]
    ensures HpUntilNextBreakPoint(breakpoints, currentHp) == currentHp
  {
    if |breakpoints| > 0 {
      HpUntilNoneBelow(breakpoints[1..], currentHp);
    }
  }

  /** With non-negative breakpoints and positive hit points the result is in 1..currentHp. */
  lemma {:induction false} HpUntilInRange(breakpoints: seq<int>, currentHp: int)
    requires currentHp > 0
    requires forall j :: 0 <= j < |breakpoints| ==> breakpoints[j] >= 0
    ensures 1 <= HpUntilNextBreakPoint(breakpoints, currentHp) <= currentHp
  {
    if |breakpoints| > 0 && currentHp <= breakpoints[0] {
      HpUntilInRange(breakpoints[1..], currentHp);
    }
  }

  predicate NonIncreasing(s: seq<int>) {
    forall i, j :: 0 <= i < j < |s| ==> s[i] >= s[j]
  }

  /** With non-increasing breakpoints (as every boss derives them) the chosen breakpoint
      is the largest one below the current hit points. */
  lemma {:induction false} HpUntilLargestBelow(breakpoints: seq<int>, currentHp: int, b: int)
    requires NonIncreasing(breakpoints)
    requires b in breakpoints && b < currentHp
    requires forall c :: c in breakpoints && c < currentHp ==> c <= b
    ensures HpUntilNextBreakPoint(breakpoints, currentHp) == currentHp - b
  {
    assert breakpoints[0] in breakpoints;
    if currentHp <= breakpoints[0] {
      assert b in breakpoints[1..];
      forall c | c in breakpoints[1..] && c < currentHp
        ensures c <= b
      {
        assert c in breakpoints;
      }
      HpUntilLargestBelow(breakpoints[1..], currentHp, b);
    } else {
      var k :| 0 <= k < |breakpoints| && breakpoints[k] == b;
      assert breakpoints[0] >= breakpoints[k];
    }
  }

  /** The breakpoints `(int) (fraction * maxHp)` for fractions given in hundredths. */
  function DeriveBreakpoints(percents: seq<int>, maxHp: int): (r: seq<int>)
    ensures |r| == |percents|
    ensures forall i :: 0 <= i < |r| ==> r[i] * 100 <= maxHp * percents[i] < r[i] * 100 + 100 || maxHp * percents[i] < 0
  {
    if |percents| == 0 then []
    else [JavaDiv(maxHp * percents[0], 100)] + DeriveBreakpoints(percents[1..], maxHp)
  }

  /** Descending fractions of a positive maximum give non-increasing, non-negative breakpoints. */
  lemma DerivedBreakpointsNonIncreasing(percents: seq<int>, maxHp: int)
    requires maxHp > 0
    requires forall i :: 0 <= i < |percents| ==> percents[i] >= 0
    requires NonIncreasing(percents)
    ensures NonIncreasing(DeriveBreakpoints(percents, maxHp))
    ensures forall i :: 0 <= i < |percents| ==> DeriveBreakpoints(percents, maxHp)[i] >= 0
  {
    var r := DeriveBreakpoints(percents, maxHp);
    forall i | 0 <= i < |r|
      ensures r[i] >= 0
    {
      MulMonotone(maxHp, 0, percents[i]);
    }
    forall i, j | 0 <= i < j < |r|
      ensures r[i] >= r[j]
    {
      MulMonotone(maxHp, percents[j], percents[i]);
      MulMonotone(maxHp, 0, percents[j]);
      BracketOrder(r[i], r[j], maxHp * percents[i], maxHp * percents[j]);
    }
  }

  /** Truncated hundredths keep the order of the amounts they truncate. */
  lemma BracketOrder(x: int, y: int, a: int, b: int)
    requires x * 100 <= a < x * 100 + 100 && y * 100 <= b < y * 100 + 100 && b <= a
    ensures y <= x
  {
  }

  lemma MulMonotone(m: int, a: int, b: int)
    requires m > 0 && a <= b
    ensures m * a <= m * b
  {
  }

  /** Two points joined by a horizontal or a vertical edge of non-zero length. */
  predicate AxisStep(a: Point, b: Point) {
    (a.x == b.x) != (a.y == b.y)
  }

  /** `rectangleToPolygon`: the four corners, clockwise from the top-left in screen space. */
  function RectangleToPolygon(x: int, y: int, width: int, height: int): (corners: seq<Point>)
    ensures |corners| == 4
    ensures corners[0].x == corners[3].x == x && corners[1].x == corners[2].x == x + width
    ensures corners[0].y == corners[1].y == y && corners[2].y == corners[3].y == y + height
    ensures forall i :: 0 <= i < 4 ==> corners[i].x in {x, x + width} && corners[i].y in {y, y + height}
    ensures forall a, b :: a in {x, x + width} && b in {y, y + height} ==> Point(a, b) in corners
    ensures width != 0 && height != 0 ==> forall i, j :: 0 <= i < j < 4 ==> corners[i] != corners[j]
    ensures width != 0 && height != 0 ==>
              AxisStep(corners[0], corners[1]) && AxisStep(corners[1], corners[2]) &&
              AxisStep(corners[2], corners[3]) && AxisStep(corners[3], corners[0])
  {
    [Point(x, y), Point(x + width, y), Point(x + width, y + height), Point(x, y + height)]
  }

  /** Hit-point breakpoint tracking shared by the bosses' HP_HUD_UPDATE handlers:
      the breakpoints are derived once from the first usable maximum, then every
      positive current value refreshes the distance to the next breakpoint. */
  datatype BreakpointTracker = BreakpointTracker(breakpoints: Option<seq<int>>, hpUntilNextBreakPoint: int)

  const NoBreakpoints := BreakpointTracker(None, -1)

  function OnHpHudUpdate(t: BreakpointTracker, percents: seq<int>, maxHp: int, currentHp: int): (r: BreakpointTracker)
    ensures t.breakpoints.None? && maxHp <= 1 ==> r == t
    ensures t.breakpoints.Some? ==> r.breakpoints == t.breakpoints
    ensures t.breakpoints.None? && maxHp > 1 ==> r.breakpoints == Some(DeriveBreakpoints(percents, maxHp))
    ensures currentHp <= 0 ==> r.hpUntilNextBreakPoint == t.hpUntilNextBreakPoint
    ensures r.breakpoints.Some? && currentHp > 0 ==>
              r.hpUntilNextBreakPoint == HpUntilNextBreakPoint(r.breakpoints.value, currentHp)
  {
    if t.breakpoints.None? && maxHp <= 1 then t
    else
      var bps := if t.breakpoints.None? then DeriveBreakpoints(percents, maxHp) else t.breakpoints.value;
      if currentHp <= 0 then t.(breakpoints := Some(bps))
      else BreakpointTracker(Some(bps), HpUntilNextBreakPoint(bps, currentHp))
  }

  /** Once set, the breakpoints are frozen: a later maximum has no effect until reset. */
  lemma BreakpointsFrozen(t: BreakpointTracker, percents: seq<int>, maxHp1: int, maxHp2: int, currentHp: int)
    requires t.breakpoints.Some?
    ensures OnHpHudUpdate(t, percents, maxHp1, currentHp) == OnHpHudUpdate(t, percents, maxHp2, currentHp)
  {
  }
}

=== FILE: warden_p2.dfy ===
/** The Wardens, phase 2: skull and special projectiles aimed at the player become prayer
    hazards (one per volley, de-duplicated on the shared start-cycle stamp), lightning,
    black skulls and the core projectile are tracked separately, and a spawned core is
    timed in ticks. */
module WardenP2Boss {
  import opened Common
  import opened AttackProjectiles
  import opened HazardQueues
  import opened ToaUtils
  import opened Raid

  const ANIMATION_ID_WARDEN_STANDING_UP: int := 9672
  const PROJECTILE_ID_ARCANE_SCIMITAR: int := 2204
  const PROJECTILE_ID_WHITE_ARROW: int := 2206
  const PROJECTILE_ID_BLUE_SPELL: int := 2208
  const PROJECTILE_ID_RED_SKULL: int := 2224
  const PROJECTILE_ID_WHITE_SKULL: int := 2241
  const PROJECTILE_ID_BLACK_SKULL: int := 2210
  const PROJECTILE_ID_LIGHTNING: int := 2225
  const PROJECTILE_ID_CORE: int := 2240
  const WARDEN_SPECIAL_PROJECTILE_TICKS: int := 5

  /** The NPC id classes the component distinguishes (the host's id constants). */
  datatype NpcKind = CombatWarden | WardenCore | OtherNpc

  /** Whom a projectile is aimed at. */
  datatype Target = NoTarget | LocalPlayer | OtherActor

  /** A moving projectile as the handler sees it; `distance` is the 2-D tile distance from
      its start point to the player. */
  datatype ProjectileView = ProjectileView(handle: Handle, id: int, remainingCycles: int,
                                           startCycle: int, interacting: Target, distance: nat)

  datatype CoreTimer = CoreTimer(core: Handle, ticks: int)

  datatype WardenP2 = WardenP2(
    attackProjectiles: Queue,
    lightningProjectiles: set<Handle>,
    blackSkullProjectiles: set<Handle>,
    coreProjectile: Option<Handle>,
    coreToTicks: Option<CoreTimer>,
    npc: Option<Handle>,
    lastStartCycle: int,
    hpRemaining: int)

  const Reset := WardenP2([], {}, {}, None, None, None, 0, 0)

  predicate IsEnabled(s: RaidState) {
    s.currentRoom == Some(WARDEN_P2)
  }

  /** The five attack projectiles that share the start-cycle stamp. */
  predicate IsAttack(id: int) {
    id == PROJECTILE_ID_WHITE_SKULL || id == PROJECTILE_ID_RED_SKULL ||
    id == PROJECTILE_ID_ARCANE_SCIMITAR || id == PROJECTILE_ID_WHITE_ARROW || id == PROJECTILE_ID_BLUE_SPELL
  }

  /** `getProjectileCycles`: remaining flight plus three cycles per tile to the player. */
  function ProjectileCycles(p: ProjectileView): (c: int)
    ensures c >= p.remainingCycles
  {
    p.remainingCycles + p.distance * 3
  }

  /** The hazard an accepted attack projectile becomes. */
  function AttackFor(p: ProjectileView): (a: AttackProjectile)
    requires IsAttack(p.id)
    ensures a.priority == 0
    ensures p.id == PROJECTILE_ID_WHITE_SKULL ==> a.prayer == ProtectFromMissiles && a.ticks == CyclesToTicks(ProjectileCycles(p))
    ensures p.id == PROJECTILE_ID_RED_SKULL ==> a.prayer == ProtectFromMagic && a.ticks == CyclesToTicks(ProjectileCycles(p))
    ensures p.id == PROJECTILE_ID_ARCANE_SCIMITAR ==> a == AttackProjectile(ProtectFromMelee, 5, 0)
    ensures p.id == PROJECTILE_ID_WHITE_ARROW ==> a == AttackProjectile(ProtectFromMissiles, 5, 0)
    ensures p.id == PROJECTILE_ID_BLUE_SPELL ==> a == AttackProjectile(ProtectFromMagic, 5, 0)
  {
    if p.id == PROJECTILE_ID_WHITE_SKULL then AttackProjectile(ProtectFromMissiles, CyclesToTicks(ProjectileCycles(p)), 0)
    else if p.id == PROJECTILE_ID_RED_SKULL then AttackProjectile(ProtectFromMagic, CyclesToTicks(ProjectileCycles(p)), 0)
    else if p.id == PROJECTILE_ID_ARCANE_SCIMITAR then AttackProjectile(ProtectFromMelee, WARDEN_SPECIAL_PROJECTILE_TICKS, 0)
    else if p.id == PROJECTILE_ID_WHITE_ARROW then AttackProjectile(ProtectFromMissiles, WARDEN_SPECIAL_PROJECTILE_TICKS, 0)
    else AttackProjectile(ProtectFromMagic, WARDEN_SPECIAL_PROJECTILE_TICKS, 0)
  }

  /** `onProjectileMoved`. */
  function OnProjectileMoved(w: WardenP2, p: ProjectileView): (r: WardenP2)
    ensures p.remainingCycles <= 0 || p.interacting == OtherActor ==> r == w
    ensures r.coreToTicks == w.coreToTicks && r.npc == w.npc && r.hpRemaining == w.hpRemaining
    ensures IsAttack(p.id) && p.startCycle == w.lastStartCycle ==> r == w
    ensures IsAttack(p.id) && p.remainingCycles > 0 && p.interacting != OtherActor && p.startCycle != w.lastStartCycle ==>
              r == w.(attackProjectiles := Add(w.attackProjectiles, AttackFor(p)), lastStartCycle := p.startCycle)
    ensures !IsAttack(p.id) ==> r.attackProjectiles == w.attackProjectiles && r.lastStartCycle == w.lastStartCycle
    ensures p.remainingCycles > 0 && p.interacting != OtherActor && p.id == PROJECTILE_ID_LIGHTNING ==>
              r == w.(lightningProjectiles := w.lightningProjectiles + {p.handle})
    ensures p.remainingCycles > 0 && p.interacting != OtherActor && p.id == PROJECTILE_ID_BLACK_SKULL ==>
              r == w.(blackSkullProjectiles := w.blackSkullProjectiles + {p.handle})
    ensures p.remainingCycles > 0 && p.interacting != OtherActor && p.id == PROJECTILE_ID_CORE ==>
              r == w.(coreProjectile := Some(p.handle))
  {
    if p.remainingCycles <= 0 then w
    else if p.interacting == OtherActor then w
    else if IsAttack(p.id) then
      if p.startCycle == w.lastStartCycle then w
      else w.(attackProjectiles := Add(w.attackProjectiles, AttackFor(p)), lastStartCycle := p.startCycle)
    else if p.id == PROJECTILE_ID_LIGHTNING then w.(lightningProjectiles := w.lightningProjectiles + {p.handle})
    else if p.id == PROJECTILE_ID_BLACK_SKULL then w.(blackSkullProjectiles := w.blackSkullProjectiles + {p.handle})
    else if p.id == PROJECTILE_ID_CORE then w.(coreProjectile := Some(p.handle))
    else w
  }

  /** Every enqueued attack is due in at least one tick, and the skulls' distance term
      never makes them due sooner than their flight alone would. */
  lemma AttackTicksBounds(p: ProjectileView)
    requires IsAttack(p.id) && p.remainingCycles > 0
    ensures AttackFor(p).ticks >= 1
    ensures p.id == PROJECTILE_ID_WHITE_SKULL || p.id == PROJECTILE_ID_RED_SKULL ==>
              AttackFor(p).ticks >= CyclesToTicks(p.remainingCycles)
  {
    CyclesToTicksBracket(ProjectileCycles(p));
    CyclesToTicksMonotone(p.remainingCycles, ProjectileCycles(p));
  }

  /** One stamp for all five attacks: after an accepted attack, another attack projectile
      of any of the five kinds with the same start cycle is dropped. */
  lemma StampShared(w: WardenP2, p: ProjectileView, q: ProjectileView)
    requires IsAttack(p.id) && IsAttack(q.id) && q.startCycle == p.startCycle
    requires p.remainingCycles > 0 && p.interacting != OtherActor && p.startCycle != w.lastStartCycle
    ensures var w1 := OnProjectileMoved(w, p);
      multiset(w1.attackProjectiles) == multiset(w.attackProjectiles) + multiset{AttackFor(p)} &&
      OnProjectileMoved(w1, q) == w1
  {
  }

  /** `onGameTick`: the queue decays, landed lightning and skulls leave, a landed core
      projectile is forgotten and the core timer counts up. */
  function OnGameTick(w: WardenP2, remainingCycles: Handle -> int): (r: WardenP2)
    ensures r.attackProjectiles == Tick(w.attackProjectiles)
    ensures forall h :: h in r.lightningProjectiles <==> h in w.lightningProjectiles && remainingCycles(h) > 0
    ensures forall h :: h in r.blackSkullProjectiles <==> h in w.blackSkullProjectiles && remainingCycles(h) > 0
    ensures r.coreProjectile == (if w.coreProjectile.Some? && remainingCycles(w.coreProjectile.value) <= 0
                                 then None else w.coreProjectile)
    ensures w.coreToTicks.None? ==> r.coreToTicks.None?
    ensures w.coreToTicks.Some? ==> r.coreToTicks == Some(CoreTimer(w.coreToTicks.value.core, w.coreToTicks.value.ticks + 1))
    ensures r.npc == w.npc && r.lastStartCycle == w.lastStartCycle && r.hpRemaining == w.hpRemaining
  {
    var core := if w.coreProjectile.Some? && remainingCycles(w.coreProjectile.value) <= 0 then None else w.coreProjectile;
    var timer := match w.coreToTicks
      case None => None
      case Some(t) => Some(t.(ticks := t.ticks + 1));
    w.(attackProjectiles := Tick(w.attackProjectiles),
       lightningProjectiles := (set h | h in w.lightningProjectiles && remainingCycles(h) > 0),
       blackSkullProjectiles := (set h | h in w.blackSkullProjectiles && remainingCycles(h) > 0),
       coreProjectile := core,
       coreToTicks := timer)
  }

  /** `onNpcSpawned`: a core starts its timer at 0. */
  function OnNpcSpawned(w: WardenP2, npc: Handle, kind: NpcKind): (r: WardenP2)
    ensures kind == WardenCore ==> r == w.(coreToTicks := Some(CoreTimer(npc, 0)))
    ensures kind != WardenCore ==> r == w
  {
    if kind == WardenCore then w.(coreToTicks := Some(CoreTimer(npc, 0))) else w
  }

  /** `onNpcDespawned`: only the timed core's despawn clears the timer. */
  function OnNpcDespawned(w: WardenP2, npc: Handle): (r: WardenP2)
    ensures w.coreToTicks.Some? && w.coreToTicks.value.core == npc ==> r == w.(coreToTicks := None)
    ensures !(w.coreToTicks.Some? && w.coreToTicks.value.core == npc) ==> r == w
  {
    if w.coreToTicks.Some? && w.coreToTicks.value.core == npc then w.(coreToTicks := None) else w
  }

  /** `onNpcChanged`: a change into a combat warden form tracks that NPC. */
  function OnNpcChanged(w: WardenP2, npc: Handle, kind: NpcKind): (r: WardenP2)
    ensures kind == CombatWarden ==> r == w.(npc := Some(npc))
    ensures kind != CombatWarden ==> r == w
  {
    if kind == CombatWarden then w.(npc := Some(npc)) else w
  }

  /** The HP_HUD_UPDATE script: the damage dealt so far, when both readings are usable. */
  function OnHpHudUpdate(w: WardenP2, maxHp: int, currentHp: int): (r: WardenP2)
    ensures maxHp > 1 && currentHp > 0 ==> r == w.(hpRemaining := maxHp - currentHp)
    ensures maxHp <= 1 || currentHp <= 0 ==> r == w
  {
    if maxHp <= 1 then w
    else if currentHp <= 0 then w
    else w.(hpRemaining := maxHp - currentHp)
  }

  /** `k` game ticks. */
  function Ticks(w: WardenP2, remainingCycles: Handle -> int, k: nat): WardenP2 {
    Iterate((x: WardenP2) => OnGameTick(x, remainingCycles), w, k)
  }

  /** One tick of a core timer. */
  function TimerTick(t: Option<CoreTimer>): Option<CoreTimer> {
    match t
    case None => None
    case Some(c) => Some(CoreTimer(c.core, c.ticks + 1))
  }

  /** `k` timer ticks add `k` to a running timer. */
  lemma {:induction false} TimerTicks(c: CoreTimer, k: nat)
    ensures Iterate(TimerTick, Some(c), k) == Some(CoreTimer(c.core, c.ticks + k))
    decreases k
  {
    if k > 0 {
      TimerTicks(CoreTimer(c.core, c.ticks + 1), k - 1);
    }
  }

  /** A running core timer advances by exactly one per tick and keeps its core. */
  lemma TimerAdvances(w: WardenP2, remainingCycles: Handle -> int, k: nat)
    requires w.coreToTicks.Some?
    ensures Ticks(w, remainingCycles, k).coreToTicks ==
            Some(CoreTimer(w.coreToTicks.value.core, w.coreToTicks.value.ticks + k))
  {
    IterateProjects((x: WardenP2) => OnGameTick(x, remainingCycles), (x: WardenP2) => x.coreToTicks, TimerTick, w, k);
    TimerTicks(w.coreToTicks.value, k);
  }

  /** The core timer counts ticks since the core spawned. */
  lemma CoreTimerCounts(w: WardenP2, core: Handle, remainingCycles: Handle -> int, k: nat)
    ensures Ticks(OnNpcSpawned(w, core, WardenCore), remainingCycles, k).coreToTicks == Some(CoreTimer(core, k))
  {
    TimerAdvances(OnNpcSpawned(w, core, WardenCore), remainingCycles, k);
  }
}

=== FILE: warden_p2_overlay.dfy ===
/** The Wardens' phase-2 scene overlay: the health counter over the active warden and
    the lightning strike pattern around each lightning projectile's target, coloured by
    the ticks left before it lands. */
module WardenP2Overlay {
  import opened Common
  import opened ToaUtils
  import opened OverlayGeometry
  import opened WardenP2Boss

  /** `renderHealthCounter`: the remaining hit points over the warden, shown only while
      some remain and the tracked NPC is a combat warden that is not standing up.
      `kindOf` and `animationOf` are the host's NPC id and current animation. */
  function HealthCounter(w: WardenP2, kindOf: Handle -> NpcKind, animationOf: Handle -> int): (text: Option<int>)
    ensures text.Some? <==>
              w.hpRemaining > 0 && w.npc.Some? && kindOf(w.npc.value) == CombatWarden &&
              animationOf(w.npc.value) != ANIMATION_ID_WARDEN_STANDING_UP
    ensures text.Some? ==> text.value == w.hpRemaining && text.value > 0
  {
    if w.hpRemaining <= 0 then None
    else if w.npc.None? then None
    else if kindOf(w.npc.value) != CombatWarden || animationOf(w.npc.value) == ANIMATION_ID_WARDEN_STANDING_UP then None
    else Some(w.hpRemaining)
  }

  /** The colour of a lightning projectile with `remainingCycles` client cycles left. */
  function LightningColor(remainingCycles: int): Color {
    TickColor(CyclesToTicks(remainingCycles))
  }

  /** In cycles, the colour is red under two ticks' worth, orange for the third tick and
      yellow beyond (a negative count rounds toward zero and reads as red). */
  lemma LightningColorThresholds(remainingCycles: int)
    ensures LightningColor(remainingCycles) == RED <==> remainingCycles < 2 * CYCLES_PER_GAME_TICK
    ensures LightningColor(remainingCycles) == ORANGE <==>
              2 * CYCLES_PER_GAME_TICK <= remainingCycles < 3 * CYCLES_PER_GAME_TICK
    ensures LightningColor(remainingCycles) == YELLOW <==> remainingCycles >= 3 * CYCLES_PER_GAME_TICK
  {
    CyclesToTicksExamples();
    if remainingCycles >= 0 {
      CyclesToTicksBracket(remainingCycles);
    }
  }

  /** `renderLightningProjectileTiles`, for one projectile: the lightning pattern
      around its target, spaced by the player's world-area size. */
  function LightningTiles(width: int, height: int, target: Point): set<Point> {
    ShapeTiles(Lightning, width, height, target)
  }

  /** For a player of positive size, the tile at offset (`dx`, `dy`) is drawn exactly
      when the offset belongs to the lightning pattern, and the pattern covers 41
      distinct tiles. */
  lemma LightningTilesExact(width: int, height: int, target: Point, dx: int, dy: int)
    requires width >= 1 && height >= 1
    ensures NewLocalPoint(width, height, target, dx, dy) in LightningTiles(width, height, target) <==>
              InShape(Lightning, dx, dy)
    ensures |LightningTiles(width, height, target)| == 41
  {
    ShapeTilesMembers(Lightning, width, height, target, dx, dy);
    ShapeTilesCount(Lightning, width, height, target);
    LightningSize();
  }

  /** The strike covers the target, the four corners and the four axis tips three tiles
      out, every tile off the axes within three tiles, but none of the axis tiles one or
      two tiles from the target. */
  lemma LightningPattern()
    ensures InShape(Lightning, 0, 0)
    ensures InShape(Lightning, 3, 0) && InShape(Lightning, -3, 0) && InShape(Lightning, 0, 3) && InShape(Lightning, 0, -3)
    ensures !InShape(Lightning, 1, 0) && !InShape(Lightning, 2, 0) && !InShape(Lightning, -1, 0) && !InShape(Lightning, -2, 0)
    ensures !InShape(Lightning, 0, 1) && !InShape(Lightning, 0, 2) && !InShape(Lightning, 0, -1) && !InShape(Lightning, 0, -2)
    ensures forall dx, dy :: dx != 0 && dy != 0 && -3 <= dx <= 3 && -3 <= dy <= 3 ==> InShape(Lightning, dx, dy)
    ensures forall dx, dy :: InShape(Lightning, dx, dy) ==> -3 <= dx <= 3 && -3 <= dy <= 3
  {
  }

  /** The target tile itself is always drawn. */
  lemma TargetIsDrawn(width: int, height: int, target: Point)
    ensures target in LightningTiles(width, height, target)
  {
    assert Point(0, 0) in Offsets(Lightning);
    assert NewLocalPoint(width, height, target, 0, 0) == target;
  }
}

=== FILE: warden_p3.dfy ===
/** The Wardens, phase 3: the slam-direction cycle and the safe tile it implies, the
    phantom bosses' hazards (Zebak rocks enqueued exactly as Zebak does, Akkha's style
    prayer), and the siphon, boulder and red-lightning countdowns. */
module WardenP3Boss {
  import opened Common
  import opened AttackProjectiles
  import opened HazardQueues
  import opened ToaUtils
  import opened Countdowns
  import opened Raid
  import ZebakBoss

  const HP_PERCENT_BREAKPOINTS: seq<int> := [80, 60, 40, 20, 5]
  const POINT_RIGHT_COORD := Point(33, 36)
  const POINT_MIDDLE_COORD := Point(32, 36)
  const POINT_LEFT_COORD := Point(31, 36)
  const GRAPHICS_OBJECT_ID_RED_LIGHTNING: int := 1446
  const GRAPHICS_OBJECT_ID_FALLING_BOULDER_A: int := 2250
  const GRAPHICS_OBJECT_ID_FALLING_BOULDER_B: int := 2251
  const PROJECTILE_ID_ENERGY_SIPHON: int := 2226
  const PROJECTILE_ID_FIREBALL: int := 2266
  const ANIMATION_ID_AKKHA_RANGE: int := 9772
  const ANIMATION_ID_AKKHA_MAGIC: int := 9774
  const ANIMATION_ID_AKKHA_STYLE_SWITCH: int := 9777
  const BABA_BOULDER_TICKS: int := 7
  const RED_LIGHTNING_TICKS: int := 4
  const ENERGY_SIPHON_BASE_TICKS: int := 7

  datatype SlamDirection = RIGHT | LEFT | MIDDLE

  /** `getNextSlamDirection`. */
  function NextSlamDirection(d: SlamDirection): (n: SlamDirection)
    ensures n != d
  {
    match d
    case RIGHT => LEFT
    case LEFT => MIDDLE
    case MIDDLE => RIGHT
  }

  /** The successor visits all three directions and returns after three slams. */
  lemma SlamCycle(d: SlamDirection)
    ensures NextSlamDirection(NextSlamDirection(NextSlamDirection(d))) == d
    ensures {d, NextSlamDirection(d), NextSlamDirection(NextSlamDirection(d))} == {RIGHT, LEFT, MIDDLE}
  {
  }

  /** `SlamDirection.byAnimId`: each direction has an Elidinis and a Tumeken animation. */
  function ByAnimId(anim: int): (d: Option<SlamDirection>)
    ensures d == Some(RIGHT) <==> anim == 9674 || anim == 9675
    ensures d == Some(LEFT) <==> anim == 9676 || anim == 9677
    ensures d == Some(MIDDLE) <==> anim == 9678 || anim == 9679
  {
    if anim == 9674 || anim == 9675 then Some(RIGHT)
    else if anim == 9676 || anim == 9677 then Some(LEFT)
    else if anim == 9678 || anim == 9679 then Some(MIDDLE)
    else None
  }

  /** The region tile that is safe from the next slam: the opposite end for a side slam,
      the middle for a middle slam. */
  function SafeTileCoord(next: SlamDirection): (p: Point)
    ensures p.y == 36
    ensures next == RIGHT <==> p == POINT_LEFT_COORD
    ensures next == LEFT <==> p == POINT_RIGHT_COORD
    ensures next == MIDDLE <==> p == POINT_MIDDLE_COORD
  {
    match next
    case RIGHT => POINT_LEFT_COORD
    case LEFT => POINT_RIGHT_COORD
    case MIDDLE => POINT_MIDDLE_COORD
  }

  /** The NPC id classes the component distinguishes. */
  datatype NpcKind = Warden | WardenCharging | EnergySiphon | DeadEnergySiphon | AkkhasPhantom | OtherNpc

  /** The actor of an animation change. */
  datatype Actor = NpcActor(handle: Handle, kind: NpcKind, animation: int) | NotAnNpc

  datatype WardenP3 = WardenP3(
    warden: Option<Handle>,
    lpRight: Option<Point>,
    lpLeft: Option<Point>,
    lpMiddle: Option<Point>,
    nextSlamDirection: SlamDirection,
    attackProjectiles: Queue,
    redLightningToTicks: Countdown,
    energySiphonToTicks: Countdown,
    fallingBouldersToTicks: Countdown,
    energySiphonProjectiles: seq<Handle>,
    fireballProjectiles: seq<Handle>,
    akkhaPrayer: Option<Prayer>,
    hp: BreakpointTracker,
    drawSafeTile: bool,
    energySiphonSet: int)

  const Reset := WardenP3(None, None, None, None, RIGHT, [], map[], map[], map[], [], [], None,
                          NoBreakpoints, false, 0)

  predicate IsEnabled(s: RaidState) {
    s.currentRoom == Some(WARDEN_P3)
  }

  /** `getSafeTileLocalPoint`: the cached local point of the safe tile, computed through
      the host's instance lookup `toLocal` the first time it is asked for. */
  function SafeTileLocalPoint(w: WardenP3, toLocal: Point -> Option<Point>): (r: (WardenP3, Option<Point>))
    ensures var cached := match w.nextSlamDirection
                            case RIGHT => w.lpLeft
                            case LEFT => w.lpRight
                            case MIDDLE => w.lpMiddle;
      r.1 == (if cached.Some? then cached else toLocal(SafeTileCoord(w.nextSlamDirection)))
    ensures r.0.nextSlamDirection == w.nextSlamDirection && r.0.attackProjectiles == w.attackProjectiles
  {
    match w.nextSlamDirection
    case RIGHT =>
      var lp := if w.lpLeft.None? then toLocal(POINT_LEFT_COORD) else w.lpLeft;
      (w.(lpLeft := lp), lp)
    case LEFT =>
      var lp := if w.lpRight.None? then toLocal(POINT_RIGHT_COORD) else w.lpRight;
      (w.(lpRight := lp), lp)
    case MIDDLE =>
      var lp := if w.lpMiddle.None? then toLocal(POINT_MIDDLE_COORD) else w.lpMiddle;
      (w.(lpMiddle := lp), lp)
  }

  /** Once found, the safe tile is not looked up again: a second query answers the same
      point whatever the host lookup now says. */
  lemma SafeTileCached(w: WardenP3, toLocal: Point -> Option<Point>, later: Point -> Option<Point>)
    requires SafeTileLocalPoint(w, toLocal).1.Some?
    ensures var (w1, p) := SafeTileLocalPoint(w, toLocal);
      SafeTileLocalPoint(w1, later) == (w1, p)
  {
  }

  /** `onGameTick`. */
  function OnGameTick(w: WardenP3, remainingCycles: Handle -> int): (r: WardenP3)
    ensures r.attackProjectiles == Tick(w.attackProjectiles)
    ensures r.fallingBouldersToTicks == DecrementAndDrop(w.fallingBouldersToTicks)
    ensures r.redLightningToTicks == DecrementAndDrop(w.redLightningToTicks)
    ensures r.energySiphonToTicks == Decrement(w.energySiphonToTicks)
    ensures forall p :: p in r.energySiphonProjectiles <==> p in w.energySiphonProjectiles && remainingCycles(p) > 0
    ensures forall p :: p in r.fireballProjectiles <==> p in w.fireballProjectiles && remainingCycles(p) > 0
    ensures r.warden == w.warden && r.nextSlamDirection == w.nextSlamDirection && r.akkhaPrayer == w.akkhaPrayer
    ensures r.drawSafeTile == w.drawSafeTile && r.energySiphonSet == w.energySiphonSet && r.hp == w.hp
  {
    w.(attackProjectiles := Tick(w.attackProjectiles),
       fallingBouldersToTicks := DecrementAndDrop(w.fallingBouldersToTicks),
       redLightningToTicks := DecrementAndDrop(w.redLightningToTicks),
       energySiphonToTicks := Decrement(w.energySiphonToTicks),
       energySiphonProjectiles := Filter(w.energySiphonProjectiles, p => remainingCycles(p) > 0),
       fireballProjectiles := Filter(w.fireballProjectiles, p => remainingCycles(p) > 0))
  }

  /** The HP_HUD_UPDATE script: breakpoints at 80/60/40/20/5 percent of the maximum. */
  function OnHpHudUpdate(w: WardenP3, maxHp: int, currentHp: int): (r: WardenP3)
    ensures r == w.(hp := r.hp)
    ensures w.hp.breakpoints.None? && maxHp <= 1 ==> r == w
    ensures w.hp.breakpoints.None? && maxHp > 1 ==> r.hp.breakpoints == Some(DeriveBreakpoints([80, 60, 40, 20, 5], maxHp))
    ensures currentHp > 0 && r.hp.breakpoints.Some? ==>
              r.hp.hpUntilNextBreakPoint == HpUntilNextBreakPoint(r.hp.breakpoints.value, currentHp)
  {
    w.(hp := ToaUtils.OnHpHudUpdate(w.hp, HP_PERCENT_BREAKPOINTS, maxHp, currentHp))
  }

  /** `onProjectileMoved`: phantom-Zebak rocks are enqueued, siphon and fireball
      projectiles are tracked. */
  function OnProjectileMoved(w: WardenP3, projectile: Handle, id: int, remainingCycles: int, zebakPathLevel: int): (r: WardenP3)
    ensures remainingCycles <= 0 ==> r == w
    ensures remainingCycles > 0 && id == PROJECTILE_ID_ENERGY_SIPHON ==>
              r == w.(energySiphonProjectiles := w.energySiphonProjectiles + [projectile])
    ensures remainingCycles > 0 && id == PROJECTILE_ID_FIREBALL ==>
              r == w.(fireballProjectiles := w.fireballProjectiles + [projectile])
    ensures r.warden == w.warden && r.akkhaPrayer == w.akkhaPrayer && r.nextSlamDirection == w.nextSlamDirection
  {
    if remainingCycles <= 0 then w
    else if ZebakBoss.IsMagicRock(id) || ZebakBoss.IsRangeRock(id) then
      var prayer := if ZebakBoss.IsMagicRock(id) then ProtectFromMagic else ProtectFromMissiles;
      var ticks := CyclesToTicks(remainingCycles) + ZebakBoss.ProjectileTickCount(zebakPathLevel);
      w.(attackProjectiles := Add(w.attackProjectiles, AttackProjectile(prayer, ticks, 0)))
    else if id == PROJECTILE_ID_ENERGY_SIPHON then w.(energySiphonProjectiles := w.energySiphonProjectiles + [projectile])
    else if id == PROJECTILE_ID_FIREBALL then w.(fireballProjectiles := w.fireballProjectiles + [projectile])
    else w
  }

  /** A phantom-Zebak rock changes the queue exactly as the same rock changes Zebak's. */
  lemma ZebakRocksAsInZebak(w: WardenP3, z: ZebakBoss.Zebak, projectile: Handle, id: int,
                            remainingCycles: int, pathLevel: int)
    requires ZebakBoss.IsMagicRock(id) || ZebakBoss.IsRangeRock(id)
    requires z.attackProjectiles == w.attackProjectiles
    ensures OnProjectileMoved(w, projectile, id, remainingCycles, pathLevel).attackProjectiles ==
            ZebakBoss.OnProjectileMoved(z, projectile, id, remainingCycles, pathLevel).attackProjectiles
  {
  }

  /** `onNpcSpawned`: the warden turns the safe-tile hint on; a siphon starts at seven
      ticks plus one per charge phase so far. */
  function OnNpcSpawned(w: WardenP3, npc: Handle, kind: NpcKind): (r: WardenP3)
    ensures kind == Warden ==> r == w.(warden := Some(npc), drawSafeTile := true)
    ensures kind == EnergySiphon ==>
              r == w.(energySiphonToTicks := w.energySiphonToTicks[npc := ENERGY_SIPHON_BASE_TICKS + w.energySiphonSet])
    ensures kind != Warden && kind != EnergySiphon ==> r == w
  {
    if kind == Warden then w.(warden := Some(npc), drawSafeTile := true)
    else if kind == EnergySiphon then
      w.(energySiphonToTicks := w.energySiphonToTicks[npc := ENERGY_SIPHON_BASE_TICKS + w.energySiphonSet])
    else w
  }

  /** `onNpcDespawned`: the warden is forgotten; a dead siphon's counter leaves. */
  function OnNpcDespawned(w: WardenP3, npc: Handle, kind: NpcKind): (r: WardenP3)
    ensures w.warden == Some(npc) ==> r == w.(warden := None)
    ensures w.warden != Some(npc) && kind == DeadEnergySiphon ==>
              r == w.(energySiphonToTicks := w.energySiphonToTicks - {npc})
    ensures w.warden != Some(npc) && kind != DeadEnergySiphon ==> r == w
  {
    if w.warden == Some(npc) then w.(warden := None)
    else if kind == DeadEnergySiphon then w.(energySiphonToTicks := w.energySiphonToTicks - {npc})
    else w
  }

  /** `onNpcChanged`: the tracked warden turning into its charging form starts a new
      charge phase. */
  function OnNpcChanged(w: WardenP3, npc: Handle, oldKind: NpcKind, newKind: NpcKind): (r: WardenP3)
    ensures w.warden == Some(npc) && oldKind != WardenCharging && newKind == WardenCharging ==>
              r == w.(drawSafeTile := true, energySiphonSet := w.energySiphonSet + 1)
    ensures !(w.warden == Some(npc) && oldKind != WardenCharging && newKind == WardenCharging) ==> r == w
  {
    if w.warden == Some(npc) && oldKind != WardenCharging && newKind == WardenCharging
    then w.(drawSafeTile := true, energySiphonSet := w.energySiphonSet + 1)
    else w
  }

  /** `onAnimationChanged`: a warden slam moves the direction on and hides the hint; the
      phantom Akkha's animations set its style prayer. */
  function OnAnimationChanged(w: WardenP3, actor: Actor): (r: WardenP3)
    ensures actor.NotAnNpc? ==> r == w
    ensures actor.NpcActor? && w.warden == Some(actor.handle) ==>
              (ByAnimId(actor.animation).None? ==> r == w) &&
              (ByAnimId(actor.animation).Some? ==>
                 r == w.(drawSafeTile := false, nextSlamDirection := NextSlamDirection(ByAnimId(actor.animation).value)))
    ensures actor.NpcActor? && w.warden != Some(actor.handle) && actor.kind == AkkhasPhantom ==>
              r == w.(akkhaPrayer := r.akkhaPrayer) &&
              (actor.animation == ANIMATION_ID_AKKHA_STYLE_SWITCH ==>
                 r.akkhaPrayer == Some(if w.akkhaPrayer == Some(ProtectFromMissiles) then ProtectFromMagic else ProtectFromMissiles)) &&
              (actor.animation == ANIMATION_ID_AKKHA_MAGIC ==> r.akkhaPrayer == Some(ProtectFromMagic)) &&
              (actor.animation == ANIMATION_ID_AKKHA_RANGE ==> r.akkhaPrayer == Some(ProtectFromMissiles)) &&
              ((actor.animation != ANIMATION_ID_AKKHA_STYLE_SWITCH && actor.animation != ANIMATION_ID_AKKHA_MAGIC &&
                actor.animation != ANIMATION_ID_AKKHA_RANGE) ==> r == w)
    ensures actor.NpcActor? && w.warden != Some(actor.handle) && actor.kind != AkkhasPhantom ==> r == w
  {
    match actor
    case NotAnNpc => w
    case NpcActor(npc, kind, anim) =>
      if w.warden == Some(npc) then
        match ByAnimId(anim)
        case None => w
        case Some(d) => w.(drawSafeTile := false, nextSlamDirection := NextSlamDirection(d))
      else if kind == AkkhasPhantom then
        if anim == ANIMATION_ID_AKKHA_STYLE_SWITCH then
          w.(akkhaPrayer := Some(if w.akkhaPrayer == Some(ProtectFromMissiles) then ProtectFromMagic else ProtectFromMissiles))
        else if anim == ANIMATION_ID_AKKHA_MAGIC then w.(akkhaPrayer := Some(ProtectFromMagic))
        else if anim == ANIMATION_ID_AKKHA_RANGE then w.(akkhaPrayer := Some(ProtectFromMissiles))
        else w
      else w
  }

  /** The phantom Akkha's style switch flips between the two ranged protections. */
  lemma StyleSwitchToggles(w: WardenP3, akkha: Handle)
    requires w.warden != Some(akkha)
    ensures var sw := NpcActor(akkha, AkkhasPhantom, ANIMATION_ID_AKKHA_STYLE_SWITCH);
      var w1 := OnAnimationChanged(w, sw);
      var w2 := OnAnimationChanged(w1, sw);
      w1.akkhaPrayer != w2.akkhaPrayer &&
      (w.akkhaPrayer == Some(ProtectFromMissiles) || w.akkhaPrayer == Some(ProtectFromMagic) ==> w2.akkhaPrayer == w.akkhaPrayer)
  {
  }

  /** `onGraphicsObjectCreated`: falling boulders count 7 ticks, red lightning 4. */
  function OnGraphicsObjectCreated(w: WardenP3, gfx: Handle, id: int): (r: WardenP3)
    ensures id == GRAPHICS_OBJECT_ID_FALLING_BOULDER_A || id == GRAPHICS_OBJECT_ID_FALLING_BOULDER_B ==>
              r == w.(fallingBouldersToTicks := w.fallingBouldersToTicks[gfx := 7])
    ensures id == GRAPHICS_OBJECT_ID_RED_LIGHTNING ==> r == w.(redLightningToTicks := w.redLightningToTicks[gfx := 4])
    ensures (id != GRAPHICS_OBJECT_ID_FALLING_BOULDER_A && id != GRAPHICS_OBJECT_ID_FALLING_BOULDER_B &&
             id != GRAPHICS_OBJECT_ID_RED_LIGHTNING) ==> r == w
  {
    if id == GRAPHICS_OBJECT_ID_FALLING_BOULDER_A || id == GRAPHICS_OBJECT_ID_FALLING_BOULDER_B then
      w.(fallingBouldersToTicks := w.fallingBouldersToTicks[gfx := BABA_BOULDER_TICKS])
    else if id == GRAPHICS_OBJECT_ID_RED_LIGHTNING then
      w.(redLightningToTicks := w.redLightningToTicks[gfx := RED_LIGHTNING_TICKS])
    else w
  }

  /** `k` game ticks. */
  function Ticks(w: WardenP3, remainingCycles: Handle -> int, k: nat): WardenP3 {
    Iterate((x: WardenP3) => OnGameTick(x, remainingCycles), w, k)
  }

  /** The three countdowns over `k` ticks: boulders and red lightning drop, siphons only
      count down. */
  lemma CountdownsOverTicks(w: WardenP3, remainingCycles: Handle -> int, k: nat)
    ensures Ticks(w, remainingCycles, k).fallingBouldersToTicks == DropTicks(w.fallingBouldersToTicks, k)
    ensures Ticks(w, remainingCycles, k).redLightningToTicks == DropTicks(w.redLightningToTicks, k)
    ensures Ticks(w, remainingCycles, k).energySiphonToTicks == DecrementFor(w.energySiphonToTicks, k)
  {
    var step := (x: WardenP3) => OnGameTick(x, remainingCycles);
    IterateProjects(step, (x: WardenP3) => x.fallingBouldersToTicks, DecrementAndDrop, w, k);
    IterateProjects(step, (x: WardenP3) => x.redLightningToTicks, DecrementAndDrop, w, k);
    IterateProjects(step, (x: WardenP3) => x.energySiphonToTicks, Decrement, w, k);
  }

  /** A red-lightning tile is shown for exactly four ticks after it appears. */
  lemma RedLightningLastsFour(w: WardenP3, gfx: Handle, remainingCycles: Handle -> int, k: nat)
    ensures var w1 := OnGraphicsObjectCreated(w, gfx, GRAPHICS_OBJECT_ID_RED_LIGHTNING);
      gfx in Ticks(w1, remainingCycles, k).redLightningToTicks <==> k < 4
  {
    var w1 := OnGraphicsObjectCreated(w, gfx, GRAPHICS_OBJECT_ID_RED_LIGHTNING);
    CountdownsOverTicks(w1, remainingCycles, k);
    DroppedAfterExactly(w1.redLightningToTicks, gfx, k);
  }

  /** A falling boulder is shown for exactly seven ticks. */
  lemma BoulderLastsSeven(w: WardenP3, gfx: Handle, remainingCycles: Handle -> int, k: nat)
    ensures var w1 := OnGraphicsObjectCreated(w, gfx, GRAPHICS_OBJECT_ID_FALLING_BOULDER_A);
      gfx in Ticks(w1, remainingCycles, k).fallingBouldersToTicks <==> k < 7
  {
    var w1 := OnGraphicsObjectCreated(w, gfx, GRAPHICS_OBJECT_ID_FALLING_BOULDER_A);
    CountdownsOverTicks(w1, remainingCycles, k);
    DroppedAfterExactly(w1.fallingBouldersToTicks, gfx, k);
  }

  /** A siphon spawned in the `n`-th charge phase shows `7 + n - k` after `k` ticks, going
      negative rather than leaving. */
  lemma SiphonCountsDown(w: WardenP3, siphon: Handle, remainingCycles: Handle -> int, k: nat)
    ensures var w1 := OnNpcSpawned(w, siphon, EnergySiphon);
      var c := Ticks(w1, remainingCycles, k).energySiphonToTicks;
      siphon in c && c[siphon] == 7 + w.energySiphonSet - k
  {
    var w1 := OnNpcSpawned(w, siphon, EnergySiphon);
    CountdownsOverTicks(w1, remainingCycles, k);
    DecrementsForever(w1.energySiphonToTicks, siphon, k);
  }

  /** Each charge phase adds one tick to the siphons spawned after it. */
  lemma ChargePhaseAddsATick(w: WardenP3, warden: Handle, siphon: Handle)
    requires w.warden == Some(warden)
    ensures var w1 := OnNpcChanged(w, warden, Warden, WardenCharging);
      OnNpcSpawned(w1, siphon, EnergySiphon).energySiphonToTicks[siphon] ==
      OnNpcSpawned(w, siphon, EnergySiphon).energySiphonToTicks[siphon] + 1
  {
  }

  /** A slam steps the safe tile on: after a slam in direction `d` the hint points at the
      tile safe from `NextSlamDirection(d)`. */
  lemma SlamMovesSafeTile(w: WardenP3, warden: Handle, kind: NpcKind, anim: int)
    requires w.warden == Some(warden) && ByAnimId(anim).Some?
    ensures var w1 := OnAnimationChanged(w, NpcActor(warden, kind, anim));
      !w1.drawSafeTile && SafeTileCoord(w1.nextSlamDirection) == SafeTileCoord(NextSlamDirection(ByAnimId(anim).value))
  {
  }

  // ----- the phase-3 prayer widget -----

  /** `getNextPrayer`: the phantom Akkha's prayer overrides the queue; otherwise the
      queue head's prayer, if any. */
  function NextPrayer(w: WardenP3): (p: Option<Prayer>)
    ensures w.akkhaPrayer.Some? ==> p == w.akkhaPrayer
    ensures w.akkhaPrayer.None? && |w.attackProjectiles| == 0 ==> p.None?
    ensures w.akkhaPrayer.None? && |w.attackProjectiles| > 0 ==>
              exists h :: h in w.attackProjectiles && p == Some(h.prayer) &&
                forall x :: x in w.attackProjectiles ==> !Precedes(x, h)
  {
    if w.akkhaPrayer.Some? then w.akkhaPrayer
    else match Peek(w.attackProjectiles)
      case None => None
      case Some(h) => Some(h.prayer)
  }

  /** `getAttackProjectileQueue`: the widget draws phase 3's own queue. */
  function WidgetQueue(w: WardenP3): (q: Queue)
    ensures multiset(q) == multiset(w.attackProjectiles)
  {
    w.attackProjectiles
  }

  /** The widget is active exactly when phase 3 is. */
  predicate WidgetIsEnabled(s: RaidState) {
    IsEnabled(s)
  }
}

=== FILE: zebak.dfy ===
/** Zebak: rock attacks become prayer hazards, blood magic becomes a single priority-1
    hazard per cloud wave, and the arena projectiles and blood clouds are tracked for
    drawing. Host objects are handles; the per-object host queries (remaining cycles,
    finished) are functions passed to the tick. */
module ZebakBoss {
  import opened Common
  import opened AttackProjectiles
  import opened HazardQueues
  import opened ToaUtils
  import opened Raid

  const HP_PERCENT_BREAKPOINTS: seq<int> := [85, 70, 55, 40]
  const NPC_NAME: string := "Zebak"
  const PROJECTILE_ID_VENOM: int := 2194
  const PROJECTILE_ID_VENOM_SPLASH: int := 1555
  const PROJECTILE_ID_ROCK: int := 2172
  const PROJECTILE_ID_JUG: int := 2173
  const PROJECTILE_ID_MAGIC_ROCK: int := 2176
  const PROJECTILE_ID_MAGIC_ROCK_ENRAGED: int := 2177
  const PROJECTILE_ID_RANGE_ROCK: int := 2178
  const PROJECTILE_ID_RANGE_ROCK_ENRAGED: int := 2179
  const GRAPHICS_OBJECT_ID_BLOOD_MAGIC: int := 377
  const BLOOD_MAGIC_TICK_COUNT: int := 4

  datatype Zebak = Zebak(
    attackProjectiles: Queue,
    arenaProjectiles: seq<Handle>,
    bloodMagicGfxObjects: seq<Handle>,
    npc: Option<Handle>,
    hp: BreakpointTracker)

  const Reset := Zebak([], [], [], None, NoBreakpoints)

  predicate IsEnabled(s: RaidState) {
    s.currentRoom == Some(ZEBAK)
  }

  /** `getProjectileTickCount`: the extra ticks between a rock landing and the hit. */
  function ProjectileTickCount(pathLevel: int): (k: int)
    ensures k == 2 || k == 3
    ensures k == 2 <==> pathLevel >= 4
  {
    if pathLevel >= 4 then 2 else 3
  }

  predicate IsMagicRock(id: int) {
    id == PROJECTILE_ID_MAGIC_ROCK || id == PROJECTILE_ID_MAGIC_ROCK_ENRAGED
  }

  predicate IsRangeRock(id: int) {
    id == PROJECTILE_ID_RANGE_ROCK || id == PROJECTILE_ID_RANGE_ROCK_ENRAGED
  }

  predicate IsArenaProjectile(id: int) {
    id == PROJECTILE_ID_JUG || id == PROJECTILE_ID_ROCK || id == PROJECTILE_ID_VENOM || id == PROJECTILE_ID_VENOM_SPLASH
  }

  /** `onProjectileMoved`. */
  function OnProjectileMoved(z: Zebak, projectile: Handle, id: int, remainingCycles: int, pathLevel: int): (r: Zebak)
    ensures remainingCycles <= 0 ==> r == z
    ensures r.npc == z.npc && r.hp == z.hp && r.bloodMagicGfxObjects == z.bloodMagicGfxObjects
    ensures remainingCycles > 0 && (IsMagicRock(id) || IsRangeRock(id)) ==>
              r.arenaProjectiles == z.arenaProjectiles &&
              exists p :: multiset(r.attackProjectiles) == multiset(z.attackProjectiles) + multiset{p} &&
                p.prayer == (if IsMagicRock(id) then ProtectFromMagic else ProtectFromMissiles) &&
                p.priority == 0 && p.ticks >= 3 &&
                p.ticks == CyclesToTicks(remainingCycles) + ProjectileTickCount(pathLevel)
    ensures remainingCycles > 0 && IsArenaProjectile(id) ==>
              r.attackProjectiles == z.attackProjectiles && r.arenaProjectiles == z.arenaProjectiles + [projectile]
    ensures !IsMagicRock(id) && !IsRangeRock(id) && !IsArenaProjectile(id) ==> r == z
  {
    if remainingCycles <= 0 then z
    else if IsMagicRock(id) || IsRangeRock(id) then
      var prayer := if IsMagicRock(id) then ProtectFromMagic else ProtectFromMissiles;
      CyclesToTicksBracket(remainingCycles);
      z.(attackProjectiles := Add(z.attackProjectiles,
           WithDefaultPriority(prayer, CyclesToTicks(remainingCycles) + ProjectileTickCount(pathLevel))))
    else if IsArenaProjectile(id) then
      z.(arenaProjectiles := z.arenaProjectiles + [projectile])
    else z
  }

  /** `onGraphicsObjectCreated`: the first blood-magic cloud of a wave enqueues one
      priority-1 magic hazard; every cloud is tracked. */
  function OnGraphicsObjectCreated(z: Zebak, gfx: Handle, id: int): (r: Zebak)
    ensures id != GRAPHICS_OBJECT_ID_BLOOD_MAGIC ==> r == z
    ensures id == GRAPHICS_OBJECT_ID_BLOOD_MAGIC ==>
              r.bloodMagicGfxObjects == z.bloodMagicGfxObjects + [gfx] &&
              r.arenaProjectiles == z.arenaProjectiles && r.npc == z.npc && r.hp == z.hp
    ensures id == GRAPHICS_OBJECT_ID_BLOOD_MAGIC && |z.bloodMagicGfxObjects| == 0 ==>
              multiset(r.attackProjectiles) == multiset(z.attackProjectiles) + multiset{AttackProjectile(ProtectFromMagic, 4, 1)}
    ensures |z.bloodMagicGfxObjects| > 0 ==> r.attackProjectiles == z.attackProjectiles
  {
    if id != GRAPHICS_OBJECT_ID_BLOOD_MAGIC then z
    else
      var q := if |z.bloodMagicGfxObjects| == 0
               then Add(z.attackProjectiles, AttackProjectile(ProtectFromMagic, BLOOD_MAGIC_TICK_COUNT, 1))
               else z.attackProjectiles;
      z.(attackProjectiles := q, bloodMagicGfxObjects := z.bloodMagicGfxObjects + [gfx])
  }

  /** `onGameTick`: the queue decays, finished clouds and landed arena projectiles leave. */
  function OnGameTick(z: Zebak, remainingCycles: Handle -> int, finished: Handle -> bool): (r: Zebak)
    ensures r.npc == z.npc && r.hp == z.hp
    ensures r.attackProjectiles == Tick(z.attackProjectiles)
    ensures forall g :: g in r.bloodMagicGfxObjects <==> g in z.bloodMagicGfxObjects && !finished(g)
    ensures forall p :: p in r.arenaProjectiles <==> p in z.arenaProjectiles && remainingCycles(p) > 0
  {
    z.(attackProjectiles := Tick(z.attackProjectiles),
       bloodMagicGfxObjects := Filter(z.bloodMagicGfxObjects, g => !finished(g)),
       arenaProjectiles := Filter(z.arenaProjectiles, p => remainingCycles(p) > 0))
  }

  /** `onNpcSpawned`: the boss is recognised by name. */
  function OnNpcSpawned(z: Zebak, npc: Handle, name: string): (r: Zebak)
    ensures name == NPC_NAME ==> r == z.(npc := Some(npc))
    ensures name != NPC_NAME ==> r == z
    ensures r.npc == Some(npc) <==> name == "Zebak" || z.npc == Some(npc)
  {
    if name == NPC_NAME then z.(npc := Some(npc)) else z
  }

  /** `onNpcDespawned`: losing the tracked boss clears everything. */
  function OnNpcDespawned(z: Zebak, npc: Handle): (r: Zebak)
    ensures z.npc == Some(npc) ==>
              r.attackProjectiles == [] && r.arenaProjectiles == [] && r.bloodMagicGfxObjects == [] &&
              r.npc.None? && r.hp.breakpoints.None? && r.hp.hpUntilNextBreakPoint == -1
    ensures z.npc != Some(npc) ==> r == z
  {
    if z.npc == Some(npc) then Reset else z
  }

  /** The HP_HUD_UPDATE script: breakpoints at 85/70/55/40 percent of the maximum. */
  function OnHpHudUpdate(z: Zebak, maxHp: int, currentHp: int): (r: Zebak)
    ensures r.attackProjectiles == z.attackProjectiles && r.npc == z.npc
    ensures z.hp.breakpoints.None? && maxHp <= 1 ==> r == z
    ensures z.hp.breakpoints.None? && maxHp > 1 ==> r.hp.breakpoints == Some(DeriveBreakpoints([85, 70, 55, 40], maxHp))
    ensures currentHp > 0 && r.hp.breakpoints.Some? ==>
              r.hp.hpUntilNextBreakPoint == HpUntilNextBreakPoint(r.hp.breakpoints.value, currentHp)
  {
    z.(hp := ToaUtils.OnHpHudUpdate(z.hp, HP_PERCENT_BREAKPOINTS, maxHp, currentHp))
  }

  /** A rock hazard enqueued with `c > 0` remaining cycles is expired after exactly
      `cyclesToTicks(c) + k` decrements and not before, and its prayer never changes. */
  lemma RockHazardLifetime(remainingCycles: int, pathLevel: int, prayer: Prayer, k: nat)
    requires remainingCycles > 0
    ensures var p := WithDefaultPriority(prayer, CyclesToTicks(remainingCycles) + ProjectileTickCount(pathLevel));
      (IsExpired(Decayed(p, k)) <==> k >= p.ticks) && Decayed(p, k).prayer == prayer
  {
    var p := WithDefaultPriority(prayer, CyclesToTicks(remainingCycles) + ProjectileTickCount(pathLevel));
    CyclesToTicksBracket(remainingCycles);
    ExpiresAfterExactly(p, k);
  }

  /** One blood-magic hazard per wave: while a cloud is tracked, further clouds are
      tracked too but add no hazard. */
  lemma {:induction false} OneBloodHazardPerWave(z: Zebak, clouds: seq<Handle>)
    requires |z.bloodMagicGfxObjects| > 0
    ensures Clouds(z, clouds).attackProjectiles == z.attackProjectiles
    ensures Clouds(z, clouds).bloodMagicGfxObjects == z.bloodMagicGfxObjects + clouds
    decreases |clouds|
  {
    if |clouds| > 0 {
      var z1 := OnGraphicsObjectCreated(z, clouds[0], GRAPHICS_OBJECT_ID_BLOOD_MAGIC);
      OneBloodHazardPerWave(z1, clouds[1..]);
      assert z.bloodMagicGfxObjects + [clouds[0]] + clouds[1..] == z.bloodMagicGfxObjects + clouds;
    }
  }

  /** A sequence of blood-magic clouds, one event each. */
  function Clouds(z: Zebak, clouds: seq<Handle>): Zebak
    decreases |clouds|
  {
    if |clouds| == 0 then z
    else Clouds(OnGraphicsObjectCreated(z, clouds[0], GRAPHICS_OBJECT_ID_BLOOD_MAGIC), clouds[1..])
  }
}
